=== FILE: README.md ===
# A verified model of the dig-qe-interview-test UI helpers

This project models the deterministic core of a WebdriverIO test suite for
a web application with AG Grid tables. It covers:

- the helpers that search, filter and read those grids;
- the screenshot file-name sanitisers and the date, number, stack-line and
  timestamp formatters;
- the pass/fail and error-propagation rules of the Allure report steps;
- the browser capability selection of the WebdriverIO configuration;
- the token cache and the singleton of the HTTP API service.

The live page, the clock and the reporter are not modelled. They become
parameters:

- a header cell, a heading, a row or a poll is the value that reading the
  page gives, or the failure of that read;
- a `waitUntil` is the sequence of what its condition observes at each poll
  before the timeout;
- a deadline is a number of passes;
- a timestamp or a date is given as text or as its components.

Side effects on the page and on the report (clicks, scrolls, typed
characters, report steps, screenshots) are returned as traces: sequences of
actions in the order the helper performs them. Each helper's contract
states which actions happen, in what order, and which error escapes. The
comparisons that common.ts and filterDialogBox.ts hand to the `Assertion`
helpers of helpers/ui/assertion.ts are the exception: the model gives the
values compared, not the report steps those helpers make, since
helpers/ui/assertion.ts is not part of this model.

The project has one module per source file: `Common`, `FilterDialogBox`,
`Commands`, `Scrolling`, `AllureReport`, `TimestampCommands`,
`AsyncObjValidation`, `ApiService`, `WdioConf` and `ConsoleLog`. Shared
modules sit beside them:

- `Results`: `Option`;
- `Text`: trimming, case, splitting and searching in strings;
- `Numbers`: decimal digits and JavaScript's `parseInt`, with and without a radix;
- `Reporter`: the calls made to the Allure reporter and to `saveScreenshot`,
  as trace events;
- `Snapshot`: the first-match walk over the reads of a list of elements,
  shared by every grid search.

Where a loop of the source updates variables step by step, the model is a
`method` with that loop, proved against a function that states its result.
The pure helpers are functions. The API service is a class with its cached
token promise as a field.

Where the code and its documentation disagree, the model follows the code:

- `scrollToColumn` is documented to return the text of the column's
  first-row cell, `''` on an error, and to throw when the header is not
  found. It returns `undefined` when it finds the column, because the
  return of the cell's text is commented out. It returns `''` when it does
  not: its own `catch` turns the "not found" throw into `''`, just like a
  read or a scroll that throws.
- The comment in `getRequest` promises a single slash between the base and
  the path. Two slashes result when the base ends with `/` and the path
  starts with one.
- The file name of `Commands.getSanitizedFileName` is not guaranteed to end
  in `.png` only when the untruncated name fits. A description holding
  `.png` just before character 240 also gives a cut name that ends in
  `.png`. The model proves what does hold: a name that fits ends in `.png`,
  and a name that does not fit is exactly 240 characters long.
- `fetchAuthToken` keeps a rejected token promise, so a failed login is
  never retried.

## Model

| member | source | states |
|---|---|---|
| AllureReport.Blank | helpers/allure/allureReport.ts:28-32 | an empty actual or expected value is shown as "blank"; any other value is shown as it is, and the text is never empty |
| AllureReport.BlankIdempotent | helpers/allure/allureReport.ts:28-32 | substituting "blank" twice gives the same text as substituting it once |
| AllureReport.SanitizeStepName | helpers/allure/allureReport.ts:34 | the length stays the same; every character outside `[A-Za-z0-9_]` becomes `_` and the others stay |
| AllureReport.SanitizeStepNameIdempotent | helpers/allure/allureReport.ts:34 | the result holds only word characters; sanitising twice is sanitising once; a name of word characters only is unchanged |
| AllureReport.StepScreenshotNameShape | helpers/allure/allureReport.ts:34-37 | the screenshot name is the sanitised description, `_`, the timestamp without `:` and `.`, then `.png`, with its length |
| AllureReport.StepStatus | helpers/allure/allureReport.ts:55-59 | the step ends FAILED exactly when the comparison failed |
| AllureReport.AppendToReport | helpers/allure/allureReport.ts:24-64 | step start, three text attachments and the screenshot come first; a failed screenshot is rethrown and the step is not ended; otherwise the image is attached and the step ends FAILED iff the `toContain` or `toEqual` comparison fails |
| AllureReport.AppendToReport3 | helpers/allure/allureReport.ts:79-119 | nothing escapes; a failed screenshot leaves the step open; otherwise the step ends PASSED iff actual equals expected |
| AllureReport.ErrorScreenshotName | helpers/allure/allureReport.ts:124-133 | a message containing "element wasn't found" gives `elementNotFound_<stamp>.png`; any other message gives the separator-collapsed name of `getSanitizedFileName` |
| AllureReport.ErrorScreenshotNameOfPlainMessage | helpers/allure/allureReport.ts:127-147 | a message with no `\|`, `,` or space that does not mention a missing element names the file after itself |
| AllureReport.CaptureErrorScreenshot | helpers/allure/allureReport.ts:122-142 | the screenshot is always taken under the chosen name; it is attached iff saving succeeded; the function never throws |
| TimestampCommands.GenerateTimestampShape | helpers/allure/timestampCommands.ts:7-19 | for a four-digit year the timestamp has 19 characters, with separators at fixed places; the year, the 1-based month, the day, the hours, the minutes and the seconds are read back from their digits, each of the last five as two digits |
| TimestampCommands.GenerateTimestampInjective | helpers/allure/timestampCommands.ts:7-19 | distinct valid times give distinct timestamps |
| TimestampCommands.AddTimestampToName | helpers/allure/timestampCommands.ts:26-39 | the result is the name, then `: `, then the timestamp; this is both `addTimestampToTestName` and `addTimestampToStepName` |
| ConsoleLog.FileEndGreatest | helpers/logger/consoleLog.ts:25 | the file-name group `(.+)` is the longest one after which `:(\d+):(\d+)\)` matches, as backtracking finds it |
| ConsoleLog.MethodEndGreatest | helpers/logger/consoleLog.ts:25 | the method-name group `(.+)` is the longest one after which the rest of the pattern matches |
| ConsoleLog.MatchStartLeftmost | helpers/logger/consoleLog.ts:25 | `exec` starts at the leftmost position where the pattern can match |
| ConsoleLog.ExecSpan | helpers/logger/consoleLog.ts:25-28 | the four groups lie in the line in order, separated by ` (`, `:`, `:` and closed by `)` |
| ConsoleLog.ExecMatches | helpers/logger/consoleLog.ts:25-28 | what `exec` returns is a match: the line contains `at <method> (<file>:<line>:<column>)` built from the groups |
| ConsoleLog.ExecLeftmost | helpers/logger/consoleLog.ts:25 | wherever a match can start, `exec` succeeds, and its match starts there or before |
| ConsoleLog.ExecNeedsAt | helpers/logger/consoleLog.ts:25 | a line without `at ` gives `null` |
| ConsoleLog.SecondLine | helpers/logger/consoleLog.ts:24 | a missing stack gives no line; otherwise a second line exists iff the stack holds a line break |
| ConsoleLog.SecondLineOf | helpers/logger/consoleLog.ts:24 | the second line is the text between the first and the second line break |
| ConsoleLog.UndefinedDoesNotMatch | helpers/logger/consoleLog.ts:24-25 | the text "undefined" that `exec` receives for a missing line does not match |
| ConsoleLog.GetErrorLocation | helpers/logger/consoleLog.ts:23-33 | when the second line of the stack matches, the four fields are the pattern's method, file, line and column groups; without a second line or without a match all four are null; they are null or present together, and the line and column numbers are non-empty digit strings |
| ConsoleLog.ExecExample | helpers/logger/consoleLog.ts:25-29 | the line `    at f (a.ts:10:5)` gives method `f`, file `a.ts`, line `10` and column `5` |
| ConsoleLog.GetErrorLocationExample | helpers/logger/consoleLog.ts:23-33 | a stack whose second line is `    at f (a.ts:10:5)` gives that location, whatever its first line |
| WdioConf.DarwinMajorBeforeDot | config/wdio.conf.ts:33 | only the text before the first `.` is parsed as the Darwin major version |
| WdioConf.DarwinMajorWhole | config/wdio.conf.ts:33 | a version without a `.` is parsed whole |
| WdioConf.MacOSRelease | config/wdio.conf.ts:33-40 | Sequoia iff the major version is at least 24; Ventura, Monterey, Big Sur and Catalina iff it is 23, 22, 21 and 20 as written; unknown iff it does not parse or is below 20; Sonoma is never named |
| WdioConf.GetMacOSVersion | config/wdio.conf.ts:32-41 | the text of the named release, or "Unknown macOS version (Darwin <input>)" with the input embedded |
| WdioConf.GetMacOSVersionOffByOne | config/wdio.conf.ts:36-39 | as written, Darwin 20 to 23 are named with a macOS major version one below that of the kernel's release |
| WdioConf.SonomaNamedVentura | config/wdio.conf.ts:36 | a version with Darwin major 23, such as "23.6.0" (the kernel of macOS 14 Sonoma), is reported as "macOS Ventura (13.x)" |
| WdioConf.MacOSReleaseCorrected | config/wdio.conf.ts:33-40 | the corrected mapping is unknown iff the version does not parse or is below 19 |
| WdioConf.GetMacOSVersionCorrected | config/wdio.conf.ts:32-41 | the corrected text: the named release's text, or the unknown-version text |
| WdioConf.GetMacOSVersionCorrectedNamesRelease | config/wdio.conf.ts:34-39 | corrected, Darwin 20 to 24 are named with the macOS major version of their release, and Darwin 19 is Catalina |
| WdioConf.FlagsOf | config/wdio.conf.ts:16-18 | each flag is set iff its option occurs in the arguments |
| WdioConf.Capabilities | config/wdio.conf.ts:52-87 | with `--all`, chrome then firefox; otherwise a single entry, firefox iff `--firefox` is given |
| WdioConf.CapabilityArgs | config/wdio.conf.ts:56-83 | chrome gets `--headless`, `--disable-gpu` before the blink flag iff `--headless` is given, else the blink flag alone; firefox gets `-headless` iff it is given, else no arguments |
| WdioConf.HeadlessKeepsBrowsers | config/wdio.conf.ts:52-87 | adding `--headless` leaves the number and the order of the browsers unchanged |
| Snapshot.Judge | helpers/ui/scrolling.ts:90-91 | a read is judged a failure iff the element could not be read, and a match iff its text meets the walk's comparison |
| Snapshot.UntrimmedTargetNeverMatches | helpers/ui/scrolling.ts:91 | the target is lower-cased but not trimmed, so a target that starts with white space matches no header |
| Snapshot.ScanHitMeaning | helpers/ui/scrolling.ts:89-94 | a walk stops at element `k` with a match iff `k` reads and matches and every element before it reads and does not match |
| Snapshot.ScanMissMeaning | helpers/ui/scrolling.ts:89-105 | a walk runs past the end iff every element reads and none matches |
| Snapshot.ScanCells | helpers/ui/filterDialogBox.ts:39-47 | the index loop with early exit ends as the first-match walk over the reads does |
| Scrolling.ScreenshotFileNameShape | helpers/ui/scrolling.ts:5-9 | the name is the collapsed description, `_`, the timestamp without `:` and `.`, and `.png`; the first part holds no `\|`, `,` or space and the timestamp no `:` or `.` |
| Scrolling.ScreenshotFileNameKeeps | helpers/ui/scrolling.ts:5-9 | a description without separators is kept as it is |
| Scrolling.ScreenshotFileNameRun | helpers/ui/scrolling.ts:6 | a maximal run of `\|`, `,` and space becomes exactly one `_` |
| Scrolling.InViewportContainment | helpers/ui/scrolling.ts:156-160 | the comparison holds iff every point of the element's box lies inside the window's box |
| Scrolling.ElementLabel | helpers/ui/scrolling.ts:162-173 | the label built from the tag and class reads when the text is empty: `tag_class` with each white-space run of the class turned into one `_`, and a null class attribute throws |
| Scrolling.ElementDescription | helpers/ui/scrolling.ts:162-173 | a non-empty text is the description; otherwise the `getTagName` read that throws, then the `getAttribute('class')` read that throws or gives null, is the error, and else the `tag_class` label; a description is never empty |
| Scrolling.IsElementInViewport | helpers/ui/scrolling.ts:139-193 | true iff the element exists, the geometry, text, tag and class reads succeed, the containment test holds and the "Scrolling not required" screenshot succeeds; every failure gives false; the report gets the step "Is element <description> in viewport? Yes\|No" iff the element exists and those reads succeed, and then exactly the steps, screenshot and attachment of the source |
| Scrolling.ViewportAnswer | helpers/ui/scrolling.ts:174-183 | the viewport step says Yes iff the containment test holds; it and its sub-step end passed unless the screenshot of an in-view element fails; a Yes with a false result means that screenshot failed |
| Scrolling.ScrollOptionsFor | helpers/ui/scrolling.ts:35-37 | block and inline are always centre; `behavior: 'smooth'` is present iff the smooth flag is set |
| Scrolling.ScrollToElement | helpers/ui/scrolling.ts:24-67 | no scroll iff the element is missing or already in the viewport; otherwise one scroll with the chosen options; nothing is reported for a missing element; the viewport check's steps come first, and after a scroll the step "Scrolled to <description>" with its "After scroll" screenshot when the description reads; it never throws |
| Scrolling.ScrolledStepMeansScroll | helpers/ui/scrolling.ts:45-59 | for an element whose description reads, the report holds a "Scrolled to <description>" step iff the element was scrolled |
| Scrolling.PassScrollsAt | helpers/ui/scrolling.ts:96-104 | a pass over `n` headers scrolls header `j` and then its first-row cell, for each `j` below `n`, in order |
| Scrolling.PassScrollsBelow | helpers/ui/scrolling.ts:89-104 | no header at or beyond the pass length is scrolled |
| Scrolling.StepHeader | helpers/ui/scrolling.ts:90-104 | a header's step gives its verdict, with a header that does not match but whose own scroll or first-row cell scroll throws counted as a failure; it begins the header's scroll and then the cell's, none after a failed read, and none for a match |
| Scrolling.ScanPass | helpers/ui/scrolling.ts:89-105 | one pass ends as the walk over the per-header verdicts does (first match, first read or scroll that throws, or past the end), having scrolled the headers before it and whatever the failing header began |
| Scrolling.PassStops | helpers/ui/scrolling.ts:90-103 | after headers that all passed, a header that matches ends the pass with a hit and one whose read or scroll throws ends it with a failure |
| Scrolling.PassGoesOn | helpers/ui/scrolling.ts:96-104 | a header that reads, does not match and is scrolled adds its own scroll and its cell's and the pass goes on |
| Scrolling.PassMisses | helpers/ui/scrolling.ts:89-105 | a pass in which every header passes misses, having scrolled every header and its cell |
| Scrolling.RunPass | helpers/ui/scrolling.ts:89-105 | running pass `p` gives that pass's outcome |
| Scrolling.ScrollToColumn | helpers/ui/scrolling.ts:77-132 | the index and the scrolls are those of the search over the passes' outcomes; the result is `''` iff no header was found (the deadline passed, or a read or scroll threw), and `undefined` otherwise |
| Scrolling.SearchStep | helpers/ui/scrolling.ts:84-114 | a missed pass is followed by the rest of the search; a hit, or a read or scroll that throws, ends it |
| Scrolling.ColumnFound | helpers/ui/scrolling.ts:89-109 | a found column is at 1-based index `i+1` of the first pass that did not miss, which hit at `i`; every earlier pass missed, and the scrolls are the earlier ones followed by that pass's |
| Scrolling.ColumnNotFound | helpers/ui/scrolling.ts:116-131 | when no pass before the deadline hits, the index stays `-1` |
| Scrolling.PassHitMeaning | helpers/ui/scrolling.ts:89-104 | a pass hits `k` iff header `k` reads and matches and every header before it reads, does not match and has both scrolls succeed |
| Scrolling.ScrollFailureEndsSearch | helpers/ui/scrolling.ts:96-129 | a first-pass header that reads and does not match but whose scroll throws (as on a grid without rows), after headers that all passed, ends the search with `-1`, hence `''`, having scrolled the headers before it and what it began |
| Scrolling.ColumnFoundOnPage | helpers/ui/scrolling.ts:89-104 | a found column `i+1` comes from a pass whose header `i` reads and meets the criterion, after headers that all read, did not match and were scrolled, every earlier pass having missed |
| Commands.SanitizeDescriptionClean | helpers/ui/commands.ts:80-84 | after the four replacements the description holds none of `: / \ ? * " < > \|` CR LF, no white space, and no two dashes or two underscores in a row |
| Commands.SanitizeDescriptionKeeps | helpers/ui/commands.ts:80-84 | a description that is already clean is kept as it is |
| Commands.SanitizeDescriptionIdempotent | helpers/ui/commands.ts:80-84 | applying the four replacements twice gives the same result as applying them once |
| Commands.GetSanitizedFileName | helpers/ui/commands.ts:78-91 | the name is the lower case of the first 240 characters of the description, `_`, the timestamp without `:`, `.` and `-`, and `.png`; it is at most 240 long and holds no upper-case letter |
| Commands.GetSanitizedFileNameFits | helpers/ui/commands.ts:87-90 | a name that fits ends in `.png` and starts with the lower-cased description followed by `_` |
| Commands.GetSanitizedFileNameCut | helpers/ui/commands.ts:90 | a name that does not fit is exactly 240 long, the lower case of the first 240 characters |
| Commands.ClickLabel | helpers/ui/commands.ts:25-30 | a non-empty trimmed text is the label; otherwise the `getTagName` or `getAttribute('class')` read that throws, or a null class, is the error, and else `tag_class` with white-space runs of the class turned into `_` |
| Commands.ClickLabelTrimmed | helpers/ui/commands.ts:25-30 | a label taken from the text neither starts nor ends with white space; a text of white space only is labelled by tag and class |
| Commands.ClickPrepare | helpers/ui/commands.ts:22-31 | the label is given iff the wait and the text read succeed and, for a blank text, the tag and class reads succeed with a non-null class; otherwise the first of those failures is the error |
| Commands.ClickStep | helpers/ui/commands.ts:34-43 | the step starts with "Click on <label>"; the click is the fourth call; the calls stop at the first failure, and only a complete step ends PASSED |
| Commands.ClickRecovery | helpers/ui/commands.ts:46-52 | a step "Failed to click on element: <message>" with the error screenshot taken twice; it ends FAILED, unless the screenshot fails and the step stays open (one `errorShot` stands for both `saveScreenshot` calls at lines 50-51) |
| Commands.Click | helpers/ui/commands.ts:19-55 | with no failure, the attempt's calls alone; a failed wait, text, tag or class read, or a failed click, goes to the recovery, which follows, and the original error is rethrown, unless the error screenshot itself failed |
| Commands.ClickClicksOnce | helpers/ui/commands.ts:38 | the element is clicked once, as the fourth call, iff the waits, the label and the first screenshot succeeded |
| Commands.ClickEndsOneStep | helpers/ui/commands.ts:19-55 | at most one step is ended, and only by the last call |
| Commands.ClickEndStatus | helpers/ui/commands.ts:43-53 | nothing is raised iff nothing failed, and then the step ends PASSED; after a failure with the error screenshot taken it ends FAILED |
| Commands.SetTextLabel | helpers/ui/commands.ts:107-113 | the untrimmed text is the label; otherwise `tag_class`, with `no-class` for a missing or empty class |
| Commands.SetTextLabelTotal | helpers/ui/commands.ts:107-113 | unlike the other helpers, `setText` never fails for a missing class, and agrees with them wherever they succeed |
| Commands.InputName | helpers/ui/commands.ts:118-119 | the aria label when it is truthy, the selector otherwise |
| Commands.SetTextDescription | helpers/ui/commands.ts:107-114 | the step description is read iff `getText` succeeds and, when the text is empty, `getTagName` and `getAttribute('class')` succeed too; it is then the text or `tag_class`, and otherwise the first read's error |
| Commands.SetText | helpers/ui/commands.ts:103-135 | nothing is raised iff the description reads, `setValue`, `getValue`, `getAttribute("aria-label")` and the screenshot all succeed; a failed description read is the error raised; a failure adds a "Failed to set value in input field: …" step and is rethrown unchanged; the value is set iff the description could be read |
| Commands.StopAfter | helpers/ui/commands.ts:164-177 | typing stops after a character iff its `addValue` throws, with that error, or the elapsed time is then at least 5000 ms, with "Maximum runtime reached. Stopping input." |
| Commands.FirstStop | helpers/ui/commands.ts:164-177 | the first character after which typing stops, with its error, every earlier one letting it go on; none iff no character stops it |
| Commands.Typed | helpers/ui/commands.ts:164-178 | the characters added are a prefix of the text: all of it when nothing stops typing, else up to and including the character after which it stopped |
| Commands.SetText2 | helpers/ui/commands.ts:148-202 | not clickable: no call and the timeout message; a failed click or clear ends there with its error; otherwise one `addValue` per character added, and typing that stops (a failed `addValue`, or an overrun) rethrows its error right after that character; otherwise the reads and the report step follow |
| Commands.SetText2Report | helpers/ui/commands.ts:179-200 | a failed `getValue` or `getAttribute` throws before the step starts; otherwise the step names the entered text and the input; it fails iff the screenshot fails, with its error, and otherwise ends passed after four calls |
| Commands.TypedStopsAtFirstStop | helpers/ui/commands.ts:164-177 | the characters are added in order; every character but the last added had its `addValue` succeed within the time; typing stops early only after a failed `addValue` or an overrun |
| AsyncObjValidation.BetweenParens | helpers/ui/AsyncObjValidation.ts:149-155 | the text strictly between the first `(` and the first `)` when both exist and `close > open + 1`, and the empty string otherwise |
| AsyncObjValidation.FmsFiltersNumberNaN | helpers/ui/AsyncObjValidation.ts:151-156 | without a non-empty text between the first `(` and the first `)`, the empty string is parsed, which gives `NaN` |
| AsyncObjValidation.BetweenParensOf | helpers/ui/AsyncObjValidation.ts:149-155 | the text inside the first pair of parentheses is what is extracted |
| AsyncObjValidation.FmsFiltersNumberReadsCount | helpers/ui/AsyncObjValidation.ts:147-157 | a count in the first parentheses is read back, whatever non-digit text follows it inside them: `Filters (42)` gives 42 and `Filters (12 items)` gives 12 |
| AsyncObjValidation.FmsFiltersNumberCloseFirst | helpers/ui/AsyncObjValidation.ts:149-152 | a `)` before the first `(` gives `NaN`, even when a later pair holds a number |
| AsyncObjValidation.FirstTrue | helpers/ui/AsyncObjValidation.ts:9-11 | `waitUntil` stops at the first poll whose condition holds, all earlier ones having failed; it times out iff none holds |
| AsyncObjValidation.WaitSucceedsMeaning | helpers/ui/AsyncObjValidation.ts:9-11 | a wait succeeds iff some poll's condition holds |
| AsyncObjValidation.WaitForBlingElement | helpers/ui/AsyncObjValidation.ts:7-17 | the element passed in is returned, whatever the polls observed |
| AsyncObjValidation.WaitForElement | helpers/ui/AsyncObjValidation.ts:19-32 | null iff no poll ran; otherwise the element of the first poll whose element exists, or, when none existed, the last poll's |
| AsyncObjValidation.WaitForArray | helpers/ui/AsyncObjValidation.ts:35-47 | null iff no poll ran; otherwise the array of the first non-empty poll, or, when every poll was empty, the last poll's |
| AsyncObjValidation.WaitForArrayAt | helpers/ui/AsyncObjValidation.ts:48-60 | the timeout escapes iff no poll had an existing element at the index; otherwise `arr[index]` of the first poll that had one |
| AsyncObjValidation.ArrayTimeoutPolicy | helpers/ui/AsyncObjValidation.ts:34-60 | on a timeout the form without an index returns the empty array, while the form with an index lets the timeout escape |
| AsyncObjValidation.DoesObjectExist | helpers/ui/AsyncObjValidation.ts:137-145 | true iff some poll of the default-timeout wait saw the element exist, that is iff `waitForExist` did not throw; `maxTime` and `reverse` do not change it |
| ApiService.PathSeparator | helpers/httpAPI/apiService.ts:72 | the separator is empty iff the base ends with `/` or the path starts with `/`, and `/` otherwise |
| ApiService.RequestUrl | helpers/httpAPI/apiService.ts:71-75 | the base is a prefix of the URL and the path a suffix; the length is the sum of the three parts |
| ApiService.RequestUrlOneSlash | helpers/httpAPI/apiService.ts:71-75 | with no slash at the join one is put in; with one side's slash nothing is added |
| ApiService.RequestUrlDoubleSlash | helpers/httpAPI/apiService.ts:71-75 | when both sides have a slash the URL holds `//` at the join, despite the comment promising a single slash |
| ApiService.FirstStored | helpers/httpAPI/apiService.ts:31-44 | the wait stops at the first poll where local storage holds a non-null value, and times out iff there is none |
| ApiService.AwaitToken | helpers/httpAPI/apiService.ts:24-54 | the token resolves iff the login did not throw and some poll read a non-null value, and then it is the first such value; a login error or the timeout message is rethrown otherwise |
| ApiService.Handle | helpers/httpAPI/apiService.ts:96-107 | an error whose response has status 500 fails the test with "Expired or bad token?: <message>"; every other error is rethrown as it is |
| ApiService.OutcomePassed | helpers/httpAPI/apiService.ts:68-95 | the request passes iff the token resolved and the response has the expected status and data, and exactly then both steps are reported |
| ApiService.OutcomeFailures | helpers/httpAPI/apiService.ts:69-106 | a rejected token is rethrown before any step; a data mismatch is rethrown after the status step only |
| ApiService.AxiosGet | helpers/httpAPI/apiService.ts:75-80 | the request resolves with the response iff the server answered with a 2xx status; any other status rejects with an error that carries it, and no answer rejects with an error that does not |
| ApiService.ServerErrorFailsTest | helpers/httpAPI/apiService.ts:75-106 | an HTTP error fails the test iff its status is 500, with the bad-token message; so a 500 answer fails the test whatever status is expected, 500 included |
| ApiService.OnlySuccessStatusPasses | helpers/httpAPI/apiService.ts:75-95 | a request passes iff the token resolved and the server answered with a 2xx status equal to the expected one and the expected data; one that expects a status outside 2xx never passes |
| ApiService.ApiService.constructor | helpers/httpAPI/apiService.ts:12-15 | a new service holds no token promise |
| ApiService.ApiService.FetchAuthToken | helpers/httpAPI/apiService.ts:57-62 | the first call runs the token fetch and keeps its promise; later calls return the kept promise, even a rejected one, and the fetch runs at most once per instance |
| ApiService.ApiService.GetRequest | helpers/httpAPI/apiService.ts:68-108 | the token is fetched through the cache: a first call stores the promise of this login and polls, once, and a later one keeps the stored promise; the URL is requested iff the token resolved; the steps and the outcome are those of `Steps` and `Outcome` for what `axios.get` makes of the server's answer |
| ApiService.Registry.GetInstance | helpers/httpAPI/apiService.ts:17-22 | the first call creates a fresh service with no token; every later call returns that same instance |
| FilterDialogBox.FindColumnIndex | helpers/ui/filterDialogBox.ts:20-56 | the result is that of `ColumnIndex`: `-1` for a failed wait or read, `i+1` for the first exact trimmed match, the "not found" error otherwise |
| FilterDialogBox.ColumnIndexFound | helpers/ui/filterDialogBox.ts:39-47 | the result is `k` (not `-1`) iff `1 <= k`, header `k-1` is the first whose trimmed text equals the column name exactly and case-sensitively, and every header before it was read |
| FilterDialogBox.ColumnIndexNotFound | helpers/ui/filterDialogBox.ts:49-55 | "Column '<name>' not found" is thrown iff the headers loaded, every one was read, and none matched; any other result is `-1` or at least 1 |
| FilterDialogBox.DaysInMonth | helpers/ui/filterDialogBox.ts:124 | every month of the Gregorian calendar has 28 to 31 days |
| FilterDialogBox.Roll | helpers/ui/filterDialogBox.ts:124 | the day is carried into the following or preceding months as `Date` does; the result is a valid date, and a day already in range is kept |
| FilterDialogBox.RollOverByOne | helpers/ui/filterDialogBox.ts:124 | the day after a month's last is the first of the next month, and day 0 is the last of the previous month |
| FilterDialogBox.JsDate | helpers/ui/filterDialogBox.ts:124 | `new Date(y, m, d)` is valid iff no argument is `NaN`, and is then a valid calendar date |
| FilterDialogBox.FormatDateToMMDDYYYY | helpers/ui/filterDialogBox.ts:114-129 | "Invalid or undefined dateString provided" iff the text is empty or has no `-`; the format error iff otherwise one of the first three `-`-separated parts is empty or missing; each part is read by `parseInt` without a radix |
| FilterDialogBox.DateTextShape | helpers/ui/filterDialogBox.ts:125-128 | a formatted date is two digits of month, `/`, two digits of day, `/`, then the year, reading back the date's month and day |
| FilterDialogBox.SplitDate | helpers/ui/filterDialogBox.ts:119 | `yyyy-mm-dd` splits into its three parts |
| FilterDialogBox.FormatJoinedParts | helpers/ui/filterDialogBox.ts:119-128 | three non-empty parts without `-`, joined by `-`, are formatted from their values |
| FilterDialogBox.JsDateValid | helpers/ui/filterDialogBox.ts:124 | `new Date` of a valid date with a year of at least 100 is that date |
| FilterDialogBox.FormatPartsOfDate | helpers/ui/filterDialogBox.ts:124-128 | the decimal parts of a valid date are formatted as that date |
| FilterDialogBox.FormatValidDate | helpers/ui/filterDialogBox.ts:114-129 | a valid date `yyyy-mm-dd` with a year of at least 100 is formatted `MM/DD/YYYY` with the same year, month and day |
| FilterDialogBox.FormatNotANumber | helpers/ui/filterDialogBox.ts:124-128 | a part that `parseInt` without a radix reads as `NaN` makes the date invalid, formatted `NaN/NaN/NaN` |
| FilterDialogBox.FormatPartsOfHexMonth | helpers/ui/filterDialogBox.ts:124-128 | a month part `0x` plus hexadecimal digits is read in base 16, so the parts of a valid date with such a month are formatted as that date |
| FilterDialogBox.FormatHexMonth | helpers/ui/filterDialogBox.ts:114-129 | `yyyy-0x<hex>-dd` for a valid date is formatted as the date whose month is the hexadecimal value ("2024-0x2-05" is February 5, 2024) |
| FilterDialogBox.FormatHexPrefixOnlyMonth | helpers/ui/filterDialogBox.ts:114-129 | a month part of just `0x` is `NaN`, so the date is `NaN/NaN/NaN` |
| Numbers.ParseNoRadixDecimal | helpers/ui/filterDialogBox.ts:124 | decimal digits are read the same with or without a radix |
| Numbers.ParseHexNumeral | helpers/ui/filterDialogBox.ts:124 | without a radix, `0x` and hexadecimal digits, followed by text that does not start with one, are read as the hexadecimal value |
| Numbers.ParseHexPrefixOnly | helpers/ui/filterDialogBox.ts:124 | without a radix, `0x` followed by no hexadecimal digit is `NaN` |
| FilterDialogBox.ChooseOption | helpers/ui/filterDialogBox.ts:92-103 | the dropdown is opened first, then one option at most is clicked |
| FilterDialogBox.ChooseOptionClicks | helpers/ui/filterDialogBox.ts:97-103 | option `k` is clicked iff it is the first whose trimmed text is the criterion; nothing is clicked and nothing thrown iff every option reads and none matches |
| FilterDialogBox.SetFilterCriterion | helpers/ui/filterDialogBox.ts:91-112 | the option choice comes first; a failed option read is rethrown |
| FilterDialogBox.SetFilterCriterionValue | helpers/ui/filterDialogBox.ts:105-111 | a value is set iff the criterion is neither "Blank" nor "Not blank" (and a date value formats): the input value in the text field, or its formatted date in the date field |
| FilterDialogBox.SetDateFilterCriterion | helpers/ui/filterDialogBox.ts:134-167 | the option choice comes first, and the fields are set after it |
| FilterDialogBox.BadFromDateThrows | helpers/ui/filterDialogBox.ts:150-154 | both dates are formatted before the Blank check, so a bad first date throws for every criterion, "Blank" included |
| FilterDialogBox.SetDateFilterFields | helpers/ui/filterDialogBox.ts:154-165 | "In range" with a second date sets the from and to fields; any other criterion that takes a value sets the single date field |
| FilterDialogBox.ClickCheckboxByName | helpers/ui/filterDialogBox.ts:173-195 | at most one checkbox is clicked, and the function never throws |
| FilterDialogBox.ClickCheckboxClicks | helpers/ui/filterDialogBox.ts:179-189 | item `k` is clicked iff it is the first whose trimmed label is the name, every label before it having been read |
| FilterDialogBox.HandleErrorWithScreenshot | helpers/ui/filterDialogBox.ts:263-280 | an "Error in <class>.<method>" step is opened with a screenshot named after `<class>_<method>`; the error it raises and a failed screenshot are both caught, so it never throws |
| FilterDialogBox.WithColumn | helpers/ui/filterDialogBox.ts:205-261 | a `-1` column is reported through `handleErrorWithScreenshot` and nothing is thrown; the "not found" error is rethrown; otherwise the column's filter is opened before the fill |
| FilterDialogBox.MissingColumnNeverThrows | helpers/ui/filterDialogBox.ts:230-261 | none of the three setters throws for a `-1` column; each rethrows the "not found" error; the checkbox setter throws nothing else |
| FilterDialogBox.ColumnKeyInjective | helpers/ui/filterDialogBox.ts:297 | distinct cells get distinct `column<n>` keys |
| FilterDialogBox.RowData | helpers/ui/filterDialogBox.ts:282-310 | no row iff some cell read fails; otherwise the keys are `column1..columnN`, each mapped to its cell's text, one entry per cell |
| FilterDialogBox.ColumnKeysCount | helpers/ui/filterDialogBox.ts:296-300 | the first `n` cells give `n` distinct keys |
| FilterDialogBox.CellNotBlank | helpers/ui/filterDialogBox.ts:397-438 | a value is compared iff the row, the column mapping entry and the cell all exist and the cell's `getText()` succeeds; it is 'Not blank' iff the cell text is non-empty, and '' otherwise |
| Common.LastWinsKeys | helpers/ui/common.ts:515-530 | a key is in the object a loop fills with `object[key] = value` exactly when some pass stored that key |
| Common.LastWinsValue | helpers/ui/common.ts:515-530 | the value of a key is the one stored by the last pass that stored that key |
| Common.BuildColumnMapping | helpers/ui/common.ts:513-530 | the header loop stores `text -> col-id` for each header with a truthy col-id, a displayed text element and a non-empty text, in order |
| Common.MappingKeys | helpers/ui/common.ts:519-528 | a column name is mapped exactly when some header with a truthy col-id, displayed and non-empty, has that text, untrimmed |
| Common.MappingLastWins | helpers/ui/common.ts:525-527 | a name maps to the col-id of the last qualifying header with that text, and that col-id is never empty |
| Common.GridSibling | helpers/ui/common.ts:458-471 | the index is the first sibling whose tag name, lower-cased, is `div` and that holds an existing `ag-grid-angular`; `None` when no sibling does |
| Common.FindGridSibling | helpers/ui/common.ts:458-471 | the `while (sibling)` walk returns the index `GridSibling` gives; `None` is the walk running past the last sibling, whose `getTagName` throws |
| Common.ExhaustedWalkThrows | helpers/ui/common.ts:458-471 | a matching heading with a parent but no grid among its siblings makes the mapping throw the driver's error on the missing sibling, not "Table with name … not found." |
| Common.TableLookupFirstHeading | helpers/ui/common.ts:441-476 | when heading `k` is the first whose trimmed text equals the trimmed table name, the lookup is decided by that heading alone; a later heading with the same text is never looked at |
| Common.TableLookupNotFound | helpers/ui/common.ts:478-480 | when no heading matches the name, the mapping fails with "Table with name "…" not found." |
| Common.GetColumnMapping | helpers/ui/common.ts:431-536 | `getColumnMapping` (which first waits for the page title) and `getColumnMapping2` (lines 263-361) return the table lookup's error, or the header fold over the table found |
| Common.SearchRecordClick | helpers/ui/common.ts:372-429 | the retry loop gives the actions of the search function: up to 50 attempts, each a fresh fetch of the rows, stopping at the first click or failed read, and otherwise scrolling the grid body by 200 |
| Common.MissedRunShape | helpers/ui/common.ts:406-418 | missed attempts alternate a fetch of the next attempt and a scroll of 200, with no click |
| Common.SearchStopsAt | helpers/ui/common.ts:392-406 | the search stops at the first attempt that does not miss: after the missed ones, that attempt's fetch, then the click when it hit |
| Common.SearchExhausted | helpers/ui/common.ts:386-419 | when every remaining attempt misses, the search makes them all, each a fetch then a scroll |
| Common.SearchNoMatch | helpers/ui/common.ts:386-423 | when no cell ever contains the text, the search makes all 50 attempts: 100 actions, alternating fetch and scroll, no click |
| Common.SearchFirstHit | helpers/ui/common.ts:392-406 | when attempt `k` is the first to find the text and row `i` is its first matching row, that row is clicked once, as the last action, after `k` missed attempts |
| Common.UnmappedColumnNotSearched | helpers/ui/common.ts:378-384 | when the mapping throws (the error is caught) or does not map the column, nothing is searched |
| Common.CellValue | helpers/ui/common.ts:100-106 | the stored value is the trimmed cell text, or "Blank" when that is empty, so it is never empty |
| Common.CellValueIdempotent | helpers/ui/common.ts:100-106 | normalising a stored value again leaves it unchanged |
| Common.VerifyRecordFromFirstRow | helpers/ui/common.ts:75-110 | the header loop fills the record with `trimmed header -> normalised first-row cell`, in order |
| Common.RecordKeysAndValues | helpers/ui/common.ts:85-109 | every key of the record is a trimmed header name, and a header holds the normalised cell of the last column with that trimmed name |
| Common.ButtonText | helpers/ui/common.ts:38-40 | a label iff both `getText` reads succeed, otherwise the error of the first that throws |
| Common.ButtonLabelDropsIcon | helpers/ui/common.ts:38-40 | when the wrapper text starts with the icon's text, the label is the icon, a space and the rest, trimmed |
| Common.ExtractButtonTexts | helpers/ui/common.ts:34-43 | one label per button, in order, iff every button's reads succeed: the trimmed icon text, a space, and the wrapper text with the first occurrence of the icon text removed, trimmed; otherwise the error of the first button whose read throws |
| Common.VerifyClearFilters | helpers/ui/common.ts:124-189 | text inputs get the test value and Enter, Clear Filters is clicked, text inputs are checked; it throws "Some filters were not cleared." exactly when some text input keeps a value |
| Common.OnlyTextInputsChecked | helpers/ui/common.ts:137-166 | exactly the text inputs are filled in and checked; date and other inputs never are |
| Common.DoFilter | helpers/ui/common.ts:538-574 | `doFilter` succeeds exactly when the mapping succeeds, maps the column, the col-id has a truthy `aria-colindex` and the input is displayed; then it clears the input, types the text and presses Enter; on any error it touches nothing |
| Common.MissingColumnPolicy | helpers/ui/common.ts:380-383 | a column missing from the mapping makes the row search return quietly, while `doFilter` (lines 545-548) throws "Invalid column name: …" |

## Left out

- Browser driver calls (`$`, `$$`, `getText`, `click`, `scrollIntoView`, `execute`, `pause`, `waitUntil`, `saveScreenshot`): a library outside this code. They are replaced by the reads and polls given as parameters, and by action traces.
- Allure reporter internals, `chalk` and console logging: observability only. The steps, attachments and end status that the modelled helpers pass to the reporter are traced; those of the read-only helpers listed below and of the `Assertion` helpers (helpers/ui/assertion.ts is not part of this model) are not.
- Real time and the `waitUntil` timeout and interval arithmetic. Each wait is the sequence of its polls before the timeout; the 5-second deadline of `scrollToColumn` is a number of passes; `setText2` is given the elapsed time after each character.
- Commands.SetText2: the wait after each character (commands.ts:168-171) only waits for 300 ms to have passed since typing began, so it is taken to succeed and is not part of the trace; the elapsed time it leaves is part of the given `elapsed` sequence.
- `selectRowContainer` (helpers/ui/filterDialogBox.ts:315-342): it races timers with `Promise.race`.
- The `timeoutPromise` of `findColumnIndex` (helpers/ui/filterDialogBox.ts:21-26): it is never awaited, so it cannot end the search. A match clears its timer, and so does the final throw. The `-1` return from the `catch` (helpers/ui/filterDialogBox.ts:49-52) does not clear it, so 10 s later the promise rejects with no handler. The model leaves out the timer and that unhandled rejection.
- `onPrepare` and `onComplete` of config/wdio.conf.ts (lines 151-215): filesystem and process work.
- The `LoginPage` login, `localStorage`, the axios request and its `Authorization` header in apiService.ts: the login page is not part of this model, and the HTTP exchange is given as its result.
- `fail(...)` in the `catch` of `getRequest` (helpers/httpAPI/apiService.ts:100, commented "Force a Jasmine error") is taken to fail the test with its message. The runner is Cucumber (config/wdio.conf.ts:103), which defines no `fail` global, so that branch may well throw a `ReferenceError` instead. The model does not follow that.
- ApiService.GetRequest: the deep comparison `validateObject` is modelled as equality of the response data with the expected data, both as JSON text.
- `verifyPageLayout`, `extractColumnNames` and `verifySnackbar` in common.ts, `verifyFilteredCellData` in filterDialogBox.ts, and `isDisplayed`, `getText`, `enterNameToSearch` and the private `waitForBlingElement` in commands.ts: they only read the page and forward to the report.
- The other waits of `ObjectValidation` (helpers/ui/AsyncObjValidation.ts:63-134), such as `waitForSpinner` and `waitForObject`: the same polling pattern as the modelled ones, without a rule of their own to prove.
- The `Scroll.scrollToColumn` call that opens `searchRecordClick` and the filter setters: its result is unused, and none of its errors escape.
- Common.BuildColumnMapping: a failed read of a header's `col-id`, display state or text, which would throw out of the header loop, is not modelled. The headers are given as already read.
- Common.VerifyRecordFromFirstRow: the record is returned, while the source only logs it, because the comparison with the expected result is commented out there; a failed read, which the source catches and logs, is not modelled.
- Common.SearchRecordClick: `searchRecordClick2` (helpers/ui/common.ts:200-255) differs from it only in reading the rows inside the table returned by `getColumnMapping2` and in skipping the closing pause, so both share this model.
- `isElementInViewport` compares floating-point coordinates; they are modelled as integers, since only additions and comparisons are involved.
- `toLowerCase`, `trim` and the regular-expression classes `\s` and `\d` are modelled over ASCII characters; Unicode case mapping and Unicode white space are not modelled.
- FilterDialogBox.JsDate: the range limit of JavaScript dates (±8.64e15 ms around 1970) is not modelled. The rest of `new Date(y, m, d)` is: years 0 to 99 become 1900 to 1999, and days and months roll over as in `Date`.
- In filterDialogBox.ts and common.ts a click, a `setValue` or a key press on the page is taken to succeed, and so are the `scrollIntoView`, `getAttribute('type')`, `getValue()` and `getAttribute('aria-label')` calls of `verifyClearFilters` (common.ts:133-174); only the other reads that decide what to do can fail. The failure paths of `Ui.click` and `Ui.setText` are modelled in `Commands`.
- Commands.ClickRecovery: one `errorShot` stands for both `saveScreenshot` calls of the catch (commands.ts:50-51), so the first failing while the second succeeds, or the reverse, is not modelled.
- AsyncObjValidation.DoesObjectExist: the length of the configured default timeout is not modelled; `existing` is the polls within it. As in the source, `maxTime` and `reverse` have no effect: `waitForExist` takes one options object, which a number does not supply, so a caller that passes `reverse` still waits for the element to exist.

## Findings

| source | as written | input that shows it | evidently intended | confidence | as-written member | corrected member |
|---|---|---|---|---|---|---|
| config/wdio.conf.ts:36-39 | Darwin 23 is named "macOS Ventura (13.x)", 22 Monterey, 21 Big Sur and 20 Catalina | "23.6.0", the kernel of macOS Sonoma 14.6, gives "macOS Ventura (13.x)" | each Darwin version named after its own release: 23 is Sonoma (14.x), 22 Ventura (13.x), 21 Monterey (12.x), 20 Big Sur (11.x) and 19 Catalina (10.15) | not executed | WdioConf.SonomaNamedVentura | WdioConf.GetMacOSVersionCorrectedNamesRelease |

=== FILE: allure_report.dfy ===
/** helpers/allure/allureReport.ts: report steps that compare an actual with
    an expected value, and the screenshots attached to them. The reporter is
    replaced by the list of calls made to it, and `saveScreenshot` by its
    outcome, given as a parameter. */
module AllureReport {
  import opened Results
  import opened Text
  import Scrolling
  import opened Reporter

  /** What a report helper did, and the error it let escape, if any. */
  datatype Report = Report(events: seq<ReportEvent>, raised: Option<string>)

  /** `v === "" ? "blank" : v`. */
  function Blank(v: string): (r: string)
    ensures r != ""
    ensures v != "" ==> r == v
    ensures v == "" ==> r == "blank"
  {
    if v == "" then "blank" else v
  }

  /** Substituting twice is substituting once. */
  lemma BlankIdempotent(v: string)
    ensures Blank(Blank(v)) == Blank(v)
  {
  }

  /** The text of the 'Assertion Details' attachment. */
  function AssertionDetails(actual: string, expected: string): string {
    "Assert to match:\nActual result: " + Blank(actual) + "\nExpected result: " + Blank(expected)
  }

  /** `[A-Za-z0-9_]`, the characters the step-name sanitiser keeps. */
  predicate IsWordChar(c: char) {
    'a' <= c <= 'z' || 'A' <= c <= 'Z' || '0' <= c <= '9' || c == '_'
  }

  /** `stepDescription.replace(/[^a-zA-Z0-9_]/g, '_')`. */
  function SanitizeStepName(s: string): (r: string)
    ensures |r| == |s|
    ensures forall i :: 0 <= i < |s| ==> r[i] == if IsWordChar(s[i]) then s[i] else '_'
  {
    seq(|s|, i requires 0 <= i < |s| => if IsWordChar(s[i]) then s[i] else '_')
  }

  /** The result holds only word characters, and sanitising it again changes
      nothing; a name made of word characters only is kept as it is. */
  lemma SanitizeStepNameIdempotent(s: string)
    ensures forall i :: 0 <= i < |s| ==> IsWordChar(SanitizeStepName(s)[i])
    ensures SanitizeStepName(SanitizeStepName(s)) == SanitizeStepName(s)
    ensures (forall i :: 0 <= i < |s| ==> IsWordChar(s[i])) ==> SanitizeStepName(s) == s
  {
  }

  /** The screenshot name of `appendToReport` and `appendToReport3`. */
  function StepScreenshotName(stepDescription: string, iso: string): (r: string)
  {
    SanitizeStepName(stepDescription) + "_" + Strip(iso, Scrolling.TimestampPunctuation) + ".png"
  }

  /** The name has the length of the description plus that of the stripped
      timestamp plus five, starts with the sanitised description followed by
      `_`, and ends in `.png`. */
  lemma StepScreenshotNameShape(stepDescription: string, iso: string)
    ensures var r := StepScreenshotName(stepDescription, iso);
            var t := Strip(iso, Scrolling.TimestampPunctuation);
            |r| == |stepDescription| + |t| + 5
            && r[..|stepDescription|] == SanitizeStepName(stepDescription)
            && r[|stepDescription|] == '_'
            && r[|r| - 4..] == ".png"
  {
  }

  /** Whether the comparison of `appendToReport` holds: `toContain` is the
      substring test, any other `expectType` is equality. */
  predicate StepPasses(actual: string, expected: string, expectType: string) {
    if expectType == "toContain" then Contains(actual, expected) else actual == expected
  }

  /** The status `endStep` is called with. */
  function StepStatus(passes: bool): (s: Status)
    ensures s == Failed <==> !passes
  {
    if passes then Passed else Failed
  }

  /** The three text attachments and the screenshot call of `appendToReport`. */
  function AppendToReportOpening(stepDescription: string, actual: string, expected: string,
                                 iso: string): seq<ReportEvent>
  {
    [StartStep(stepDescription),
     Attachment("Assertion Details", AssertionDetails(actual, expected), "text/plain"),
     Attachment("Actual Result", Blank(actual), "text/plain"),
     Attachment("Expected Result", Blank(expected), "text/plain"),
     SaveScreenshot(ReportDirectory + StepScreenshotName(stepDescription, iso))]
  }

  /** `appendToReport(stepDescription, actual, expected, expectType)`. A failed
      comparison is caught and only decides the status; a failed screenshot
      is rethrown, and the step is then never ended. */
  function AppendToReport(stepDescription: string, actual: string, expected: string,
                          expectType: string, iso: string, screenshot: Result<string>): (r: Report)
    ensures |r.events| >= 5 && r.events[..5] == AppendToReportOpening(stepDescription, actual, expected, iso)
    ensures r.raised.None? <==> screenshot.Ok?
    ensures screenshot.Err? ==> r.raised == Some(screenshot.message) && |r.events| == 5
    ensures screenshot.Ok? ==>
              |r.events| == 7
              && r.events[5] == Attachment(StepScreenshotName(stepDescription, iso), screenshot.value, "image/png")
              && (r.events[6] == EndStep(Failed) <==> !StepPasses(actual, expected, expectType))
              && r.events[6].EndStep?
  {
    var opening := AppendToReportOpening(stepDescription, actual, expected, iso);
    match screenshot
    case Err(message) =>
      assert opening[..5] == opening;
      Report(opening, Some(message))
    case Ok(image) =>
      var events := opening
        + [Attachment(StepScreenshotName(stepDescription, iso), image, "image/png"),
           EndStep(StepStatus(StepPasses(actual, expected, expectType)))];
      assert events[..5] == opening;
      Report(events, None)
  }

  /** `appendToReport3(stepDescription, actualResult, expectedResult)`: the
      JSON texts of both results are given. The comparison is deep equality,
      here equality of values. Every error is caught and logged. */
  function AppendToReport3<T(==)>(stepDescription: string, actualResult: T, expectedResult: T,
                                  actualJson: string, expectedJson: string,
                                  iso: string, screenshot: Result<string>): (r: Report)
    ensures r.raised.None?
    ensures screenshot.Err? ==> |r.events| == 5
    ensures screenshot.Ok? ==>
              |r.events| == 7 && r.events[6].EndStep?
              && (r.events[6].status == Passed <==> actualResult == expectedResult)
  {
    var details := "Assert to match:\nActual result:\n" + actualJson + "\nExpected result:\n" + expectedJson;
    var name := StepScreenshotName(stepDescription, iso);
    var opening :=
      [StartStep(stepDescription),
       Attachment("Assertion Details", details, "text/plain"),
       Attachment("Actual Result", actualJson, "application/json"),
       Attachment("Expected Result", expectedJson, "application/json"),
       SaveScreenshot(ReportDirectory + name)];
    match screenshot
    case Err(_) => Report(opening, None)
    case Ok(image) =>
      Report(opening + [Attachment(name, image, "image/png"),
                        EndStep(StepStatus(actualResult == expectedResult))], None)
  }

  /** The marker `captureErrorScreenshot` looks for. */
  const ElementNotFound: string := "element wasn't found"

  /** The file name `captureErrorScreenshot` chooses for an error message. */
  function ErrorScreenshotName(errorMessage: string, iso: string): (r: string)
    ensures Contains(errorMessage, ElementNotFound) ==>
              r == "elementNotFound_" + Strip(iso, Scrolling.TimestampPunctuation) + ".png"
    ensures !Contains(errorMessage, ElementNotFound) ==> r == Scrolling.ScreenshotFileName(errorMessage, iso)
  {
    if Contains(errorMessage, ElementNotFound) then
      "elementNotFound_" + Strip(iso, Scrolling.TimestampPunctuation) + ".png"
    else Scrolling.ScreenshotFileName(errorMessage, iso)
  }

  /** A message that is itself free of separators and does not mention a
      missing element names the file after itself. */
  lemma ErrorScreenshotNameOfPlainMessage(errorMessage: string, iso: string)
    requires NoneOf(errorMessage, Scrolling.Separators) && !Contains(errorMessage, ElementNotFound)
    ensures ErrorScreenshotName(errorMessage, iso)
         == errorMessage + "_" + Strip(iso, Scrolling.TimestampPunctuation) + ".png"
  {
    Scrolling.ScreenshotFileNameKeeps(errorMessage, iso);
  }

  /** `captureErrorScreenshot(errorMessage)`: takes and attaches a screenshot;
      a failure to take it is caught, so it never throws. */
  function CaptureErrorScreenshot(errorMessage: string, iso: string, screenshot: Result<string>): (r: Report)
    ensures r.raised.None?
    ensures |r.events| >= 1 && r.events[0] == SaveScreenshot(ReportDirectory + ErrorScreenshotName(errorMessage, iso))
    ensures |r.events| == 2 <==> screenshot.Ok?
    ensures screenshot.Ok? ==> r.events[1] == Attachment("View screenshot of error", screenshot.value, "image/png")
  {
    var save := SaveScreenshot(ReportDirectory + ErrorScreenshotName(errorMessage, iso));
    match screenshot
    case Err(_) => Report([save], None)
    case Ok(image) => Report([save, Attachment("View screenshot of error", image, "image/png")], None)
  }
}

=== FILE: api_service.dfy ===
/** helpers/httpAPI/apiService.ts: the `ApiService` singleton, which logs in
    once to obtain an access token, keeps the token's promise, and makes
    GET requests with it. The login page, the local storage and the HTTP
    response are parameters. */
module ApiService {
  import opened Results
  import opened Numbers

  // ---------------------------------------------------------------------
  // getRequest: joining the URL
  // ---------------------------------------------------------------------

  predicate EndsWithSlash(s: string) {
    s != [] && s[|s| - 1] == '/'
  }

  predicate StartsWithSlash(s: string) {
    s != [] && s[0] == '/'
  }

  /** The separator put between the base endpoint and the path. */
  function PathSeparator(baseEndpoint: string, endpointPath: string): (sep: string)
    ensures sep == "" <==> EndsWithSlash(baseEndpoint) || StartsWithSlash(endpointPath)
    ensures sep == "" || sep == "/"
  {
    if EndsWithSlash(baseEndpoint) || StartsWithSlash(endpointPath) then "" else "/"
  }

  /** The URL requested: `baseEndpoint + separator + endpointPath`. */
  function RequestUrl(baseEndpoint: string, endpointPath: string): (url: string)
    ensures baseEndpoint <= url
    ensures |url| >= |endpointPath| && url[|url| - |endpointPath|..] == endpointPath
    ensures |url| == |baseEndpoint| + |PathSeparator(baseEndpoint, endpointPath)| + |endpointPath|
  {
    var url := baseEndpoint + PathSeparator(baseEndpoint, endpointPath) + endpointPath;
    assert url[..|baseEndpoint|] == baseEndpoint;
    url
  }

  /** When neither side has a slash at the join, exactly one is put in, and
      when one side has it, nothing is added. */
  lemma RequestUrlOneSlash(base: string, path: string)
    ensures !EndsWithSlash(base) && !StartsWithSlash(path) ==> RequestUrl(base, path) == base + "/" + path
    ensures EndsWithSlash(base) != StartsWithSlash(path) ==> RequestUrl(base, path) == base + path
  {
  }

  /** When both sides already have a slash, the URL holds two at the join,
      although the separator is meant to give a single one. */
  lemma RequestUrlDoubleSlash(base: string, path: string)
    ensures RequestUrl(base + "/", "/" + path) == base + "//" + path
  {
    assert EndsWithSlash(base + "/");
    assert StartsWithSlash("/" + path);
  }

  // ---------------------------------------------------------------------
  // fetchAuthTokenPromise
  // ---------------------------------------------------------------------

  const TokenTimeoutMessage: string := "Timeout waiting for authentication token in Local Storage"

  /** A settled token promise. */
  datatype TokenPromise = Resolved(token: string) | Rejected(message: string)

  /** The first poll at which local storage holds the token (`None` at a
      poll is `null`). */
  function FirstStored(polls: seq<Option<string>>): (r: Option<nat>)
    ensures r.Some? ==> r.value < |polls| && polls[r.value].Some? && forall j :: 0 <= j < r.value ==> polls[j].None?
    ensures r.None? ==> forall j :: 0 <= j < |polls| ==> polls[j].None?
    decreases |polls|
  {
    if polls == [] then None
    else if polls[0].Some? then Some(0)
    else
      match FirstStored(polls[1..])
      case None => None
      case Some(k) => Some(k + 1)
  }

  /** `fetchAuthTokenPromise()`: log in (`loginError` is the error the login
      throws, if any), then wait for the token to appear in local storage
      (`polls` are the values read before the timeout). Every failure is
      rethrown, so it settles as a rejection. */
  function AwaitToken(loginError: Option<string>, polls: seq<Option<string>>): (r: TokenPromise)
    ensures r.Resolved? <==> loginError.None? && exists k :: 0 <= k < |polls| && polls[k].Some?
    ensures r.Resolved? ==> exists k :: 0 <= k < |polls| && polls[k] == Some(r.token)
                                        && forall j :: 0 <= j < k ==> polls[j].None?
    ensures loginError.Some? ==> r == Rejected(loginError.value)
    ensures loginError.None? && r.Rejected? ==> r.message == TokenTimeoutMessage
  {
    if loginError.Some? then Rejected(loginError.value)
    else
      match FirstStored(polls)
      case None => Rejected(TokenTimeoutMessage)
      case Some(k) => Resolved(polls[k].value)
  }

  // ---------------------------------------------------------------------
  // getRequest: the response and the error policy
  // ---------------------------------------------------------------------

  /** What the GET request gives: a response, or an error carrying the
      response's status (an HTTP error), or an error without one. */
  datatype HttpResult =
    | Response(status: int, data: string)
    | HttpError(status: int, message: string)
    | TransportError(message: string)

  /** What the server answers the GET request: a status and its data, or
      nothing, when the request fails with the given message. */
  datatype ServerAnswer = Answered(status: int, data: string) | NoAnswer(message: string)

  predicate IsSuccessStatus(status: int) {
    200 <= status < 300
  }

  /** The message of the error `axios` rejects with for a bad status. */
  function StatusErrorMessage(status: int): string {
    "Request failed with status code " + IntToString(status)
  }

  /** `axios.get` with its default `validateStatus`: it resolves with the
      response only for a 2xx status; any other status rejects with an
      error that carries the response, and a request without an answer
      rejects with an error without one. */
  function AxiosGet(a: ServerAnswer): (r: HttpResult)
    ensures r.Response? <==> a.Answered? && IsSuccessStatus(a.status)
    ensures r.HttpError? <==> a.Answered? && !IsSuccessStatus(a.status)
    ensures r.Response? || r.HttpError? ==> r.status == a.status
    ensures r.Response? ==> r.data == a.data
    ensures r.TransportError? ==> a == NoAnswer(r.message)
  {
    match a
    case Answered(status, data) =>
      if IsSuccessStatus(status) then Response(status, data)
      else HttpError(status, StatusErrorMessage(status))
    case NoAnswer(message) => TransportError(message)
  }

  /** The errors the body of `getRequest` can throw. */
  datatype RequestError =
    | TokenFailed(message: string)
    | StatusError(status: int, message: string)   // the error has a `response`
    | OtherError(message: string)                 // the error has none
    | StatusMismatch(actualStatus: int, expectedStatus: int)
    | DataMismatch(actualData: string)

  /** How `getRequest` ends: normally, with a test failure forced with
      `fail`, or with an error rethrown. */
  datatype RequestOutcome = Passed | TestFailed(message: string) | Raised(error: RequestError)

  function BadTokenMessage(message: string): string {
    "Expired or bad token?: " + message
  }

  /** The `catch` of `getRequest`: an error whose response has status 500
      fails the test with "Expired or bad token?: …"; any other is rethrown. */
  function Handle(e: RequestError): (r: RequestOutcome)
    ensures r.TestFailed? <==> e.StatusError? && e.status == 500
    ensures r.TestFailed? ==> r.message == BadTokenMessage(e.message)
    ensures !r.TestFailed? ==> r == Raised(e)
  {
    if e.StatusError? && e.status == 500 then TestFailed(BadTokenMessage(e.message))
    else Raised(e)
  }

  /** The report step after the status check. */
  function StatusStep(status: int): string {
    "response.status " + IntToString(status)
  }

  /** The report step after the data check; `data` stands for the JSON text
      of the response data. */
  function DataStep(data: string): string {
    "response.data " + data
  }

  /** How the body of `getRequest` ends once the token has settled: the
      request, then `expect(response.status).toBe(responseStatusCode)`, then
      the comparison of the data with `expectedResponse`; whatever is thrown
      goes to `Handle`. */
  function Outcome(token: TokenPromise, result: HttpResult, responseStatusCode: int,
                   expectedResponse: string): (r: RequestOutcome)
  {
    if token.Rejected? then Handle(TokenFailed(token.message))
    else
      match result
      case HttpError(status, message) => Handle(StatusError(status, message))
      case TransportError(message) => Handle(OtherError(message))
      case Response(status, data) =>
        if status != responseStatusCode then Handle(StatusMismatch(status, responseStatusCode))
        else if data != expectedResponse then Handle(DataMismatch(data))
        else Passed
  }

  /** The steps `getRequest` reports before it ends: the status step once
      the status check has passed, the data step once the data check has. */
  function Steps(token: TokenPromise, result: HttpResult, responseStatusCode: int,
                 expectedResponse: string): seq<string>
  {
    if token.Rejected? || !result.Response? || result.status != responseStatusCode then []
    else if result.data != expectedResponse then [StatusStep(result.status)]
    else [StatusStep(result.status), DataStep(result.data)]
  }

  /** A request passes exactly when the token resolved and the response has
      the expected status and data; both steps are reported then, and only
      then. */
  lemma OutcomePassed(token: TokenPromise, result: HttpResult, code: int, expected: string)
    ensures Outcome(token, result, code, expected).Passed?
        <==> token.Resolved? && result.Response? && result.status == code && result.data == expected
    ensures Outcome(token, result, code, expected).Passed?
        <==> Steps(token, result, code, expected) == [StatusStep(code), DataStep(expected)]
  {
  }

  /** Nothing the request or the checks throw is swallowed: every failure is
      a test failure or an error rethrown, and a rejected token is rethrown
      before any step is reported. */
  lemma OutcomeFailures(token: TokenPromise, result: HttpResult, code: int, expected: string)
    ensures token.Rejected? ==> Outcome(token, result, code, expected) == Raised(TokenFailed(token.message))
                                && Steps(token, result, code, expected) == []
    ensures result.Response? && result.status == code && result.data != expected && token.Resolved? ==>
              Outcome(token, result, code, expected) == Raised(DataMismatch(result.data))
              && Steps(token, result, code, expected) == [StatusStep(code)]
  {
  }

  /** Only an HTTP error with status 500 is turned into a test failure.
      Since `axios.get` rejects every status outside 2xx, a 500 answer
      fails the test with the bad-token message whatever status is
      expected, a 500 included. */
  lemma ServerErrorFailsTest(token: string, status: int, message: string, code: int, expected: string, data: string)
    ensures Outcome(Resolved(token), HttpError(status, message), code, expected).TestFailed?
        <==> status == 500
    ensures status == 500 ==>
              Outcome(Resolved(token), HttpError(status, message), code, expected) == TestFailed(BadTokenMessage(message))
    ensures Outcome(Resolved(token), AxiosGet(Answered(500, data)), code, expected)
         == TestFailed(BadTokenMessage(StatusErrorMessage(500)))
  {
  }

  /** A request can pass only with a 2xx answer of the expected status: a
      `getRequest` that expects any other status never passes. */
  lemma OnlySuccessStatusPasses(token: TokenPromise, answer: ServerAnswer, code: int, expected: string)
    ensures Outcome(token, AxiosGet(answer), code, expected).Passed? <==>
              token.Resolved? && answer.Answered? && IsSuccessStatus(answer.status)
              && answer.status == code && answer.data == expected
  {
    OutcomePassed(token, AxiosGet(answer), code, expected);
  }

  // ---------------------------------------------------------------------
  // The service and its singleton
  // ---------------------------------------------------------------------

  class ApiService {
    /** The memoised promise of the access token, `None` before the first
        call of `fetchAuthToken`. */
    var authTokenPromise: Option<TokenPromise>
    /** How many times `fetchAuthTokenPromise` has run on this instance. */
    ghost var tokenFetches: nat

    ghost predicate Valid()
      reads this
    {
      tokenFetches == if authTokenPromise.None? then 0 else 1
    }

    constructor ()
      ensures Valid() && authTokenPromise.None?
    {
      authTokenPromise := None;
      tokenFetches := 0;
    }

    /** `fetchAuthToken()`: the first call runs `fetchAuthTokenPromise` and
        keeps its promise; every later call returns the kept promise, even a
        rejected one, without logging in again. */
    method FetchAuthToken(loginError: Option<string>, polls: seq<Option<string>>) returns (token: TokenPromise)
      requires Valid()
      modifies this
      ensures Valid() && tokenFetches <= 1
      ensures authTokenPromise == Some(token)
      ensures old(authTokenPromise).Some? ==> token == old(authTokenPromise).value && tokenFetches == old(tokenFetches)
      ensures old(authTokenPromise).None? ==> token == AwaitToken(loginError, polls) && tokenFetches == 1
    {
      if authTokenPromise.None? {
        authTokenPromise := Some(AwaitToken(loginError, polls));
        tokenFetches := tokenFetches + 1;
      }
      token := authTokenPromise.value;
    }

    /** `getRequest(baseEndpoint, endpointPath, responseStatusCode,
        expectedResponse)`: `requested` is the URL requested, `None` when
        the token failed first. */
    method GetRequest(baseEndpoint: string, endpointPath: string, responseStatusCode: int, expectedResponse: string,
                      loginError: Option<string>, polls: seq<Option<string>>, answer: ServerAnswer)
      returns (requested: Option<string>, steps: seq<string>, outcome: RequestOutcome)
      requires Valid()
      modifies this
      ensures Valid() && authTokenPromise.Some?
      ensures old(authTokenPromise).Some? ==> authTokenPromise == old(authTokenPromise) && tokenFetches == old(tokenFetches)
      ensures old(authTokenPromise).None? ==> authTokenPromise == Some(AwaitToken(loginError, polls)) && tokenFetches == 1
      ensures requested.Some? <==> authTokenPromise.value.Resolved?
      ensures requested.Some? ==> requested.value == RequestUrl(baseEndpoint, endpointPath)
      ensures steps == Steps(authTokenPromise.value, AxiosGet(answer), responseStatusCode, expectedResponse)
      ensures outcome == Outcome(authTokenPromise.value, AxiosGet(answer), responseStatusCode, expectedResponse)
    {
      var authToken := FetchAuthToken(loginError, polls);
      if authToken.Rejected? {
        return None, [], Handle(TokenFailed(authToken.message));
      }
      var pathSeparator := PathSeparator(baseEndpoint, endpointPath);
      requested := Some(baseEndpoint + pathSeparator + endpointPath);
      steps := [];
      var result := AxiosGet(answer);
      match result {
        case HttpError(status, message) =>
          outcome := Handle(StatusError(status, message));
        case TransportError(message) =>
          outcome := Handle(OtherError(message));
        case Response(status, data) =>
          if status != responseStatusCode {
            outcome := Handle(StatusMismatch(status, responseStatusCode));
            return;
          }
          steps := steps + [StatusStep(status)];
          if data != expectedResponse {
            outcome := Handle(DataMismatch(data));
            return;
          }
          steps := steps + [DataStep(data)];
          outcome := Passed;
      }
    }
  }

  /** Holds the `static instance` of the class. */
  class Registry {
    var instance: ApiService?

    constructor ()
      ensures instance == null
    {
      instance := null;
    }

    /** `getInstance()`: creates the instance on the first call and returns
        that same instance on every call. */
    method GetInstance() returns (service: ApiService)
      modifies this
      ensures instance == service
      ensures old(instance) != null ==> service == old(instance)
      ensures old(instance) == null ==> fresh(service) && service.Valid() && service.authTokenPromise.None?
    {
      if instance == null {
        instance := new ApiService();
      }
      service := instance;
    }
  }
}

=== FILE: async_obj_validation.dfy ===
/** helpers/ui/AsyncObjValidation.ts: the polling waits of `ObjectValidation`
    and the number shown in parentheses on the filters button. A
    `waitUntil` is replaced by what its condition observes at each poll
    before the timeout; it succeeds at the first poll whose condition holds
    and throws a timeout error when none does. */
module AsyncObjValidation {
  import opened Results
  import opened Text
  import opened Numbers

  // ---------------------------------------------------------------------
  // fmsFiltersNumber
  // ---------------------------------------------------------------------

  /** The text `fmsFiltersNumber` parses: what lies strictly between the
      first `(` and the first `)`, when both exist and it is not empty, and
      the empty string otherwise. */
  function BetweenParens(buttonText: string): (r: string)
    ensures var open, close := IndexOf(buttonText, '('), IndexOf(buttonText, ')');
            if open != -1 && close != -1 && close > open + 1 then r == buttonText[open + 1..close] else r == ""
  {
    var openParen := IndexOf(buttonText, '(');
    var closeParen := IndexOf(buttonText, ')');
    if openParen != -1 && closeParen != -1 && closeParen > openParen + 1 then
      var strLength := closeParen - openParen - 1;
      buttonText[openParen + 1..openParen + 1 + strLength]
    else ""
  }

  /** `fmsFiltersNumber(buttonText)`; `None` is `NaN`. */
  function FmsFiltersNumber(buttonText: string): Option<int> {
    ParseInt(BetweenParens(buttonText))
  }

  /** Without a non-empty text between the first `(` and the first `)`,
      the empty string is parsed, which is `NaN`. */
  lemma FmsFiltersNumberNaN(buttonText: string)
    requires var open, close := IndexOf(buttonText, '('), IndexOf(buttonText, ')');
             !(open != -1 && close != -1 && close > open + 1)
    ensures FmsFiltersNumber(buttonText) == None
  {
    ParseNoDigit("");
  }

  /** The text between the first pair of parentheses. */
  lemma BetweenParensOf(prefix: string, inner: string, tail: string)
    requires '(' !in prefix && ')' !in prefix && ')' !in inner && inner != []
    ensures BetweenParens(prefix + "(" + inner + ")" + tail) == inner
  {
    var s := prefix + "(" + inner + ")" + tail;
    var close := |prefix| + 1 + |inner|;
    assert s[..|prefix|] == prefix && s[|prefix|] == '(';
    IndexOfIs(s, '(', |prefix|);
    assert s[..close] == prefix + "(" + inner && s[close] == ')';
    IndexOfIs(s, ')', close);
    assert s[|prefix| + 1..close] == inner;
  }

  /** A count written in the first parentheses is read back, whatever
      follows it inside them as long as it does not start with a digit:
      `Filters (42)` gives 42 and `Filters (12 items)` gives 12. */
  lemma FmsFiltersNumberReadsCount(prefix: string, n: nat, suffix: string, tail: string)
    requires '(' !in prefix && ')' !in prefix && ')' !in suffix
    requires suffix == [] || !IsDigit(suffix[0])
    ensures FmsFiltersNumber(prefix + "(" + NatToString(n) + suffix + ")" + tail) == Some(n)
  {
    var digits := NatToString(n);
    assert ')' !in digits + suffix by {
      assert forall i :: 0 <= i < |digits| ==> IsDigit(digits[i]);
    }
    assert prefix + "(" + digits + suffix + ")" + tail == prefix + "(" + (digits + suffix) + ")" + tail;
    BetweenParensOf(prefix, digits + suffix, tail);
    ParseLeadingNumeral(digits, suffix);
  }

  /** Only the first `)` counts: one before the first `(` gives `NaN`, even
      when a later pair of parentheses holds a number. */
  lemma FmsFiltersNumberCloseFirst(a: string, b: string, c: string)
    requires '(' !in a && ')' !in a && '(' !in b
    ensures FmsFiltersNumber(a + ")" + b + "(" + c) == None
  {
    var s := a + ")" + b + "(" + c;
    assert s[..|a|] == a && s[|a|] == ')';
    IndexOfIs(s, ')', |a|);
    assert s[..|a| + 1 + |b|] == a + ")" + b && s[|a| + 1 + |b|] == '(';
    IndexOfIs(s, '(', |a| + 1 + |b|);
    FmsFiltersNumberNaN(s);
  }

  // ---------------------------------------------------------------------
  // waitForBlingElement, waitForElement, waitForArray, doesObjectExist
  // ---------------------------------------------------------------------

  /** An element handle: which element it is, and whether it exists on the
      page when asked. */
  datatype Element = Element(id: nat, existing: bool)

  /** The first poll whose observation satisfies the wait, if any. */
  function FirstTrue(polls: seq<bool>): (r: Option<nat>)
    ensures r.Some? ==> r.value < |polls| && polls[r.value] && forall j :: 0 <= j < r.value ==> !polls[j]
    ensures r.None? ==> forall j :: 0 <= j < |polls| ==> !polls[j]
    decreases |polls|
  {
    if polls == [] then None
    else if polls[0] then Some(0)
    else
      match FirstTrue(polls[1..])
      case None => None
      case Some(k) => Some(k + 1)
  }

  /** `waitUntil` succeeds exactly when some poll's condition holds. */
  predicate WaitSucceeds(polls: seq<bool>) {
    FirstTrue(polls).Some?
  }

  lemma WaitSucceedsMeaning(polls: seq<bool>)
    ensures WaitSucceeds(polls) <==> exists k :: 0 <= k < |polls| && polls[k]
  {
    if exists k :: 0 <= k < |polls| && polls[k] {
      var k :| 0 <= k < |polls| && polls[k];
      assert FirstTrue(polls).Some?;
    }
  }

  /** `waitForBlingElement(element)`: the wait for the element to exist is
      caught when it times out, and the element passed in is returned
      either way. `existing` stands for what the polls of that wait see; it
      does not change the result. */
  function WaitForBlingElement(element: Option<Element>, existing: seq<bool>): (r: Option<Element>)
    ensures r == element
  {
    element
  }

  /** `waitForElement(path)`: each poll takes a fresh `$(path)`; the one of
      the first poll where it exists is returned, or, when the wait times out
      (which is caught), the one of the last poll; `None` is `null`, when no
      poll ran. */
  function WaitForElement(polls: seq<Element>): (r: Option<Element>)
    ensures polls == [] <==> r.None?
    ensures r.Some? ==> r.value in polls
    ensures r.Some? && !r.value.existing ==> forall j :: 0 <= j < |polls| ==> !polls[j].existing
    ensures forall k :: 0 <= k < |polls| && polls[k].existing && (forall j :: 0 <= j < k ==> !polls[j].existing)
                        ==> r == Some(polls[k])
    ensures polls != [] && (forall j :: 0 <= j < |polls| ==> !polls[j].existing) ==> r == Some(polls[|polls| - 1])
  {
    var conditions := seq(|polls|, j requires 0 <= j < |polls| => polls[j].existing);
    var found := FirstTrue(conditions);
    assert forall j :: 0 <= j < |polls| ==> conditions[j] == polls[j].existing;
    if found.Some? then Some(polls[found.value])
    else if polls == [] then None
    else Some(polls[|polls| - 1])
  }

  /** The arrays `$$(path)` gives at each poll. */
  function Lengths(polls: seq<seq<Element>>): (r: seq<bool>)
    ensures |r| == |polls|
    ensures forall k :: 0 <= k < |r| ==> (r[k] <==> |polls[k]| > 0)
  {
    seq(|polls|, k requires 0 <= k < |polls| => |polls[k]| > 0)
  }

  /** `waitForArray(path)` without an index: waits for a non-empty array; a
      timeout is caught and the array of the last poll is returned; `None`
      is `null`, when no poll ran. */
  function WaitForArray(polls: seq<seq<Element>>): (r: Option<seq<Element>>)
    ensures polls == [] <==> r.None?
    ensures r.Some? ==> r.value in polls
    ensures r.Some? && r.value == [] ==> forall k :: 0 <= k < |polls| ==> polls[k] == []
    ensures (forall k :: 0 <= k < |polls| ==> polls[k] == []) && polls != [] ==> r == Some(polls[|polls| - 1])
    ensures forall k :: 0 <= k < |polls| && polls[k] != [] && (forall j :: 0 <= j < k ==> polls[j] == [])
                        ==> r == Some(polls[k])
  {
    match FirstTrue(Lengths(polls))
    case Some(k) => Some(polls[k])
    case None => if polls == [] then None else Some(polls[|polls| - 1])
  }

  /** The condition of `waitForArray(path, arrayIndex)` on one poll: the
      array is longer than the index and its element there exists. */
  predicate HasElementAt(arr: seq<Element>, arrayIndex: nat) {
    |arr| > arrayIndex && arr[arrayIndex].existing
  }

  /** `waitForArray(path, arrayIndex)`: here the timeout is not caught and
      propagates (`None`); on success, `arr[arrayIndex]` of the first poll
      that satisfies the condition is returned. */
  function WaitForArrayAt(polls: seq<seq<Element>>, arrayIndex: nat): (r: Option<Element>)
    ensures r.None? <==> forall k :: 0 <= k < |polls| ==> !HasElementAt(polls[k], arrayIndex)
    ensures r.Some? ==> exists k :: 0 <= k < |polls| && |polls[k]| > arrayIndex && r.value == polls[k][arrayIndex]
    ensures r.Some? ==> r.value.existing
    ensures forall k :: 0 <= k < |polls| && HasElementAt(polls[k], arrayIndex)
                        && (forall j :: 0 <= j < k ==> !HasElementAt(polls[j], arrayIndex))
                        ==> r == Some(polls[k][arrayIndex])
  {
    var conditions := seq(|polls|, k requires 0 <= k < |polls| => HasElementAt(polls[k], arrayIndex));
    assert forall j :: 0 <= j < |polls| ==> conditions[j] == HasElementAt(polls[j], arrayIndex);
    match FirstTrue(conditions)
    case Some(k) => Some(polls[k][arrayIndex])
    case None =>
      assert forall k :: 0 <= k < |polls| ==> !HasElementAt(polls[k], arrayIndex) by {
        forall k | 0 <= k < |polls| ensures !HasElementAt(polls[k], arrayIndex) {
          assert !conditions[k];
        }
      }
      None
  }

  /** The two forms differ on a timeout: with no index it is swallowed and
      an array is returned; with an index the timeout escapes. */
  lemma ArrayTimeoutPolicy(polls: seq<seq<Element>>, arrayIndex: nat)
    requires polls != [] && forall k :: 0 <= k < |polls| ==> polls[k] == []
    ensures WaitForArray(polls) == Some([])
    ensures WaitForArrayAt(polls, arrayIndex).None?
  {
  }

  /** `doesObjectExist(selector, maxTime, reverse)`. `waitForExist` takes
      one options object; the number `maxTime` given in its place sets none
      of them, so the wait runs for the configured default timeout, for the
      element to exist, and `reverse` is not passed on. `existing` holds
      the polls of that wait; the result is whether one saw the element,
      the timeout being caught. */
  function DoesObjectExist(existing: seq<bool>, maxTime: int, reverse: bool): (r: bool)
    ensures r <==> exists k :: 0 <= k < |existing| && existing[k]
  {
    WaitSucceedsMeaning(existing);
    WaitSucceeds(existing)
  }
}

=== FILE: commands.dfy ===
/** helpers/ui/commands.ts: clicking and typing into elements with report
    steps and screenshots around each action. What the browser answers (the
    element's text and attributes, whether each call succeeds, the clock) is
    given as a parameter, and the calls made are returned as a list. */
module Commands {
  import opened Results
  import opened Text
  import Scrolling
  import AllureReport
  import Reporter

  /** One call the helpers make to the reporter or to the element. */
  datatype Effect =
    | Log(event: Reporter.ReportEvent)
    | ClickElement
    | ClearValue
    | SetValue(value: string)
    | AddValue(ch: char)

  /** The calls made, and the error that escapes, if any. */
  datatype Outcome = Outcome(effects: seq<Effect>, raised: Option<string>)

  /** Whether `e` ends a report step. */
  predicate EndsStep(e: Effect) {
    e.Log? && e.event.EndStep?
  }

  /** Calls that end no step, followed by calls that end one at most as
      their last, end one at most as their last. */
  lemma EndsLast(a: seq<Effect>, b: seq<Effect>)
    requires forall i :: 0 <= i < |a| ==> !EndsStep(a[i])
    requires forall i :: 0 <= i < |b| - 1 ==> !EndsStep(b[i])
    ensures forall i :: 0 <= i < |a + b| - 1 ==> !EndsStep((a + b)[i])
  {
    forall i | 0 <= i < |a + b| - 1
      ensures !EndsStep((a + b)[i])
    {
      if i >= |a| {
        assert (a + b)[i] == b[i - |a|];
      }
    }
  }

  // ---------------------------------------------------------------------
  // getSanitizedFileName
  // ---------------------------------------------------------------------

  /** The characters of `/[:\/\\?*"<>\|\n\r]+/g`. */
  const Illegal: set<char> := {':', '/', '\\', '?', '*', '"', '<', '>', '|', '\n', '\r'}

  /** The characters of `/[:.-]/g`, removed from the ISO timestamp. */
  const TimestampMarks: set<char> := {':', '.', '-'}

  /** The length the file name is cut to. */
  const MaxFileName: nat := 240

  /** The four replacements of the description, in order. `/-{2,}/g` becomes
      a collapse of every run of dashes: a single dash is replaced by itself. */
  function SanitizeDescription(s: string): string {
    var dashed := CollapseRuns(s, Illegal, '-');
    var spaced := CollapseRuns(dashed, Whitespace, '_');
    var dashes := CollapseRuns(spaced, {'-'}, '-');
    CollapseRuns(dashes, {'_'}, '_')
  }

  /** A sanitised description holds no illegal character and no white
      space, and no two dashes or two underscores in a row. */
  predicate Clean(s: string) {
    NoneOf(s, Illegal) && NoneOf(s, Whitespace) && NoPair(s, '-') && NoPair(s, '_')
  }

  lemma SanitizeDescriptionClean(s: string)
    ensures Clean(SanitizeDescription(s))
  {
    var dashed := CollapseRuns(s, Illegal, '-');
    var spaced := CollapseRuns(dashed, Whitespace, '_');
    var dashes := CollapseRuns(spaced, {'-'}, '-');
    CollapseAvoids(s, Illegal, '-', Illegal);
    CollapseAvoids(dashed, Whitespace, '_', Illegal);
    CollapseAvoids(dashed, Whitespace, '_', Whitespace);
    CollapseAvoids(spaced, {'-'}, '-', Illegal);
    CollapseAvoids(spaced, {'-'}, '-', Whitespace);
    CollapseNoDoubled(spaced, {'-'}, '-');
    CollapseAvoids(dashes, {'_'}, '_', Illegal);
    CollapseAvoids(dashes, {'_'}, '_', Whitespace);
    CollapseKeepsNoPair(dashes, {'_'}, '_', '-');
    CollapseNoDoubled(dashes, {'_'}, '_');
  }

  /** A description that is already clean is kept as it is. */
  lemma SanitizeDescriptionKeeps(s: string)
    requires Clean(s)
    ensures SanitizeDescription(s) == s
  {
    CollapseAbsent(s, Illegal, '-');
    CollapseAbsent(s, Whitespace, '_');
    CollapseSingleton(s, '-');
    CollapseSingleton(s, '_');
  }

  /** Sanitising twice is sanitising once. */
  lemma SanitizeDescriptionIdempotent(s: string)
    ensures SanitizeDescription(SanitizeDescription(s)) == SanitizeDescription(s)
  {
    SanitizeDescriptionClean(s);
    SanitizeDescriptionKeeps(SanitizeDescription(s));
  }

  /** The name before it is cut and lower-cased. */
  function UncutFileName(stepDescription: string, iso: string): string {
    SanitizeDescription(stepDescription) + "_" + Strip(iso, TimestampMarks) + ".png"
  }

  /** `getSanitizedFileName(stepDescription)`, with `iso` the text of
      `new Date().toISOString()`: the lower case of the first 240 characters
      of the uncut name. */
  function GetSanitizedFileName(stepDescription: string, iso: string): (r: string)
    ensures |r| <= MaxFileName
    ensures forall i :: 0 <= i < |r| ==> !IsUpper(r[i])
    ensures var full := UncutFileName(stepDescription, iso);
            |r| == (if |full| <= MaxFileName then |full| else MaxFileName)
            && r == ToLower(full[..|r|])
  {
    var full := UncutFileName(stepDescription, iso);
    ToLower(full[..if |full| <= MaxFileName then |full| else MaxFileName])
  }

  /** A name that fits is the whole uncut name in lower case: it ends in
      `.png`, and starts with the lower case of the sanitised description
      followed by `_`. */
  lemma GetSanitizedFileNameFits(stepDescription: string, iso: string)
    requires |UncutFileName(stepDescription, iso)| <= MaxFileName
    ensures var r := GetSanitizedFileName(stepDescription, iso);
            var d := SanitizeDescription(stepDescription);
            |r| > |d| + 4
            && r[|r| - 4..] == ".png"
            && r[..|d|] == ToLower(d)
            && r[|d|] == '_'
  {
    var r := GetSanitizedFileName(stepDescription, iso);
    var full := UncutFileName(stepDescription, iso);
    var d := SanitizeDescription(stepDescription);
    assert full[..|full|] == full;
    assert full[|full| - 4..] == ".png";
    assert full[|d|] == '_';
    assert forall i :: 0 <= i < |d| ==> full[i] == d[i];
  }

  /** A name that does not fit is exactly 240 characters long, and is the
      lower case of the first 240 characters of the uncut name, whatever they
      end in. */
  lemma GetSanitizedFileNameCut(stepDescription: string, iso: string)
    requires |UncutFileName(stepDescription, iso)| > MaxFileName
    ensures var r := GetSanitizedFileName(stepDescription, iso);
            |r| == MaxFileName
            && r == ToLower(UncutFileName(stepDescription, iso)[..MaxFileName])
  {
  }

  // ---------------------------------------------------------------------
  // click
  // ---------------------------------------------------------------------

  /** What the page answers to `click(element)`; an `Err` is the error the
      call throws. */
  datatype ClickPage = ClickPage(
    ready: Option<string>,              // error of `waitForDisplayed` or `waitForClickable`
    text: Result<string>,               // `getText()`
    tagName: Result<string>,            // `getTagName()`
    classAttr: Result<Option<string>>,  // `getAttribute('class')`; `None` is `null`
    before: Result<string>,         // `saveScreenshot` before the click
    clicked: Option<string>,        // error of `element.click()`
    after: Result<string>,          // `saveScreenshot` after the click
    errorShot: Result<string>)      // each `saveScreenshot` of the `catch` block

  /** The step label of `click`: the trimmed text, or when that is empty
      `tag_class` from two more reads, which fails when either read throws
      or the class is `null`. */
  function ClickLabel(text: string, tagName: Result<string>, classAttr: Result<Option<string>>): (r: Result<string>)
    ensures Trim(text) != "" ==> r == Ok(Trim(text))
    ensures Trim(text) == "" ==> r == Scrolling.ElementDescription("", tagName, classAttr)
  {
    Scrolling.ElementDescription(Trim(text), tagName, classAttr)
  }

  /** A label taken from the text neither starts nor ends with white space,
      and an element whose text is only white space is labelled by its tag
      and class as if it had no text. */
  lemma ClickLabelTrimmed(text: string, tagName: Result<string>, classAttr: Result<Option<string>>)
    ensures Trim(text) != "" ==>
              ClickLabel(text, tagName, classAttr).Ok?
              && !IsSpace(ClickLabel(text, tagName, classAttr).value[0])
              && !IsSpace(ClickLabel(text, tagName, classAttr).value[|ClickLabel(text, tagName, classAttr).value| - 1])
    ensures AllSpace(text) ==> ClickLabel(text, tagName, classAttr) == Scrolling.ElementDescription("", tagName, classAttr)
  {
  }

  /** The label of the element, or the error of the waits and reads made
      before the step starts. */
  function ClickPrepare(p: ClickPage): (r: Result<string>)
    ensures p.ready.Some? ==> r == Err(p.ready.value)
    ensures p.ready.None? && p.text.Err? ==> r == Err(p.text.message)
    ensures p.ready.None? && p.text.Ok? ==> r == ClickLabel(p.text.value, p.tagName, p.classAttr)
    ensures r.Ok? <==> p.ready.None? && p.text.Ok?
                       && (Trim(p.text.value) == "" ==> p.tagName.Ok? && p.classAttr.Ok? && p.classAttr.value.Some?)
    ensures p.ready.None? && p.text.Ok? && Trim(p.text.value) == "" && p.tagName.Err? ==> r == Err(p.tagName.message)
    ensures p.ready.None? && p.text.Ok? && Trim(p.text.value) == "" && p.tagName.Ok? && p.classAttr.Err? ==>
              r == Err(p.classAttr.message)
  {
    if p.ready.Some? then Err(p.ready.value)
    else if p.text.Err? then Err(p.text.message)
    else ClickLabel(p.text.value, p.tagName, p.classAttr)
  }

  /** The calls of the step that clicks an element labelled `stepLabel`, up
      to the one that fails; both screenshots are saved at `path`. Every
      call but the click itself goes to the reporter. */
  function ClickStep(stepLabel: string, path: string, p: ClickPage): (t: seq<Effect>)
    ensures |t| == if p.before.Err? then 2 else if p.clicked.Some? then 4 else if p.after.Err? then 5 else 7
    ensures t[0] == Log(Reporter.StartStep("Click on " + stepLabel))
    ensures |t| > 3 ==> t[3] == ClickElement
    ensures forall i :: 0 <= i < |t| && i != 3 ==> t[i].Log?
    ensures |t| == 7 ==> t[6] == Log(Reporter.EndStep(Reporter.Passed))
    ensures forall i :: 0 <= i < |t| && i != 6 ==> !EndsStep(t[i])
  {
    var opening := [Log(Reporter.StartStep("Click on " + stepLabel)), Log(Reporter.SaveScreenshot(path))];
    if p.before.Err? then opening
    else
      var clicking := opening + [Log(Reporter.Attachment("Before click", p.before.value, "image/png")), ClickElement];
      if p.clicked.Some? then clicking
      else
        var saving := clicking + [Log(Reporter.SaveScreenshot(path))];
        if p.after.Err? then saving
        else saving + [Log(Reporter.Attachment("After click", p.after.value, "image/png")),
                       Log(Reporter.EndStep(Reporter.Passed))]
  }

  /** The message of the first call of `click`'s `try` block that fails. */
  function ClickFailure(p: ClickPage): Option<string> {
    match ClickPrepare(p)
    case Err(message) => Some(message)
    case Ok(_) =>
      if p.before.Err? then Some(p.before.message)
      else if p.clicked.Some? then p.clicked
      else if p.after.Err? then Some(p.after.message)
      else None
  }

  /** The calls of `click`'s `try` block. */
  function ClickAttempt(p: ClickPage, iso: string): seq<Effect> {
    match ClickPrepare(p)
    case Err(_) => []
    case Ok(stepLabel) =>
      ClickStep(stepLabel, Reporter.ReportDirectory + GetSanitizedFileName(stepLabel + ".png", iso), p)
  }

  /** The path of the error screenshot of `click`. */
  function ClickErrorPath(iso: string): string {
    Reporter.ReportDirectory + GetSanitizedFileName("Failed2ClickOnElement" + ".png", iso)
  }

  /** The calls of `click`'s `catch` block: a failed step holding the error
      screenshot, taken twice; the step stays open when that screenshot
      fails. */
  function ClickRecovery(message: string, errorShot: Result<string>, iso: string): (t: seq<Effect>)
    ensures |t| == if errorShot.Ok? then 5 else 2
    ensures t[0] == Log(Reporter.StartStep("Failed to click on element: " + message))
    ensures forall i :: 0 <= i < |t| ==> t[i].Log?
    ensures forall i :: 0 <= i < |t| - 1 ==> !EndsStep(t[i])
    ensures |t| == 5 ==> t[4] == Log(Reporter.EndStep(Reporter.Failed))
  {
    var path := ClickErrorPath(iso);
    var failing := [Log(Reporter.StartStep("Failed to click on element: " + message)),
                    Log(Reporter.SaveScreenshot(path))];
    match errorShot
    case Err(_) => failing
    case Ok(image) =>
      failing + [Log(Reporter.SaveScreenshot(path)),
                 Log(Reporter.Attachment("Error screenshot", image, "image/png")),
                 Log(Reporter.EndStep(Reporter.Failed))]
  }

  /** `click(element)`. A failure records a failed step with a screenshot and
      rethrows the original error; only a failure of the error screenshot
      itself replaces it. */
  function Click(p: ClickPage, iso: string): (r: Outcome)
    ensures ClickFailure(p).None? ==> r.raised.None? && r.effects == ClickAttempt(p, iso)
    ensures ClickFailure(p).Some? ==>
              r.effects == ClickAttempt(p, iso) + ClickRecovery(ClickFailure(p).value, p.errorShot, iso)
    ensures ClickFailure(p).Some? && p.errorShot.Ok? ==> r.raised == ClickFailure(p)
    ensures ClickFailure(p).Some? && p.errorShot.Err? ==> r.raised == Some(p.errorShot.message)
  {
    var attempt := ClickAttempt(p, iso);
    match ClickFailure(p)
    case None => Outcome(attempt, None)
    case Some(message) =>
      var recovery := ClickRecovery(message, p.errorShot, iso);
      Outcome(attempt + recovery, if p.errorShot.Ok? then Some(message) else Some(p.errorShot.message))
  }

  /** The click itself happens once, as the fourth call, exactly when the
      element was displayed and clickable, its label could be made and the
      screenshot before the click was taken. */
  lemma ClickClicksOnce(p: ClickPage, iso: string)
    ensures var r := Click(p, iso);
            forall i :: 0 <= i < |r.effects| ==>
              (r.effects[i] == ClickElement <==> i == 3 && ClickPrepare(p).Ok? && p.before.Ok?)
  {
    var r := Click(p, iso);
    var attempt := ClickAttempt(p, iso);
    if ClickFailure(p).Some? {
      var recovery := ClickRecovery(ClickFailure(p).value, p.errorShot, iso);
      forall i | 0 <= i < |r.effects|
        ensures r.effects[i] == ClickElement <==> i == 3 && ClickPrepare(p).Ok? && p.before.Ok?
      {
        if i >= |attempt| {
          assert r.effects[i] == recovery[i - |attempt|];
        } else {
          assert r.effects[i] == attempt[i];
        }
      }
    }
  }

  /** A `try` block that fails ends no step. */
  lemma ClickAttemptFails(p: ClickPage, iso: string)
    requires ClickFailure(p).Some?
    ensures var attempt := ClickAttempt(p, iso);
            forall i :: 0 <= i < |attempt| ==> !EndsStep(attempt[i])
  {
    if ClickPrepare(p).Ok? {
      assert |ClickAttempt(p, iso)| < 7;
    }
  }

  /** At most one step is ended, and only by the last call. */
  lemma ClickEndsOneStep(p: ClickPage, iso: string)
    ensures var r := Click(p, iso);
            forall i :: 0 <= i < |r.effects| - 1 ==> !EndsStep(r.effects[i])
  {
    if ClickFailure(p).Some? {
      ClickAttemptFails(p, iso);
      EndsLast(ClickAttempt(p, iso), ClickRecovery(ClickFailure(p).value, p.errorShot, iso));
    }
  }

  /** The step ends passed exactly when nothing failed, and failed when
      something failed and the error screenshot was taken. */
  lemma ClickEndStatus(p: ClickPage, iso: string)
    ensures var r := Click(p, iso);
            (r.raised.None? <==> ClickFailure(p).None?)
            && (r.raised.None? ==> r.effects[|r.effects| - 1] == Log(Reporter.EndStep(Reporter.Passed)))
            && (r.raised.Some? && p.errorShot.Ok? ==>
                  r.effects[|r.effects| - 1] == Log(Reporter.EndStep(Reporter.Failed)))
  {
    var r := Click(p, iso);
    if ClickFailure(p).Some? {
      var attempt := ClickAttempt(p, iso);
      var recovery := ClickRecovery(ClickFailure(p).value, p.errorShot, iso);
      assert r.effects[|r.effects| - 1] == recovery[|recovery| - 1];
    }
  }

  // ---------------------------------------------------------------------
  // setText
  // ---------------------------------------------------------------------

  /** The `no-class` substitute of `setText`. */
  const NoClass: string := "no-class"

  /** The step label of `setText`: the untrimmed text, or when it is empty
      `tag_class`, with `no-class` for a missing or empty class. */
  function SetTextLabel(text: string, tagName: string, classAttr: Option<string>): (r: string)
    ensures text != "" ==> r == text
    ensures text == "" && classAttr.Some? && classAttr.value != "" ==>
              r == tagName + "_" + CollapseRuns(classAttr.value, Whitespace, '_')
    ensures text == "" && (classAttr.None? || classAttr.value == "") ==> r == tagName + "_" + NoClass
  {
    if text != "" then text
    else if classAttr.Some? && classAttr.value != "" then
      tagName + "_" + CollapseRuns(classAttr.value, Whitespace, '_')
    else tagName + "_" + NoClass
  }

  /** Unlike `click`, `setText` never fails for want of a class, and agrees
      with the untrimmed label of the other helpers wherever those succeed
      with a non-empty class. */
  lemma SetTextLabelTotal(text: string, tagName: string, classAttr: Option<string>)
    ensures text != "" || (classAttr.Some? && classAttr.value != "") ==>
              Scrolling.ElementLabel(text, tagName, classAttr) == Ok(SetTextLabel(text, tagName, classAttr))
    ensures text == "" && classAttr.None? ==> Scrolling.ElementLabel(text, tagName, classAttr).Err?
    ensures text == "" ==> NoneOf(SetTextLabel(text, tagName, classAttr)[|tagName| + 1..], Whitespace)
  {
    if text == "" {
      var r := SetTextLabel(text, tagName, classAttr);
      if classAttr.Some? && classAttr.value != "" {
        CollapseAvoids(classAttr.value, Whitespace, '_', Whitespace);
        assert r[|tagName| + 1..] == CollapseRuns(classAttr.value, Whitespace, '_');
      } else {
        assert r[|tagName| + 1..] == NoClass;
      }
    }
  }

  /** `ariaLabelValue ? ariaLabelValue : inPutElement.selector`. */
  function InputName(ariaLabel: Option<string>, selector: string): (r: string)
    ensures ariaLabel.Some? && ariaLabel.value != "" ==> r == ariaLabel.value
    ensures ariaLabel.None? || ariaLabel.value == "" ==> r == selector
  {
    if ariaLabel.Some? && ariaLabel.value != "" then ariaLabel.value else selector
  }

  /** The name of the step that reports the entered text. */
  function EnteredStep(inputText: string, name: string): string {
    "Entered string '" + inputText + "' in '" + name + "' input field"
  }

  /** What the page answers to `setText(inPutElement, value)`; an `Err` is
      the error the call throws. */
  datatype SetTextPage = SetTextPage(
    text: Result<string>,               // `getText()`
    tagName: Result<string>,            // `getTagName()`
    classAttr: Result<Option<string>>,  // `getAttribute('class')`
    setValue: Option<string>,           // error of `setValue(value)`
    inputText: Result<string>,          // `getValue()`
    ariaLabel: Result<Option<string>>,  // `getAttribute("aria-label")`
    selector: string,                   // `inPutElement.selector`
    screenshot: Result<string>)         // `saveScreenshot`

  /** The step description of `setText`: the text, or, when it is empty,
      `tag_class` from two more reads; the first read that throws ends it. */
  function SetTextDescription(p: SetTextPage): (r: Result<string>)
    ensures r.Ok? <==> p.text.Ok? && (p.text.value == "" ==> p.tagName.Ok? && p.classAttr.Ok?)
    ensures r.Ok? && p.text.value != "" ==> r.value == p.text.value
    ensures r.Ok? && p.text.value == "" ==> r.value == SetTextLabel("", p.tagName.value, p.classAttr.value)
    ensures p.text.Err? ==> r == p.text
  {
    match p.text
    case Err(message) => Err(message)
    case Ok(text) =>
      if text != "" then Ok(text)
      else if p.tagName.Err? then Err(p.tagName.message)
      else if p.classAttr.Err? then Err(p.classAttr.message)
      else Ok(SetTextLabel(text, p.tagName.value, p.classAttr.value))
  }

  /** The calls of `setText`'s `try` block, and the error it ends with. The
      wait for the element catches its own timeout, so it never fails. */
  function SetTextAttempt(p: SetTextPage, value: string, iso: string): Outcome {
    match SetTextDescription(p)
    case Err(message) => Outcome([], Some(message))
    case Ok(stepLabel) =>
      if p.setValue.Some? then Outcome([SetValue(value)], p.setValue)
      else if p.inputText.Err? then Outcome([SetValue(value)], Some(p.inputText.message))
      else if p.ariaLabel.Err? then Outcome([SetValue(value)], Some(p.ariaLabel.message))
      else
        var path := Reporter.ReportDirectory + GetSanitizedFileName(stepLabel, iso);
        var opening := [SetValue(value),
                        Log(Reporter.StartStep(EnteredStep(p.inputText.value, InputName(p.ariaLabel.value, p.selector)))),
                        Log(Reporter.StartStep("After entering string/text")),
                        Log(Reporter.SaveScreenshot(path))];
        match p.screenshot
        case Err(message) => Outcome(opening, Some(message))
        case Ok(image) =>
          Outcome(opening + [Log(Reporter.Attachment("", image, "image/png")),
                             Log(Reporter.EndStep(Reporter.Passed)),
                             Log(Reporter.EndStep(Reporter.Passed))], None)
  }

  /** `setText(inPutElement, value)`: a failure is recorded as an empty step
      and rethrown unchanged. */
  function SetText(p: SetTextPage, value: string, iso: string): (r: Outcome)
    ensures r.raised == SetTextAttempt(p, value, iso).raised
    ensures r.raised.None? <==>
              SetTextDescription(p).Ok? && p.setValue.None? && p.inputText.Ok?
              && p.ariaLabel.Ok? && p.screenshot.Ok?
    ensures var attempt := SetTextAttempt(p, value, iso).effects;
            |r.effects| >= |attempt| && r.effects[..|attempt|] == attempt
            && (r.raised.Some? ==>
                  r.effects[|attempt|..]
                  == [Log(Reporter.StartStep("Failed to set value in input field: " + r.raised.value)),
                      Log(Reporter.EndStep(Reporter.Passed))])
    ensures SetValue(value) in r.effects <==> SetTextDescription(p).Ok?
    ensures SetTextDescription(p).Err? ==> r.raised == Some(SetTextDescription(p).message)
  {
    var attempt := SetTextAttempt(p, value, iso);
    match attempt.raised
    case None => Outcome(attempt.effects, None)
    case Some(message) =>
      var effects := attempt.effects
        + [Log(Reporter.StartStep("Failed to set value in input field: " + message)),
           Log(Reporter.EndStep(Reporter.Passed))];
      assert effects[..|attempt.effects|] == attempt.effects;
      assert effects[|attempt.effects|..]
          == [Log(Reporter.StartStep("Failed to set value in input field: " + message)),
              Log(Reporter.EndStep(Reporter.Passed))];
      Outcome(effects, Some(message))
  }

  // ---------------------------------------------------------------------
  // setText2
  // ---------------------------------------------------------------------

  /** The running time after which typing stops, in milliseconds. */
  const MaxRuntime: int := 5000

  const MaxRuntimeMessage: string := "Maximum runtime reached. Stopping input."

  const NotClickableMessage: string := "Input element not displayed within timeout"

  /** One `addValue` per character of `s`, in order. */
  function AddValues(s: string): (r: seq<Effect>)
    ensures |r| == |s|
    decreases |s|
  {
    if s == [] then [] else AddValues(s[..|s| - 1]) + [AddValue(s[|s| - 1])]
  }

  lemma {:induction false} AddValuesAt(s: string, i: nat)
    requires i < |s|
    ensures AddValues(s)[i] == AddValue(s[i])
    decreases |s|
  {
    if i < |s| - 1 {
      AddValuesAt(s[..|s| - 1], i);
    }
  }

  /** What the page answers to `setText2(inPutElement, string2Enter)`. */
  datatype SetText2Page = SetText2Page(
    clickable: bool,                  // whether `isClickable()` held within the timeout
    clicked: Option<string>,          // the error of `click()`, if it throws
    cleared: Option<string>,          // the error of `clearValue()`, if it throws
    addFailures: seq<Option<string>>, // the error of `addValue` for each character, if it throws
    elapsed: seq<int>,                // the clock after each character
    inputText: Result<string>,        // `getValue()`
    ariaLabel: Result<Option<string>>,// `getAttribute("aria-label")`
    selector: string,                 // `inPutElement.selector`
    screenshot: Result<string>)       // `saveScreenshot`

  /** The page answers for every character of `text`. */
  predicate CoversText(p: SetText2Page, text: string) {
    |text| <= |p.elapsed| && |text| <= |p.addFailures|
  }

  /** Why typing stops right after character `i`: its `addValue` throws, or
      the clock then reads at least the maximum running time. */
  function StopAfter(p: SetText2Page, i: nat): (r: Option<string>)
    requires i < |p.elapsed| && i < |p.addFailures|
    ensures r.None? <==> p.addFailures[i].None? && p.elapsed[i] < MaxRuntime
    ensures p.addFailures[i].Some? ==> r == p.addFailures[i]
    ensures p.addFailures[i].None? && r.Some? ==> r.value == MaxRuntimeMessage
  {
    if p.addFailures[i].Some? then p.addFailures[i]
    else if p.elapsed[i] >= MaxRuntime then Some(MaxRuntimeMessage)
    else None
  }

  /** Where typing stopped, and the error it stopped with. */
  datatype TypingStop = TypingStop(index: nat, message: string)

  /** The first of the first `n` characters after which typing stops. */
  function FirstStop(p: SetText2Page, n: nat): (r: Option<TypingStop>)
    requires n <= |p.elapsed| && n <= |p.addFailures|
    ensures r.Some? ==> r.value.index < n && StopAfter(p, r.value.index) == Some(r.value.message)
    ensures r.Some? ==> forall j :: 0 <= j < r.value.index ==> StopAfter(p, j).None?
    ensures r.None? ==> forall j :: 0 <= j < n ==> StopAfter(p, j).None?
    decreases n
  {
    if n == 0 then None
    else
      var earlier := FirstStop(p, n - 1);
      if earlier.Some? then earlier
      else match StopAfter(p, n - 1)
        case Some(message) => Some(TypingStop(n - 1, message))
        case None => None
  }

  /** Once found, the first stop stays the first one. */
  lemma {:induction false} FirstStopStays(p: SetText2Page, n: nat, m: nat)
    requires n <= m <= |p.elapsed| && m <= |p.addFailures|
    requires FirstStop(p, n).Some?
    ensures FirstStop(p, m) == FirstStop(p, n)
    decreases m
  {
    if m > n {
      FirstStopStays(p, n, m - 1);
    }
  }

  /** The characters `setText2` adds: up to and including the one after
      which typing stopped, or all of them. */
  function Typed(text: string, p: SetText2Page): (r: string)
    requires CoversText(p, text)
    ensures r <= text
    ensures FirstStop(p, |text|).None? ==> r == text
    ensures FirstStop(p, |text|).Some? ==> |r| == FirstStop(p, |text|).value.index + 1
  {
    match FirstStop(p, |text|)
    case None => text
    case Some(stop) => text[..stop.index + 1]
  }

  /** The reads after typing, the report of `setText2`, and its error: a
      failed `getValue` or `getAttribute` throws before the step starts; a
      failed screenshot leaves the step open. */
  function SetText2Report(p: SetText2Page, iso: string): (r: Outcome)
    ensures r.raised.None? <==> p.inputText.Ok? && p.ariaLabel.Ok? && p.screenshot.Ok?
    ensures p.inputText.Err? ==> r == Outcome([], Some(p.inputText.message))
    ensures p.inputText.Ok? && p.ariaLabel.Err? ==> r == Outcome([], Some(p.ariaLabel.message))
    ensures p.inputText.Ok? && p.ariaLabel.Ok? && p.screenshot.Err? ==>
              r.raised == Some(p.screenshot.message) && |r.effects| == 2
    ensures r.raised.None? ==>
              |r.effects| == 4
              && r.effects[0] == Log(Reporter.StartStep(EnteredStep(p.inputText.value, InputName(p.ariaLabel.value, p.selector))))
              && r.effects[3] == Log(Reporter.EndStep(Reporter.Passed))
  {
    match p.inputText
    case Err(message) => Outcome([], Some(message))
    case Ok(inputText) =>
      match p.ariaLabel
      case Err(message) => Outcome([], Some(message))
      case Ok(ariaLabel) =>
        var name := InputName(ariaLabel, p.selector);
        var fileName := Scrolling.ScreenshotFileName(name, iso);
        var opening := [Log(Reporter.StartStep(EnteredStep(inputText, name))),
                        Log(Reporter.SaveScreenshot(Reporter.ReportDirectory + fileName))];
        match p.screenshot
        case Err(message) => Outcome(opening, Some(message))
        case Ok(image) =>
          Outcome(opening + [Log(Reporter.Attachment(fileName, image, "image/png")),
                             Log(Reporter.EndStep(Reporter.Passed))], None)
  }

  /** The element became clickable, and the click and the clearing went through. */
  predicate Prepared(p: SetText2Page) {
    p.clickable && p.clicked.None? && p.cleared.None?
  }

  /** `setText2(inPutElement, string2Enter)`: waits for the element to be
      clickable, clicks, clears, then adds one character at a time until all
      are added, an `addValue` throws or the time runs out; every error is
      logged and rethrown. */
  method SetText2(text: string, p: SetText2Page, iso: string) returns (r: Outcome)
    requires CoversText(p, text)
    ensures !p.clickable ==> r == Outcome([], Some(NotClickableMessage))
    ensures p.clickable && p.clicked.Some? ==> r == Outcome([ClickElement], p.clicked)
    ensures p.clickable && p.clicked.None? && p.cleared.Some? ==> r == Outcome([ClickElement, ClearValue], p.cleared)
    ensures Prepared(p) ==>
              var typed := Typed(text, p);
              |r.effects| >= 2 + |typed|
              && r.effects[..2 + |typed|] == [ClickElement, ClearValue] + AddValues(typed)
    ensures Prepared(p) && FirstStop(p, |text|).Some? ==>
              r.raised == Some(FirstStop(p, |text|).value.message) && |r.effects| == 2 + |Typed(text, p)|
    ensures Prepared(p) && FirstStop(p, |text|).None? ==>
              r.effects == [ClickElement, ClearValue] + AddValues(text) + SetText2Report(p, iso).effects
              && r.raised == SetText2Report(p, iso).raised
  {
    if !p.clickable {
      return Outcome([], Some(NotClickableMessage));
    }
    if p.clicked.Some? {
      return Outcome([ClickElement], p.clicked);
    }
    if p.cleared.Some? {
      return Outcome([ClickElement, ClearValue], p.cleared);
    }
    var effects := [ClickElement, ClearValue];
    var i := 0;
    while i < |text|
      invariant 0 <= i <= |text|
      invariant FirstStop(p, i).None?
      invariant effects == [ClickElement, ClearValue] + AddValues(text[..i])
    {
      assert text[..i + 1][..i] == text[..i];
      effects := effects + [AddValue(text[i])];
      var stop := StopAfter(p, i);
      if stop.Some? {
        FirstStopStays(p, i + 1, |text|);
        assert effects[..2 + (i + 1)] == effects;
        return Outcome(effects, stop);
      }
      i := i + 1;
    }
    assert text[..i] == text;
    var report := SetText2Report(p, iso);
    effects := effects + report.effects;
    assert effects[..2 + |text|] == [ClickElement, ClearValue] + AddValues(text);
    r := Outcome(effects, report.raised);
  }

  /** The characters are added in order, one `addValue` each; typing stops
      right after the first character whose `addValue` throws or at whose end
      the clock reads at least five seconds, and only there. */
  lemma TypedStopsAtFirstStop(text: string, p: SetText2Page)
    requires CoversText(p, text)
    ensures var typed := Typed(text, p);
            (forall i :: 0 <= i < |typed| ==> AddValues(typed)[i] == AddValue(text[i]))
            && (forall i :: 0 <= i < |typed| - 1 ==> p.addFailures[i].None? && p.elapsed[i] < MaxRuntime)
            && (|typed| < |text| || FirstStop(p, |text|).Some? ==>
                  p.addFailures[|typed| - 1].Some? || p.elapsed[|typed| - 1] >= MaxRuntime)
  {
    var typed := Typed(text, p);
    forall i | 0 <= i < |typed|
      ensures AddValues(typed)[i] == AddValue(text[i])
    {
      AddValuesAt(typed, i);
    }
    var n := match FirstStop(p, |text|) case Some(stop) => stop.index + 1 case None => |text|;
    forall i | 0 <= i < n - 1
      ensures p.addFailures[i].None? && p.elapsed[i] < MaxRuntime
    {
      assert StopAfter(p, i).None?;
    }
    if FirstStop(p, |text|).Some? {
      assert StopAfter(p, n - 1).Some?;
    }
  }
}

=== FILE: common.dfy ===
/** helpers/ui/common.ts: the grid helpers of the `Common` class. The page is
    replaced by what reading it gives: the header cells of the table, the
    `h6` headings and their siblings, and one snapshot of the searched
    column's cells per attempt of the row search. */
module Common {
  import opened Results
  import opened Text
  import opened Snapshot

  // ---------------------------------------------------------------------
  // Maps filled in a loop, where a later entry overwrites an earlier one
  // ---------------------------------------------------------------------

  /** The object a loop fills with `object[key] = value`, one optional entry
      per pass (`None` is a pass that stores nothing). */
  function LastWins(entries: seq<Option<(string, string)>>): map<string, string>
    decreases |entries|
  {
    if entries == [] then map[]
    else
      var m := LastWins(entries[..|entries| - 1]);
      match entries[|entries| - 1]
      case None => m
      case Some(entry) => m[entry.0 := entry.1]
  }

  /** A key is in the object exactly when some pass stored it. */
  lemma {:induction false} LastWinsKeys(entries: seq<Option<(string, string)>>, key: string)
    ensures key in LastWins(entries) <==>
              exists i :: 0 <= i < |entries| && entries[i].Some? && entries[i].value.0 == key
    decreases |entries|
  {
    if entries != [] {
      var n := |entries| - 1;
      LastWinsKeys(entries[..n], key);
      if key in LastWins(entries[..n]) {
        var i :| 0 <= i < n && entries[..n][i].Some? && entries[..n][i].value.0 == key;
        assert entries[i] == entries[..n][i];
      }
      if exists i :: 0 <= i < |entries| && entries[i].Some? && entries[i].value.0 == key {
        var i :| 0 <= i < |entries| && entries[i].Some? && entries[i].value.0 == key;
        if i < n {
          assert entries[..n][i] == entries[i];
        }
      }
    }
  }

  /** The value of a key is the one the last pass storing it stored. */
  lemma {:induction false} LastWinsValue(entries: seq<Option<(string, string)>>, k: nat)
    requires k < |entries| && entries[k].Some?
    requires forall j :: k < j < |entries| && entries[j].Some? ==> entries[j].value.0 != entries[k].value.0
    ensures entries[k].value.0 in LastWins(entries)
    ensures LastWins(entries)[entries[k].value.0] == entries[k].value.1
    decreases |entries|
  {
    var n := |entries| - 1;
    if k < n {
      forall j | k < j < n && entries[..n][j].Some?
        ensures entries[..n][j].value.0 != entries[..n][k].value.0 {
        assert entries[..n][j] == entries[j];
      }
      LastWinsValue(entries[..n], k);
    }
  }

  lemma LastWinsStep(entries: seq<Option<(string, string)>>, i: nat)
    requires i < |entries|
    ensures LastWins(entries[..i + 1])
         == match entries[i] case None => LastWins(entries[..i]) case Some(e) => LastWins(entries[..i])[e.0 := e.1]
  {
    assert entries[..i + 1][..i] == entries[..i];
  }

  // ---------------------------------------------------------------------
  // getColumnMapping / getColumnMapping2: the header fold
  // ---------------------------------------------------------------------

  /** One `.ag-header-cell` of the table: its `col-id` attribute (`None` is
      `null`), whether its text element is displayed, and its text. */
  datatype HeaderCell = HeaderCell(colId: Option<string>, displayed: bool, text: string)

  /** A header is mapped when its col-id is truthy, it is displayed and its
      text, untrimmed, is not empty. */
  predicate Mapped(h: HeaderCell) {
    h.colId.Some? && h.colId.value != "" && h.displayed && h.text != ""
  }

  function HeaderEntries(headers: seq<HeaderCell>): (e: seq<Option<(string, string)>>)
    ensures |e| == |headers|
  {
    seq(|headers|, i requires 0 <= i < |headers| =>
      if Mapped(headers[i]) then Some((headers[i].text, headers[i].colId.value)) else None)
  }

  /** The `columnMapping` the header loop builds. */
  function MappingOf(headers: seq<HeaderCell>): map<string, string> {
    LastWins(HeaderEntries(headers))
  }

  /** The header loop: `columnMapping[text] = headerId` for each mapped
      header, in order. */
  method BuildColumnMapping(headers: seq<HeaderCell>) returns (columnMapping: map<string, string>)
    ensures columnMapping == MappingOf(headers)
  {
    ghost var entries := HeaderEntries(headers);
    columnMapping := map[];
    for i := 0 to |headers|
      invariant columnMapping == LastWins(entries[..i])
    {
      LastWinsStep(entries, i);
      var header := headers[i];
      if header.colId.Some? && header.colId.value != "" {
        if header.displayed && header.text != "" {
          columnMapping := columnMapping[header.text := header.colId.value];
        }
      }
    }
    assert entries[..|headers|] == entries;
  }

  /** A column name is mapped exactly when some mapped header has that
      text, untrimmed. */
  lemma MappingKeys(headers: seq<HeaderCell>, name: string)
    ensures name in MappingOf(headers) <==>
              exists i :: 0 <= i < |headers| && Mapped(headers[i]) && headers[i].text == name
  {
    var e := HeaderEntries(headers);
    LastWinsKeys(e, name);
    if exists i :: 0 <= i < |headers| && Mapped(headers[i]) && headers[i].text == name {
      var i :| 0 <= i < |headers| && Mapped(headers[i]) && headers[i].text == name;
      assert e[i].Some? && e[i].value.0 == name;
    }
  }

  /** A name maps to the col-id of the last mapped header with that text,
      which is never an empty col-id. */
  lemma MappingLastWins(headers: seq<HeaderCell>, k: nat)
    requires k < |headers| && Mapped(headers[k])
    requires forall j :: k < j < |headers| && Mapped(headers[j]) ==> headers[j].text != headers[k].text
    ensures headers[k].text in MappingOf(headers)
    ensures MappingOf(headers)[headers[k].text] == headers[k].colId.value != ""
  {
    var e := HeaderEntries(headers);
    assert e[k] == Some((headers[k].text, headers[k].colId.value));
    forall j | k < j < |e| && e[j].Some? ensures e[j].value.0 != e[k].value.0 {
      assert Mapped(headers[j]);
    }
    LastWinsValue(e, k);
  }

  // ---------------------------------------------------------------------
  // getColumnMapping / getColumnMapping2: finding the table
  // ---------------------------------------------------------------------

  /** A sibling of the heading's parent: its tag name and whether it holds
      an `ag-grid-angular` that exists. */
  datatype Sibling = Sibling(tagName: string, hasGrid: bool)

  /** An `h6` of the page: its text, whether its parent exists, and the
      parent's following siblings in order. `nextElement()` always gives an
      element object, so the walk goes on past the last sibling, and
      `getTagName()` on the missing element throws. */
  datatype Heading = Heading(text: CellRead, parentExists: bool, siblings: seq<Sibling>)

  predicate IsGridDiv(s: Sibling) {
    ToLower(s.tagName) == "div" && s.hasGrid
  }

  /** The first sibling that is a `div` (in any case) holding a grid. */
  function GridSibling(siblings: seq<Sibling>): (r: Option<nat>)
    ensures r.Some? ==> r.value < |siblings| && IsGridDiv(siblings[r.value])
                        && forall j :: 0 <= j < r.value ==> !IsGridDiv(siblings[j])
    ensures r.None? ==> forall j :: 0 <= j < |siblings| ==> !IsGridDiv(siblings[j])
    decreases |siblings|
  {
    if siblings == [] then None
    else if IsGridDiv(siblings[0]) then Some(0)
    else
      match GridSibling(siblings[1..])
      case None => None
      case Some(j) => Some(j + 1)
  }

  /** The `while (sibling)` walk over the parent's following siblings:
      the index of the grid, or `None` when the walk ran past the last
      sibling (and the read of the missing one threw). */
  method FindGridSibling(siblings: seq<Sibling>) returns (r: Option<nat>)
    ensures r == GridSibling(siblings)
  {
    var i := 0;
    while i < |siblings|
      invariant 0 <= i <= |siblings|
      invariant forall j :: 0 <= j < i ==> !IsGridDiv(siblings[j])
    {
      if ToLower(siblings[i].tagName) == "div" && siblings[i].hasGrid {
        GridSiblingIs(siblings, i);
        return Some(i);
      }
      i := i + 1;
    }
    r := None;
    GridSiblingNone(siblings);
  }

  lemma {:induction false} GridSiblingIs(siblings: seq<Sibling>, i: nat)
    requires i < |siblings| && IsGridDiv(siblings[i])
    requires forall j :: 0 <= j < i ==> !IsGridDiv(siblings[j])
    ensures GridSibling(siblings) == Some(i)
    decreases i
  {
    if i > 0 {
      GridSiblingIs(siblings[1..], i - 1);
    }
  }

  lemma GridSiblingNone(siblings: seq<Sibling>)
    requires forall j :: 0 <= j < |siblings| ==> !IsGridDiv(siblings[j])
    ensures GridSibling(siblings) == None
  {
  }

  /** The default page when no table name is given: whether `div#page-title`
      becomes displayed within the wait, whether it exists, whether
      `learn-content` exists and whether it holds a grid. */
  datatype DefaultLayout = DefaultLayout(titleDisplayed: bool, titleExists: bool,
                                         learnContentExists: bool, gridExists: bool)

  /** The table the headers are read from. */
  datatype TableRef = NamedTable(heading: nat, sibling: nat) | ContentTable

  /** Why the mapping throws. The three driver failures keep no message. */
  datatype MappingError =
    | TableNotFound(tableName: string)
    | HeadingUnreadable(heading: nat)
    | SiblingMissing(heading: nat)
    | TitleWaitTimedOut
    | PageTitleMissing
    | LearnContentMissing
    | GridMissing

  function MappingErrorMessage(e: MappingError): Option<string> {
    match e
    case TableNotFound(name) => Some("Table with name \"" + name + "\" not found.")
    case PageTitleMissing => Some("Page title element not found.")
    case LearnContentMissing => Some("Learn-content element not found.")
    case GridMissing => Some("Table element within learn-content not found.")
    case _ => None
  }

  datatype Located = Located(table: TableRef) | NotLocated(error: MappingError)

  predicate Truthy(s: Option<string>) {
    s.Some? && s.value != ""
  }

  function HeadingTexts(headings: seq<Heading>): (t: seq<CellRead>)
    ensures |t| == |headings|
  {
    seq(|headings|, i requires 0 <= i < |headings| => headings[i].text)
  }

  /** The table under the heading found at index `i`: the first grid among
      its parent's following siblings; a walk without one ends with the
      driver's error on the missing sibling. */
  function HeadingTable(tableName: string, i: nat, h: Heading): Located {
    if !h.parentExists then NotLocated(TableNotFound(tableName))
    else
      match GridSibling(h.siblings)
      case None => NotLocated(SiblingMissing(i))
      case Some(j) => Located(NamedTable(i, j))
  }

  /** The table lookup. With a name, the first `h6` whose trimmed text is
      the trimmed name decides alone. Without one, the grid inside
      `learn-content`; `getColumnMapping` first waits for the page title to
      be displayed (`waitsForTitle`), `getColumnMapping2` does not. */
  function LocateTable(tableName: Option<string>, headings: seq<Heading>, layout: DefaultLayout,
                       waitsForTitle: bool): Located
  {
    if Truthy(tableName) then
      match Scan(Verdicts(HeadingTexts(headings), TrimmedEquals(Trim(tableName.value))))
      case Fault(i) => NotLocated(HeadingUnreadable(i))
      case Miss => NotLocated(TableNotFound(tableName.value))
      case Hit(i) => HeadingTable(tableName.value, i, headings[i])
    else if waitsForTitle && !layout.titleDisplayed then NotLocated(TitleWaitTimedOut)
    else if !layout.titleExists then NotLocated(PageTitleMissing)
    else if !layout.learnContentExists then NotLocated(LearnContentMissing)
    else if !layout.gridExists then NotLocated(GridMissing)
    else Located(ContentTable)
  }

  /** Only the first matching heading is considered: when heading `k` is the
      first whose trimmed text is the trimmed name, the lookup is decided by
      that heading alone, and a heading without a grid below it gives "not
      found" even if a later heading with the same text has one. */
  lemma TableLookupFirstHeading(tableName: string, headings: seq<Heading>, layout: DefaultLayout,
                                waitsForTitle: bool, k: nat)
    requires tableName != ""
    requires k < |headings| && headings[k].text.Read? && Trim(headings[k].text.text) == Trim(tableName)
    requires forall j :: 0 <= j < k ==> headings[j].text.Read? && Trim(headings[j].text.text) != Trim(tableName)
    ensures LocateTable(Some(tableName), headings, layout, waitsForTitle) == HeadingTable(tableName, k, headings[k])
  {
    var texts := HeadingTexts(headings);
    var c := TrimmedEquals(Trim(tableName));
    assert texts[k].Read? && Matches(c, texts[k].text);
    assert forall j :: 0 <= j < k ==> texts[j].Read? && !Matches(c, texts[j].text) by {
      forall j | 0 <= j < k ensures texts[j].Read? && !Matches(c, texts[j].text) {
        assert texts[j] == headings[j].text;
      }
    }
    ScanHitMeaning(texts, c, k);
    assert Scan(Verdicts(texts, c)) == Hit(k);
  }

  /** With a name and every heading read, when no heading matches, the
      error is "Table with name … not found.". */
  lemma TableLookupNotFound(tableName: string, headings: seq<Heading>, layout: DefaultLayout, waitsForTitle: bool)
    requires tableName != ""
    requires forall j :: 0 <= j < |headings| ==> headings[j].text.Read? && Trim(headings[j].text.text) != Trim(tableName)
    ensures LocateTable(Some(tableName), headings, layout, waitsForTitle) == NotLocated(TableNotFound(tableName))
    ensures MappingErrorMessage(TableNotFound(tableName)) == Some("Table with name \"" + tableName + "\" not found.")
  {
    ScanMissMeaning(HeadingTexts(headings), TrimmedEquals(Trim(tableName)));
  }

  /** A matching heading whose parent exists but has no grid among its
      following siblings does not give "not found": the walk reads the
      missing element after the last sibling, and that driver error is
      what the mapping throws. */
  lemma ExhaustedWalkThrows(tableName: string, headings: seq<Heading>, layout: DefaultLayout,
                            waitsForTitle: bool, k: nat)
    requires tableName != ""
    requires k < |headings| && headings[k].text.Read? && Trim(headings[k].text.text) == Trim(tableName)
    requires forall j :: 0 <= j < k ==> headings[j].text.Read? && Trim(headings[j].text.text) != Trim(tableName)
    requires headings[k].parentExists
    requires forall j :: 0 <= j < |headings[k].siblings| ==> !IsGridDiv(headings[k].siblings[j])
    ensures LocateTable(Some(tableName), headings, layout, waitsForTitle) == NotLocated(SiblingMissing(k))
    ensures MappingErrorMessage(SiblingMissing(k)).None?
  {
    TableLookupFirstHeading(tableName, headings, layout, waitsForTitle, k);
    GridSiblingNone(headings[k].siblings);
  }

  /** What `getColumnMapping` returns: the columns of the table and the
      table (which only `getColumnMapping2` returns), or the error it
      rethrows. */
  datatype MappingResult = Mapping(columns: map<string, string>, table: TableRef) | MappingFailed(error: MappingError)

  function ColumnMapping(tableName: Option<string>, headings: seq<Heading>, layout: DefaultLayout,
                         waitsForTitle: bool, headers: seq<HeaderCell>): MappingResult
  {
    match LocateTable(tableName, headings, layout, waitsForTitle)
    case NotLocated(e) => MappingFailed(e)
    case Located(t) => Mapping(MappingOf(headers), t)
  }

  /** `getColumnMapping(tableName)` (`waitsForTitle`) and
      `getColumnMapping2(tableName)`: the heading loop, the sibling walk and
      the header loop, with `headers` the header cells of the table found. */
  method GetColumnMapping(tableName: Option<string>, headings: seq<Heading>, layout: DefaultLayout,
                          waitsForTitle: bool, headers: seq<HeaderCell>) returns (r: MappingResult)
    ensures r == ColumnMapping(tableName, headings, layout, waitsForTitle, headers)
  {
    var table: TableRef;
    if tableName.Some? && tableName.value != "" {
      var scan := ScanCells(HeadingTexts(headings), TrimmedEquals(Trim(tableName.value)));
      match scan
      case Fault(i) => return MappingFailed(HeadingUnreadable(i));
      case Miss => return MappingFailed(TableNotFound(tableName.value));
      case Hit(i) =>
        if !headings[i].parentExists {
          return MappingFailed(TableNotFound(tableName.value));
        }
        var sibling := FindGridSibling(headings[i].siblings);
        if sibling.None? {
          return MappingFailed(SiblingMissing(i));
        }
        table := NamedTable(i, sibling.value);
    } else {
      if waitsForTitle && !layout.titleDisplayed {
        return MappingFailed(TitleWaitTimedOut);
      }
      if !layout.titleExists {
        return MappingFailed(PageTitleMissing);
      }
      if !layout.learnContentExists {
        return MappingFailed(LearnContentMissing);
      }
      if !layout.gridExists {
        return MappingFailed(GridMissing);
      }
      table := ContentTable;
    }
    var columns := BuildColumnMapping(headers);
    r := Mapping(columns, table);
  }

  // ---------------------------------------------------------------------
  // searchRecordClick / searchRecordClick2
  // ---------------------------------------------------------------------

  const MaxAttempts: nat := 50
  const ScrollStep: int := 200

  /** What the row search does to the page: fetch the rows for an attempt,
      click the cell of a row of that attempt's list, scroll the grid body. */
  datatype SearchAction = FetchRows(attempt: nat) | ClickCell(attempt: nat, row: nat) | ScrollViewport(amount: int)

  /** How the walk over the searched column's cells ends at each attempt,
      with `snapshots[k]` the cells of the rows the page shows at attempt `k`. */
  function AttemptScans(snapshots: seq<seq<CellRead>>, target: string): (scans: seq<ScanResult>)
    ensures |scans| == |snapshots|
  {
    seq(|snapshots|, k requires 0 <= k < |snapshots| => Scan(Verdicts(snapshots[k], TrimmedContains(target))))
  }

  /** Attempt `attempt` and the ones after it. Each attempt fetches the rows
      afresh and walks the cells in order: a cell whose trimmed text
      contains the searched text is clicked and the search stops; a failed
      read throws and the search stops; otherwise the grid scrolls and the
      next attempt follows. */
  function SearchFrom(scans: seq<ScanResult>, attempt: nat): seq<SearchAction>
    requires |scans| >= MaxAttempts
    decreases MaxAttempts - attempt
  {
    if attempt >= MaxAttempts then []
    else
      match scans[attempt]
      case Hit(i) => [FetchRows(attempt), ClickCell(attempt, i)]
      case Fault(_) => [FetchRows(attempt)]
      case Miss => [FetchRows(attempt), ScrollViewport(ScrollStep)] + SearchFrom(scans, attempt + 1)
  }

  /** `searchRecordClick(columnName, string2Search, tableName)`: nothing is
      searched when the mapping throws or does not map the column. Every
      error is caught, so the helper never throws. */
  function SearchActions(columnName: string, target: string, mapping: MappingResult,
                         snapshots: seq<seq<CellRead>>): seq<SearchAction>
    requires |snapshots| >= MaxAttempts
  {
    if mapping.MappingFailed? || columnName !in mapping.columns || mapping.columns[columnName] == "" then []
    else SearchFrom(AttemptScans(snapshots, target), 0)
  }

  /** The retry loop, with `snapshots[k]` the cells of the column in the
      rows the page shows at attempt `k`. */
  method SearchRecordClick(columnName: string, target: string, mapping: MappingResult,
                           snapshots: seq<seq<CellRead>>) returns (actions: seq<SearchAction>)
    requires |snapshots| >= MaxAttempts
    ensures actions == SearchActions(columnName, target, mapping, snapshots)
  {
    if mapping.MappingFailed? {
      return [];
    }
    if columnName !in mapping.columns || mapping.columns[columnName] == "" {
      return [];
    }
    ghost var scans := AttemptScans(snapshots, target);
    actions := [];
    var attempts := 0;
    while attempts < MaxAttempts
      invariant 0 <= attempts <= MaxAttempts
      invariant actions + SearchFrom(scans, attempts) == SearchFrom(scans, 0)
      decreases MaxAttempts - attempts
    {
      ghost var before := actions;
      ghost var tail := SearchFrom(scans, attempts);
      actions := actions + [FetchRows(attempts)];
      var found := false;
      var scan := ScanCells(snapshots[attempts], TrimmedContains(target));
      assert scan == scans[attempts];
      if scan.Fault? {
        assert tail == [FetchRows(attempts)];
        return;
      }
      if scan.Hit? {
        actions := actions + [ClickCell(attempts, scan.index)];
        found := true;
        assert tail == [FetchRows(attempts), ClickCell(attempts, scan.index)];
        assert actions == before + tail;
      }
      if found {
        break;
      }
      ghost var next := SearchFrom(scans, attempts + 1);
      assert tail == [FetchRows(attempts), ScrollViewport(ScrollStep)] + next;
      actions := actions + [ScrollViewport(ScrollStep)];
      assert actions == before + [FetchRows(attempts), ScrollViewport(ScrollStep)];
      Associative(before, [FetchRows(attempts), ScrollViewport(ScrollStep)], next);
      attempts := attempts + 1;
    }
  }

  /** `n` attempts from `attempt` that each missed: a fetch and a scroll. */
  function MissedRun(attempt: nat, n: nat): seq<SearchAction>
    decreases n
  {
    if n == 0 then [] else [FetchRows(attempt), ScrollViewport(ScrollStep)] + MissedRun(attempt + 1, n - 1)
  }

  /** The actions alternate a fetch of attempt `attempt + j / 2` at even
      positions `j` and a scroll of 200 at odd ones; so there is no click. */
  predicate Alternating(r: seq<SearchAction>, attempt: nat) {
    forall j :: 0 <= j < |r| ==> r[j] == if j % 2 == 0 then FetchRows(attempt + j / 2) else ScrollViewport(ScrollStep)
  }

  /** Missed attempts alternate fetches and scrolls. */
  lemma {:induction false} MissedRunShape(attempt: nat, n: nat)
    ensures var r := MissedRun(attempt, n);
            |r| == 2 * n && Alternating(r, attempt)
    decreases n
  {
    if n > 0 {
      MissedRunShape(attempt + 1, n - 1);
      var r := MissedRun(attempt, n);
      var next := MissedRun(attempt + 1, n - 1);
      forall j | 2 <= j < |r| ensures r[j] == next[j - 2] && (j - 2) % 2 == j % 2 && attempt + 1 + (j - 2) / 2 == attempt + j / 2 {
      }
    }
  }

  /** The search stops at the first attempt that does not miss: after the
      missed ones, that attempt's fetch, and the click when it hit. */
  lemma {:induction false} SearchStopsAt(scans: seq<ScanResult>, attempt: nat, k: nat)
    requires |scans| >= MaxAttempts && attempt <= k < MaxAttempts
    requires forall m :: attempt <= m < k ==> scans[m].Miss?
    requires !scans[k].Miss?
    ensures SearchFrom(scans, attempt)
         == MissedRun(attempt, k - attempt) + [FetchRows(k)] + (if scans[k].Hit? then [ClickCell(k, scans[k].index)] else [])
    decreases k - attempt
  {
    if attempt < k {
      SearchStopsAt(scans, attempt + 1, k);
    }
  }

  /** When every attempt misses, the search makes all the attempts left,
      each a fetch then a scroll. */
  lemma {:induction false} SearchExhausted(scans: seq<ScanResult>, attempt: nat)
    requires |scans| >= MaxAttempts && attempt <= MaxAttempts
    requires forall m :: attempt <= m < MaxAttempts ==> scans[m].Miss?
    ensures var r := SearchFrom(scans, attempt);
            |r| == 2 * (MaxAttempts - attempt) && Alternating(r, attempt)
    decreases MaxAttempts - attempt
  {
    if attempt < MaxAttempts {
      SearchExhausted(scans, attempt + 1);
      var r := SearchFrom(scans, attempt);
      var next := SearchFrom(scans, attempt + 1);
      assert r == [FetchRows(attempt), ScrollViewport(ScrollStep)] + next;
      forall j | 2 <= j < |r| ensures r[j] == next[j - 2] && (j - 2) % 2 == j % 2 && attempt + 1 + (j - 2) / 2 == attempt + j / 2 {
      }
    }
  }

  /** Every cell of the snapshot reads and none contains the searched text. */
  predicate Missed(cells: seq<CellRead>, target: string) {
    forall j :: 0 <= j < |cells| ==> cells[j].Read? && !Contains(Trim(cells[j].text), target)
  }

  /** When no attempt finds the text, the search makes all 50 attempts:
      100 actions, a fresh fetch then a scroll of 200 each time, no click. */
  lemma SearchNoMatch(columnName: string, target: string, columns: map<string, string>, table: TableRef,
                      snapshots: seq<seq<CellRead>>)
    requires |snapshots| >= MaxAttempts
    requires columnName in columns && columns[columnName] != ""
    requires forall k :: 0 <= k < MaxAttempts ==> Missed(snapshots[k], target)
    ensures var r := SearchActions(columnName, target, Mapping(columns, table), snapshots);
            |r| == 2 * MaxAttempts && Alternating(r, 0)
  {
    var scans := AttemptScans(snapshots, target);
    MissedAttempts(snapshots, target, MaxAttempts);
    SearchExhausted(scans, 0);
  }

  /** When attempts before `k` find nothing and, at attempt `k`, row `i` is
      the first whose trimmed cell text contains the searched text, that row
      of attempt `k`'s list is clicked, once, as the last action, after `k`
      missed attempts. */
  lemma SearchFirstHit(columnName: string, target: string, columns: map<string, string>, table: TableRef,
                       snapshots: seq<seq<CellRead>>, k: nat, i: nat)
    requires |snapshots| >= MaxAttempts && k < MaxAttempts
    requires columnName in columns && columns[columnName] != ""
    requires forall m :: 0 <= m < k ==> Missed(snapshots[m], target)
    requires i < |snapshots[k]| && snapshots[k][i].Read? && Contains(Trim(snapshots[k][i].text), target)
    requires forall j :: 0 <= j < i ==> snapshots[k][j].Read? && !Contains(Trim(snapshots[k][j].text), target)
    ensures SearchActions(columnName, target, Mapping(columns, table), snapshots)
         == MissedRun(0, k) + [FetchRows(k), ClickCell(k, i)]
  {
    var scans := AttemptScans(snapshots, target);
    assert SearchActions(columnName, target, Mapping(columns, table), snapshots) == SearchFrom(scans, 0);
    MissedAttempts(snapshots, target, k);
    ScanHitMeaning(snapshots[k], TrimmedContains(target), i);
    assert scans[k] == Hit(i);
    SearchStopsAt(scans, 0, k);
    Associative(MissedRun(0, k), [FetchRows(k)], [ClickCell(k, i)]);
    assert [FetchRows(k)] + [ClickCell(k, i)] == [FetchRows(k), ClickCell(k, i)];
  }

  /** Attempts whose cells all read without a match are misses. */
  lemma MissedAttempts(snapshots: seq<seq<CellRead>>, target: string, k: nat)
    requires k <= |snapshots|
    requires forall m :: 0 <= m < k ==> Missed(snapshots[m], target)
    ensures forall m :: 0 <= m < k ==> AttemptScans(snapshots, target)[m].Miss?
  {
    forall m | 0 <= m < k ensures AttemptScans(snapshots, target)[m].Miss? {
      ScanMissMeaning(snapshots[m], TrimmedContains(target));
    }
  }

  /** A column the mapping does not map is never searched. */
  lemma UnmappedColumnNotSearched(columnName: string, target: string, mapping: MappingResult,
                                  snapshots: seq<seq<CellRead>>)
    requires |snapshots| >= MaxAttempts
    requires mapping.MappingFailed? || columnName !in mapping.columns
    ensures SearchActions(columnName, target, mapping, snapshots) == []
  {
  }

  // ---------------------------------------------------------------------
  // verifyRecordFromFirstRow
  // ---------------------------------------------------------------------

  const BlankCell: string := "Blank"

  /** The value stored for a first-row cell: its trimmed text, or "Blank"
      when that is empty. */
  function CellValue(text: string): (v: string)
    ensures v != ""
    ensures Trim(text) != "" ==> v == Trim(text)
    ensures Trim(text) == "" ==> v == BlankCell
  {
    var t := Trim(text);
    if t == "" then BlankCell else t
  }

  /** Normalising a stored value again leaves it unchanged. */
  lemma CellValueIdempotent(text: string)
    ensures CellValue(CellValue(text)) == CellValue(text)
  {
    var v := CellValue(text);
    if Trim(text) == "" {
      assert v == BlankCell;
      assert v[0] == 'B' && v[|v| - 1] == 'k';
    }
    CellValueKeeps(v);
  }

  /** A text without white space at its ends is stored as it is. */
  lemma CellValueKeeps(v: string)
    requires v != [] && !IsSpace(v[0]) && !IsSpace(v[|v| - 1])
    ensures CellValue(v) == v
  {
  }

  /** One header of the grid and the first-row cell in its column. */
  datatype FirstRowColumn = FirstRowColumn(header: string, cell: string)

  function RecordEntries(columns: seq<FirstRowColumn>): (e: seq<Option<(string, string)>>)
    ensures |e| == |columns|
  {
    seq(|columns|, i requires 0 <= i < |columns| => Some((Trim(columns[i].header), CellValue(columns[i].cell))))
  }

  /** The `record` of `verifyRecordFromFirstRow`. */
  function RecordOf(columns: seq<FirstRowColumn>): map<string, string> {
    LastWins(RecordEntries(columns))
  }

  /** The loop over the headers filling `record`. */
  method VerifyRecordFromFirstRow(columns: seq<FirstRowColumn>) returns (record: map<string, string>)
    ensures record == RecordOf(columns)
  {
    ghost var entries := RecordEntries(columns);
    record := map[];
    for i := 0 to |columns|
      invariant record == LastWins(entries[..i])
    {
      LastWinsStep(entries, i);
      var columnName := columns[i].header;
      var trimmedColumnName := Trim(columnName);
      var cellValue := Trim(columns[i].cell);
      if cellValue == "" {
        cellValue := BlankCell;
      }
      record := record[trimmedColumnName := cellValue];
    }
    assert entries[..|columns|] == entries;
  }

  /** The record is keyed by the trimmed header names, and a header holds the
      normalised cell of the last column with that trimmed name. */
  lemma RecordKeysAndValues(columns: seq<FirstRowColumn>, k: nat)
    requires k < |columns|
    requires forall j :: k < j < |columns| ==> Trim(columns[j].header) != Trim(columns[k].header)
    ensures Trim(columns[k].header) in RecordOf(columns)
    ensures RecordOf(columns)[Trim(columns[k].header)] == CellValue(columns[k].cell)
    ensures forall key :: key in RecordOf(columns) ==> exists j :: 0 <= j < |columns| && Trim(columns[j].header) == key
  {
    RecordValue(columns, k);
    RecordKeys(columns);
  }

  lemma RecordValue(columns: seq<FirstRowColumn>, k: nat)
    requires k < |columns|
    requires forall j :: k < j < |columns| ==> Trim(columns[j].header) != Trim(columns[k].header)
    ensures Trim(columns[k].header) in RecordOf(columns)
    ensures RecordOf(columns)[Trim(columns[k].header)] == CellValue(columns[k].cell)
  {
    var e := RecordEntries(columns);
    assert e[k] == Some((Trim(columns[k].header), CellValue(columns[k].cell)));
    forall j | k < j < |e| && e[j].Some? ensures e[j].value.0 != e[k].value.0 {
      assert e[j].value.0 == Trim(columns[j].header);
    }
    LastWinsValue(e, k);
  }

  lemma RecordKeys(columns: seq<FirstRowColumn>)
    ensures forall key :: key in RecordOf(columns) ==> exists j :: 0 <= j < |columns| && Trim(columns[j].header) == key
  {
    var e := RecordEntries(columns);
    forall key | key in LastWins(e) ensures exists j :: 0 <= j < |columns| && Trim(columns[j].header) == key {
      LastWinsKeys(e, key);
      var j :| 0 <= j < |e| && e[j].Some? && e[j].value.0 == key;
      assert Trim(columns[j].header) == key;
    }
  }

  // ---------------------------------------------------------------------
  // extractButtonTexts
  // ---------------------------------------------------------------------

  /** A `learn-button`: what `getText()` gives on its `mat-icon` and on its
      `.mat-button-wrapper`. `$` always gives an element object, so a
      missing element is not skipped: its `getText()` throws (`Err`). */
  datatype Button = Button(icon: Result<string>, wrapper: Result<string>)

  /** The label of a button: the trimmed icon text, a space, and the wrapper
      text with the first occurrence of the icon text removed, trimmed. */
  function ButtonLabel(icon: string, wrapper: string): string {
    Trim(icon) + " " + Trim(ReplaceFirst(wrapper, Trim(icon), ""))
  }

  /** The two reads of one button, in order, and the label built from them;
      the first read that throws decides the error. */
  function ButtonText(b: Button): (r: Result<string>)
    ensures r.Ok? <==> b.icon.Ok? && b.wrapper.Ok?
    ensures r.Ok? ==> r.value == ButtonLabel(b.icon.value, b.wrapper.value)
    ensures b.icon.Err? ==> r == b.icon
    ensures b.icon.Ok? && b.wrapper.Err? ==> r == b.wrapper
  {
    match b.icon
    case Err(message) => Err(message)
    case Ok(icon) =>
      match b.wrapper
      case Err(message) => Err(message)
      case Ok(wrapper) => Ok(ButtonLabel(icon, wrapper))
  }

  /** The wrapper text usually starts with the icon's own text: that part is
      dropped, so the label is the icon, a space and the rest, trimmed. */
  lemma ButtonLabelDropsIcon(icon: string, rest: string)
    ensures ButtonText(Button(Ok(icon), Ok(Trim(icon) + rest))) == Ok(Trim(icon) + " " + Trim(rest))
  {
    var t := Trim(icon);
    assert t <= t + rest;
    assert (t + rest)[..0] + "" + (t + rest)[|t|..] == rest;
  }

  /** The button loop of `extractButtonTexts`: one label per button in
      order, or the error of the first button whose read throws, which
      rejects the whole extraction. */
  method ExtractButtonTexts(buttons: seq<Button>) returns (r: Result<seq<string>>)
    ensures r.Ok? <==> forall i :: 0 <= i < |buttons| ==> ButtonText(buttons[i]).Ok?
    ensures r.Ok? ==> |r.value| == |buttons|
                      && forall i :: 0 <= i < |buttons| ==> r.value[i] == ButtonText(buttons[i]).value
    ensures r.Err? ==> exists k :: 0 <= k < |buttons| && ButtonText(buttons[k]) == Err(r.message)
                                   && forall j :: 0 <= j < k ==> ButtonText(buttons[j]).Ok?
  {
    var labels := [];
    for i := 0 to |buttons|
      invariant |labels| == i
      invariant forall j :: 0 <= j < i ==> ButtonText(buttons[j]).Ok? && labels[j] == ButtonText(buttons[j]).value
    {
      var text := ReadButtonLabel(buttons[i]);
      if text.Err? {
        return Err(text.message);
      }
      labels := labels + [text.value];
    }
    r := Ok(labels);
  }

  /** The two reads of one button and the label built from them. */
  method ReadButtonLabel(b: Button) returns (text: Result<string>)
    ensures text == ButtonText(b)
  {
    if b.icon.Err? {
      return Err(b.icon.message);
    }
    var iconText := Trim(b.icon.value);
    if b.wrapper.Err? {
      return Err(b.wrapper.message);
    }
    var buttonText := Trim(ReplaceFirst(b.wrapper.value, iconText, ""));
    text := Ok(iconText + " " + buttonText);
  }

  // ---------------------------------------------------------------------
  // verifyClearFilters
  // ---------------------------------------------------------------------

  /** An enabled floating filter input: its `type` attribute and its value
      once the Clear Filters button has been clicked. */
  datatype FilterInput = FilterInput(inputType: string, valueAfterClear: string)

  const TestFilterValue: string := "VerifyFilterTest"
  const NotClearedMessage: string := "Some filters were not cleared."

  /** What `verifyClearFilters` does to the page. */
  datatype ClearAction =
    | SetTestValue(input: nat, value: string)  // Ui.setText on a text input
    | PressEnter
    | ClickClearFilters
    | CheckCleared(input: nat)                 // the equality check on a text input

  /** The calls `verifyClearFilters` made, and the error it threw. */
  datatype ClearOutcome = ClearOutcome(actions: seq<ClearAction>, raised: Option<string>)

  predicate IsText(f: FilterInput) {
    f.inputType == "text"
  }

  /** The first loop, over the first `n` inputs: text inputs get the test
      value and Enter; date and other inputs are left alone. */
  function FillActions(inputs: seq<FilterInput>, n: nat): seq<ClearAction>
    requires n <= |inputs|
  {
    if n == 0 then []
    else FillActions(inputs, n - 1) + (if IsText(inputs[n - 1]) then [SetTestValue(n - 1, TestFilterValue), PressEnter] else [])
  }

  /** The second loop, over the first `n` inputs: only text inputs are
      checked. */
  function CheckActions(inputs: seq<FilterInput>, n: nat): seq<ClearAction>
    requires n <= |inputs|
  {
    if n == 0 then []
    else CheckActions(inputs, n - 1) + (if IsText(inputs[n - 1]) then [CheckCleared(n - 1)] else [])
  }

  /** Every text input is empty after clearing. */
  predicate AllCleared(inputs: seq<FilterInput>) {
    forall i :: 0 <= i < |inputs| && IsText(inputs[i]) ==> inputs[i].valueAfterClear == ""
  }

  /** The calls of `verifyClearFilters`: the first loop, the click on Clear
      Filters, then the second loop. */
  function ClearActions(inputs: seq<FilterInput>): seq<ClearAction> {
    FillActions(inputs, |inputs|) + [ClickClearFilters] + CheckActions(inputs, |inputs|)
  }

  /** `verifyClearFilters()`: it throws "Some filters were not cleared."
      exactly when some text input keeps a value. */
  method VerifyClearFilters(inputs: seq<FilterInput>) returns (r: ClearOutcome)
    ensures r.actions == ClearActions(inputs)
    ensures r.raised.Some? <==> !AllCleared(inputs)
    ensures r.raised.Some? ==> r.raised.value == NotClearedMessage
  {
    var actions := [];
    for i := 0 to |inputs|
      invariant actions == FillActions(inputs, i)
    {
      if inputs[i].inputType == "text" {
        actions := actions + [SetTestValue(i, TestFilterValue), PressEnter];
      }
    }
    actions := actions + [ClickClearFilters];
    ghost var filled := actions;
    var allCleared := true;
    for i := 0 to |inputs|
      invariant actions == filled + CheckActions(inputs, i)
      invariant allCleared <==> forall j :: 0 <= j < i && IsText(inputs[j]) ==> inputs[j].valueAfterClear == ""
    {
      if inputs[i].inputType == "text" {
        actions := actions + [CheckCleared(i)];
        if inputs[i].valueAfterClear != "" {
          allCleared := false;
        }
      }
    }
    var raised := if allCleared then None else Some(NotClearedMessage);
    r := ClearOutcome(actions, raised);
  }

  /** Exactly the text inputs are filled in and checked; date inputs never
      are. */
  lemma {:induction false} OnlyTextInputsChecked(inputs: seq<FilterInput>, n: nat, k: nat)
    requires n <= |inputs|
    ensures CheckCleared(k) in CheckActions(inputs, n) <==> k < n && IsText(inputs[k])
    ensures SetTestValue(k, TestFilterValue) in FillActions(inputs, n) <==> k < n && IsText(inputs[k])
  {
    if n > 0 {
      OnlyTextInputsChecked(inputs, n - 1, k);
    }
  }

  // ---------------------------------------------------------------------
  // doFilter
  // ---------------------------------------------------------------------

  /** Why `doFilter` throws: the mapping's error, the two errors of its own,
      or the wait for the filter input timing out. */
  datatype DoFilterError =
    | MappingThrew(error: MappingError)
    | InvalidColumn(message: string)
    | ColumnIdNotFound(message: string)
    | InputNotDisplayed

  /** What `doFilter` does to the filter input of the header with
      `aria-colindex` `colIndex`. */
  datatype DoFilterAction = ClearFilterInput(colIndex: string) | TypeFilter(colIndex: string, value: string) | PressEnterKey

  datatype DoFilterOutcome = DoFilterOutcome(actions: seq<DoFilterAction>, raised: Option<DoFilterError>)

  function InvalidColumnMessage(columnName: string): string {
    "Invalid column name: " + columnName
  }

  function ColumnIdNotFoundMessage(columnId: string): string {
    "Column with col-id " + columnId + " not found"
  }

  /** `doFilter(columnName, string2Filter, tableName)`, with `colIndex` the
      `aria-colindex` of the header with the column's col-id (`None` when
      there is no such header) and `inputShown` whether the filter input is
      displayed within the wait. Every error is rethrown. */
  function DoFilter(columnName: string, string2Filter: string, mapping: MappingResult,
                    colIndex: Option<string>, inputShown: bool): (r: DoFilterOutcome)
    ensures r.raised.None? <==>
              mapping.Mapping? && columnName in mapping.columns && mapping.columns[columnName] != ""
              && Truthy(colIndex) && inputShown
    ensures r.raised.None? ==>
              r.actions == [ClearFilterInput(colIndex.value), TypeFilter(colIndex.value, string2Filter), PressEnterKey]
    ensures r.raised.Some? ==> r.actions == []
  {
    if mapping.MappingFailed? then DoFilterOutcome([], Some(MappingThrew(mapping.error)))
    else if columnName !in mapping.columns || mapping.columns[columnName] == "" then
      DoFilterOutcome([], Some(InvalidColumn(InvalidColumnMessage(columnName))))
    else if !Truthy(colIndex) then
      DoFilterOutcome([], Some(ColumnIdNotFound(ColumnIdNotFoundMessage(mapping.columns[columnName]))))
    else if !inputShown then DoFilterOutcome([], Some(InputNotDisplayed))
    else DoFilterOutcome([ClearFilterInput(colIndex.value), TypeFilter(colIndex.value, string2Filter), PressEnterKey], None)
  }

  /** The two helpers treat a column missing from the mapping oppositely:
      the row search returns quietly, `doFilter` throws
      "Invalid column name: …". */
  lemma MissingColumnPolicy(columnName: string, target: string, columns: map<string, string>, table: TableRef,
                            snapshots: seq<seq<CellRead>>, colIndex: Option<string>, inputShown: bool)
    requires |snapshots| >= MaxAttempts
    requires columnName !in columns
    ensures SearchActions(columnName, target, Mapping(columns, table), snapshots) == []
    ensures DoFilter(columnName, target, Mapping(columns, table), colIndex, inputShown).raised
         == Some(InvalidColumn(InvalidColumnMessage(columnName)))
  {
  }
}

=== FILE: console_log.dfy ===
/** helpers/logger/consoleLog.ts: where an error was raised, read from the
    second line of its stack with `/at (.+) \((.+):(\d+):(\d+)\)/`.

    The regular expression is modelled by how a backtracking matcher runs
    it: the leftmost start, then the longest method name for which the rest
    matches, then the longest file name for which the rest matches. The two
    digit groups are each followed by a non-digit, so they are the maximal
    runs of digits. `.` matches anything but a line terminator. */
module ConsoleLog {
  import opened Results
  import opened Text
  import opened Numbers

  /** The characters `.` does not match. */
  predicate IsLineTerminator(c: char) {
    c == '\n' || c == '\r' || c == '\U{2028}' || c == '\U{2029}'
  }

  predicate NoLineTerminator(s: string) {
    forall i :: 0 <= i < |s| ==> !IsLineTerminator(s[i])
  }

  /** The number of characters from `i` on that `.` matches. */
  function LineRun(s: string, i: nat): (n: nat)
    requires i <= |s|
    ensures i + n <= |s| && forall k :: i <= k < i + n ==> !IsLineTerminator(s[k])
    ensures i + n == |s| || IsLineTerminator(s[i + n])
    decreases |s| - i
  {
    if i == |s| || IsLineTerminator(s[i]) then 0 else LineRun(s, i + 1) + 1
  }

  /** The number of digits from `i` on. */
  function DigitRun(s: string, i: nat): (n: nat)
    requires i <= |s|
    ensures i + n <= |s| && forall k :: i <= k < i + n ==> IsDigit(s[k])
    ensures i + n == |s| || !IsDigit(s[i + n])
    decreases |s| - i
  {
    if i == |s| || !IsDigit(s[i]) then 0 else DigitRun(s, i + 1) + 1
  }

  /** Where the line and column numbers `(\d+):(\d+)\)` read after the `:`
      at `b` end: the position of the second `:` and that of the `)`. */
  datatype Tail = Tail(colon: nat, close: nat)

  function TailAt(s: string, b: nat): (r: Option<Tail>)
    ensures r.Some? ==>
              var c := r.value.colon;
              var d := r.value.close;
              b + 1 < c && c + 1 < d < |s| && s[b] == ':' && s[c] == ':' && s[d] == ')'
              && (forall k :: b < k < c ==> IsDigit(s[k]))
              && (forall k :: c < k < d ==> IsDigit(s[k]))
  {
    if b >= |s| || s[b] != ':' then None
    else
      var n := DigitRun(s, b + 1);
      var c := b + 1 + n;
      if n == 0 || c >= |s| || s[c] != ':' then None
      else
        var m := DigitRun(s, c + 1);
        var d := c + 1 + m;
        if m == 0 || d >= |s| || s[d] != ')' then None
        else Some(Tail(c, d))
  }

  /** A run of digits, read as a slice. */
  lemma DigitSlice(s: string, i: nat, j: nat)
    requires i < j <= |s| && forall k :: i <= k < j ==> IsDigit(s[k])
    ensures s[i..j] != [] && AllDigits(s[i..j])
  {
    forall k | 0 <= k < j - i ensures IsDigit(s[i..j][k]) {
      assert s[i..j][k] == s[i + k];
    }
  }

  /** The backtracking search for the longest candidate: the greatest `i`
      in `lo..hi` whose flag is set. */
  function LastSet(flags: seq<bool>, lo: nat, hi: nat): (r: Option<nat>)
    requires hi < |flags|
    ensures r.Some? ==> lo <= r.value <= hi && flags[r.value]
    decreases hi
  {
    if hi < lo then None
    else if flags[hi] then Some(hi)
    else if hi == lo then None
    else LastSet(flags, lo, hi - 1)
  }

  /** No candidate above the one `LastSet` finds has its flag set. */
  lemma {:induction false} LastSetGreatest(flags: seq<bool>, lo: nat, hi: nat, k: nat)
    requires lo <= k <= hi < |flags| && flags[k]
    ensures LastSet(flags, lo, hi).Some? && k <= LastSet(flags, lo, hi).value
    decreases hi
  {
    if !flags[hi] {
      LastSetGreatest(flags, lo, hi - 1, k);
    }
  }

  /** The search for the leftmost start: the least `i` from `p` on whose
      flag is set. */
  function FirstSet(flags: seq<bool>, p: nat): (r: Option<nat>)
    requires p <= |flags|
    ensures r.Some? ==> p <= r.value < |flags| && flags[r.value]
    decreases |flags| - p
  {
    if p == |flags| then None
    else if flags[p] then Some(p)
    else FirstSet(flags, p + 1)
  }

  /** No candidate below the one `FirstSet` finds has its flag set. */
  lemma {:induction false} FirstSetLeast(flags: seq<bool>, p: nat, q: nat)
    requires p <= q < |flags| && flags[q]
    ensures FirstSet(flags, p).Some? && FirstSet(flags, p).value <= q
    decreases q - p
  {
    if !flags[p] {
      FirstSetLeast(flags, p + 1, q);
    }
  }

  /** For each position below `n`, whether the line and column numbers
      can follow it. The list is built one position at a time, so
      that the verifier looks at a position only when asked (`TailFlagsAt`). */
  function TailFlags(s: string, n: nat): (f: seq<bool>)
    requires n <= |s| + 1
    ensures |f| == n
  {
    if n == 0 then [] else TailFlags(s, n - 1) + [TailAt(s, n - 1).Some?]
  }

  lemma {:induction false} TailFlagsAt(s: string, n: nat, k: nat)
    requires k < n <= |s| + 1
    ensures TailFlags(s, n)[k] == TailAt(s, k).Some?
  {
    if k < n - 1 {
      TailFlagsAt(s, n - 1, k);
    }
  }

  /** The position of the `:` that ends the file name `(.+)` starting at
      `a + 2`, when the method name ends at `a`: the last one after which the
      rest matches. */
  function FileEnd(s: string, a: nat): (r: Option<nat>)
    requires a + 2 <= |s|
    ensures r.Some? ==> a + 3 <= r.value && TailAt(s, r.value).Some?
    ensures r.Some? ==> forall k :: a + 2 <= k < r.value ==> !IsLineTerminator(s[k])
  {
    var r := LastSet(TailFlags(s, |s| + 1), a + 3, a + 2 + LineRun(s, a + 2));
    if r.Some? then TailFlagsAt(s, |s| + 1, r.value); r else r
  }

  /** The file name is the longest one after which the rest matches. */
  lemma FileEndGreatest(s: string, a: nat, k: nat)
    requires a + 2 <= |s| && a + 3 <= k && TailAt(s, k).Some?
    requires forall j :: a + 2 <= j < k ==> !IsLineTerminator(s[j])
    ensures FileEnd(s, a).Some? && k <= FileEnd(s, a).value
  {
    var n := LineRun(s, a + 2);
    assert k <= a + 2 + n;
    TailFlagsAt(s, |s| + 1, k);
    LastSetGreatest(TailFlags(s, |s| + 1), a + 3, a + 2 + n, k);
  }

  /** Whether ` (` occurs at `a` and the rest matches from there. */
  predicate MethodEndsAt(s: string, a: nat) {
    a + 2 <= |s| && s[a] == ' ' && s[a + 1] == '(' && FileEnd(s, a).Some?
  }

  /** For each position below `n`, whether the method name can end
      there. The list is built one position at a time, so
      that the verifier looks at a position only when asked (`MethodFlagsAt`). */
  function MethodFlags(s: string, n: nat): (f: seq<bool>)
    requires n <= |s| + 1
    ensures |f| == n
  {
    if n == 0 then [] else MethodFlags(s, n - 1) + [MethodEndsAt(s, n - 1)]
  }

  lemma {:induction false} MethodFlagsAt(s: string, n: nat, k: nat)
    requires k < n <= |s| + 1
    ensures MethodFlags(s, n)[k] == MethodEndsAt(s, k)
  {
    if k < n - 1 {
      MethodFlagsAt(s, n - 1, k);
    }
  }

  /** The end of the method name `(.+)` starting at `p + 3`: the last one
      after which the rest matches. */
  function MethodEnd(s: string, p: nat): (r: Option<nat>)
    requires p + 3 <= |s|
    ensures r.Some? ==> p + 4 <= r.value && MethodEndsAt(s, r.value)
    ensures r.Some? ==> forall k :: p + 3 <= k < r.value ==> !IsLineTerminator(s[k])
  {
    var r := LastSet(MethodFlags(s, |s| + 1), p + 4, p + 3 + LineRun(s, p + 3));
    if r.Some? then MethodFlagsAt(s, |s| + 1, r.value); r else r
  }

  /** The method name is the longest one after which the rest matches. */
  lemma MethodEndGreatest(s: string, p: nat, k: nat)
    requires p + 3 <= |s| && p + 4 <= k && MethodEndsAt(s, k)
    requires forall j :: p + 3 <= j < k ==> !IsLineTerminator(s[j])
    ensures MethodEnd(s, p).Some? && k <= MethodEnd(s, p).value
  {
    var n := LineRun(s, p + 3);
    assert k <= p + 3 + n;
    MethodFlagsAt(s, |s| + 1, k);
    LastSetGreatest(MethodFlags(s, |s| + 1), p + 4, p + 3 + n, k);
  }

  /** What `MethodEndsAt` checks, one fact at a time. */
  lemma MethodEndsAtFacts(s: string, a: nat)
    requires MethodEndsAt(s, a)
    ensures a + 2 <= |s| && s[a] == ' ' && s[a + 1] == '(' && FileEnd(s, a).Some?
  {
  }

  predicate StartsAt(s: string, p: nat) {
    p + 3 <= |s| && s[p..p + 3] == "at " && MethodEnd(s, p).Some?
  }

  /** What `StartsAt` checks, one fact at a time. */
  lemma StartsAtFacts(s: string, p: nat)
    requires StartsAt(s, p)
    ensures p + 3 <= |s| && s[p..p + 3] == "at " && MethodEnd(s, p).Some?
  {
  }

  /** For each position below `n`, whether a match can start there. The list is built one position at a time, so
      that the verifier looks at a position only when asked (`StartFlagsAt`). */
  function StartFlags(s: string, n: nat): (f: seq<bool>)
    requires n <= |s| + 1
    ensures |f| == n
  {
    if n == 0 then [] else StartFlags(s, n - 1) + [StartsAt(s, n - 1)]
  }

  lemma {:induction false} StartFlagsAt(s: string, n: nat, k: nat)
    requires k < n <= |s| + 1
    ensures StartFlags(s, n)[k] == StartsAt(s, k)
  {
    if k < n - 1 {
      StartFlagsAt(s, n - 1, k);
    }
  }

  /** The leftmost position where a match starts. */
  function MatchStart(s: string): (r: Option<nat>)
    ensures r.Some? ==> StartsAt(s, r.value)
  {
    var r := FirstSet(StartFlags(s, |s| + 1), 0);
    if r.Some? then StartFlagsAt(s, |s| + 1, r.value); r else r
  }

  /** Wherever a match can start, `MatchStart` finds one there or before. */
  lemma MatchStartLeftmost(s: string, q: nat)
    requires StartsAt(s, q)
    ensures MatchStart(s).Some? && MatchStart(s).value <= q
  {
    StartFlagsAt(s, |s| + 1, q);
    FirstSetLeast(StartFlags(s, |s| + 1), 0, q);
  }

  /** The four capture groups of a match. */
  datatype Groups = Groups(methodName: string, fileName: string, lineNumber: string, columnNumber: string)

  /** `/at (.+) \((.+):(\d+):(\d+)\)/.exec(line)`: the groups, or `null`. */
  function Exec(line: string): (r: Option<Groups>)
    ensures r.Some? ==>
              var g := r.value;
              g.methodName != [] && g.fileName != [] && g.lineNumber != [] && g.columnNumber != []
              && AllDigits(g.lineNumber) && AllDigits(g.columnNumber)
  {
    match MatchStart(line)
    case None => None
    case Some(p) =>
      var a := MethodEnd(line, p).value;
      var b := FileEnd(line, a).value;
      var t := TailAt(line, b).value;
      DigitSlice(line, b + 1, t.colon);
      DigitSlice(line, t.colon + 1, t.close);
      Some(Groups(line[p + 3..a], line[a + 2..b], line[b + 1..t.colon], line[t.colon + 1..t.close]))
  }

  /** A run of characters `.` matches, read as a slice. */
  lemma NoTerminatorSlice(s: string, i: nat, j: nat)
    requires i <= j <= |s| && forall k :: i <= k < j ==> !IsLineTerminator(s[k])
    ensures NoLineTerminator(s[i..j])
  {
    forall k | 0 <= k < j - i ensures !IsLineTerminator(s[i..j][k]) {
      assert s[i..j][k] == s[i + k];
    }
  }

  /** Two adjacent slices that spell `x` and `y` together spell `x + y`. */
  lemma Glue(s: string, i: nat, j: nat, k: nat, x: string, y: string)
    requires i <= j <= k <= |s| && s[i..j] == x && s[j..k] == y
    ensures s[i..k] == x + y
  {
    SliceJoin(s, i, j, k);
  }

  /** `at `, the method name, ` (` and the file name, side by side. */
  lemma MatchHead(s: string, p: nat, a: nat, b: nat, m: string, f: string)
    requires p + 3 <= a && a + 2 <= b <= |s|
    requires s[p..p + 3] == "at " && s[p + 3..a] == m
    requires s[a] == ' ' && s[a + 1] == '(' && s[a + 2..b] == f
    ensures s[p..b] == "at " + m + " (" + f
  {
    Glue(s, p, p + 3, a, "at ", m);
    assert s[a..a + 2] == " (";
    Glue(s, p, a, a + 2, "at " + m, " (");
    Glue(s, p, a + 2, b, "at " + m + " (", f);
  }

  /** `:`, the line number, `:`, the column number and `)` after `t`. */
  lemma MatchTail(s: string, p: nat, b: nat, c: nat, d: nat, t: string, l: string, col: string)
    requires p <= b < c < d < |s| && s[p..b] == t
    requires s[b] == ':' && s[b + 1..c] == l && s[c] == ':' && s[c + 1..d] == col && s[d] == ')'
    ensures s[p..d + 1] == t + ":" + l + ":" + col + ")"
  {
    assert s[b..b + 1] == ":";
    Glue(s, p, b, b + 1, t, ":");
    Glue(s, p, b + 1, c, t + ":", l);
    assert s[c..c + 1] == ":";
    Glue(s, p, c, c + 1, t + ":" + l, ":");
    Glue(s, p, c + 1, d, t + ":" + l + ":", col);
    assert s[d..d + 1] == ")";
    Glue(s, p, d, d + 1, t + ":" + l + ":" + col, ")");
  }

  /** The pieces of a match, laid side by side in `s` from `p` to `d`, spell
      the matched text. */
  lemma MatchText(s: string, p: nat, a: nat, b: nat, c: nat, d: nat,
                  m: string, f: string, l: string, col: string)
    requires p + 3 <= a && a + 2 <= b && b < c && c < d && d < |s|
    requires s[p..p + 3] == "at " && s[p + 3..a] == m
    requires s[a] == ' ' && s[a + 1] == '(' && s[a + 2..b] == f
    requires s[b] == ':' && s[b + 1..c] == l && s[c] == ':' && s[c + 1..d] == col && s[d] == ')'
    ensures OccursAt(s, "at " + m + " (" + f + ":" + l + ":" + col + ")", p)
  {
    MatchHead(s, p, a, b, m, f);
    MatchTail(s, p, b, c, d, "at " + m + " (" + f, l, col);
  }

  /** Where the pieces of the match `exec` finds lie in the line. */
  lemma ExecSpan(line: string) returns (p: nat, a: nat, b: nat, c: nat, d: nat)
    requires Exec(line).Some?
    ensures var g := Exec(line).value;
            p + 3 <= a && a + 2 <= b && b < c && c < d && d < |line|
            && line[p..p + 3] == "at " && line[p + 3..a] == g.methodName
            && line[a] == ' ' && line[a + 1] == '(' && line[a + 2..b] == g.fileName
            && line[b] == ':' && line[b + 1..c] == g.lineNumber && line[c] == ':'
            && line[c + 1..d] == g.columnNumber && line[d] == ')'
  {
    p := MatchStart(line).value;
    StartsAtFacts(line, p);
    a := MethodEnd(line, p).value;
    MethodEndsAtFacts(line, a);
    b := FileEnd(line, a).value;
    var t := TailAt(line, b).value;
    c, d := t.colon, t.close;
    assert Exec(line).value == Groups(line[p + 3..a], line[a + 2..b], line[b + 1..c], line[c + 1..d]);
  }

  /** What `exec` returns is a match: the line holds `at `, the method name,
      ` (`, the file name, `:`, the line number, `:`, the column number and
      `)`. */
  lemma ExecMatches(line: string)
    requires Exec(line).Some?
    ensures var g := Exec(line).value;
            Contains(line, "at " + g.methodName + " (" + g.fileName + ":" + g.lineNumber
                           + ":" + g.columnNumber + ")")
  {
    var g := Exec(line).value;
    var p, a, b, c, d := ExecSpan(line);
    MatchText(line, p, a, b, c, d, g.methodName, g.fileName, g.lineNumber, g.columnNumber);
    ContainsAt(line, "at " + g.methodName + " (" + g.fileName + ":" + g.lineNumber
                     + ":" + g.columnNumber + ")", p);
  }

  /** `exec` finds the leftmost match: wherever a match can start, it
      succeeds, and its match starts there or before. */
  lemma ExecLeftmost(line: string, q: nat)
    requires StartsAt(line, q)
    ensures Exec(line).Some? && MatchStart(line).value <= q
  {
    MatchStartLeftmost(line, q);
  }

  /** A line without `at ` does not match. */
  lemma ExecNeedsAt(line: string)
    requires !Contains(line, "at ")
    ensures Exec(line).None?
  {
    if MatchStart(line).Some? {
      var p := MatchStart(line).value;
      ContainsAt(line, "at ", p);
    }
  }

  /** `error.stack?.split("\n")[1]`: the second line of the stack, if any. */
  function SecondLine(stack: Option<string>): (r: Option<string>)
    ensures stack.None? ==> r.None?
    ensures stack.Some? ==> (r.Some? <==> '\n' in stack.value)
  {
    if stack.None? then None
    else
      var parts := Split(stack.value, '\n');
      if |parts| >= 2 then Some(parts[1]) else None
  }

  /** The second line is what lies between the first and the second line
      break, or after the first when there is no second one. */
  lemma SecondLineOf(first: string, second: string, rest: string)
    requires '\n' !in first && '\n' !in second
    requires rest == [] || rest[0] == '\n'
    ensures SecondLine(Some(first + ['\n'] + (second + rest))) == Some(second)
  {
    var parts := Split(first + ['\n'] + (second + rest), '\n');
    SplitCons(first, '\n', second + rest);
    SplitFirst(second, '\n', rest);
    assert parts[1] == Split(second + rest, '\n')[0];
  }

  /** The text `exec` sees for an `undefined` line does not match. */
  lemma UndefinedDoesNotMatch()
    ensures Exec("undefined").None?
  {
    var u := "undefined";
    forall i ensures !OccursAt(u, "at ", i) {
      if 0 <= i && i + 3 <= |u| {
        assert u[i..i + 3][0] == u[i];
      }
    }
    ExecNeedsAt(u);
  }

  /** What `getErrorLocation` returns; `None` is `null`. */
  datatype ErrorLocation = ErrorLocation(methodName: Option<string>, fileName: Option<string>,
                                         lineNumber: Option<string>, columnNumber: Option<string>)

  /** `getErrorLocation(error)`. A missing second line reaches `exec` as
      `undefined`, which it reads as the text "undefined"; that does not
      match, so all four fields are `null`. */
  function GetErrorLocation(stack: Option<string>): (r: ErrorLocation)
    ensures SecondLine(stack).None? ==> r == ErrorLocation(None, None, None, None)
    ensures SecondLine(stack).Some? && Exec(SecondLine(stack).value).None? ==>
              r == ErrorLocation(None, None, None, None)
    ensures SecondLine(stack).Some? && Exec(SecondLine(stack).value).Some? ==>
              var g := Exec(SecondLine(stack).value).value;
              r == ErrorLocation(Some(g.methodName), Some(g.fileName), Some(g.lineNumber), Some(g.columnNumber))
    ensures r.methodName.Some? == r.fileName.Some? == r.lineNumber.Some? == r.columnNumber.Some?
    ensures r.lineNumber.Some? ==> r.lineNumber.value != [] && AllDigits(r.lineNumber.value)
    ensures r.columnNumber.Some? ==> r.columnNumber.value != [] && AllDigits(r.columnNumber.value)
  {
    var line := match SecondLine(stack) case Some(l) => l case None => "undefined";
    UndefinedDoesNotMatch();
    match Exec(line)
    case Some(g) => ErrorLocation(Some(g.methodName), Some(g.fileName), Some(g.lineNumber), Some(g.columnNumber))
    case None => ErrorLocation(None, None, None, None)
  }

  /** The example line of the stack, `    at f (a.ts:10:5)`. */
  predicate IsExampleLine(s: string) {
    s == "    at f (a.ts:10:5)"
  }

  lemma ExampleTail(s: string)
    requires IsExampleLine(s)
    ensures TailAt(s, 14) == Some(Tail(17, 19))
  {
    assert DigitRun(s, 17) == 0 && DigitRun(s, 16) == 1 && DigitRun(s, 15) == 2;
    assert DigitRun(s, 19) == 0 && DigitRun(s, 18) == 1;
  }

  lemma ExampleFileEnd(s: string)
    requires IsExampleLine(s)
    ensures FileEnd(s, 8) == Some(14)
  {
    ExampleTail(s);
    FileEndGreatest(s, 8, 14);
    var b := FileEnd(s, 8).value;
    assert s[b] == ':';
    assert b == 14;
  }

  lemma ExampleMethodEnd(s: string)
    requires IsExampleLine(s)
    ensures MethodEnd(s, 4) == Some(8)
  {
    ExampleFileEnd(s);
    MethodEndGreatest(s, 4, 8);
    var a := MethodEnd(s, 4).value;
    MethodEndsAtFacts(s, a);
    if a != 8 {
      ExampleNoSpaceAfter(s, a);
    }
  }

  lemma ExampleNoSpaceAfter(s: string, k: nat)
    requires IsExampleLine(s) && 8 < k < 20
    ensures s[k] != ' '
  {
    assert s[9..20] == "(a.ts:10:5)" && s[k] == s[9..20][k - 9];
  }

  lemma ExampleIndent(s: string, k: nat)
    requires IsExampleLine(s) && k < 4
    ensures s[k..k + 3] != "at "
  {
    assert s[..4] == "    " && s[k] == s[..4][k] && s[k..k + 3][0] == s[k];
  }

  lemma ExampleMatchStart(s: string)
    requires IsExampleLine(s)
    ensures MatchStart(s) == Some(4)
  {
    ExampleMethodEnd(s);
    MatchStartLeftmost(s, 4);
    var p := MatchStart(s).value;
    StartsAtFacts(s, p);
    if p != 4 {
      ExampleIndent(s, p);
    }
  }

  /** The line `    at f (a.ts:10:5)` gives method `f`, file `a.ts`, line
      `10` and column `5`. */
  lemma ExecExample(s: string)
    requires IsExampleLine(s)
    ensures Exec(s) == Some(Groups("f", "a.ts", "10", "5"))
  {
    ExampleMatchStart(s);
    ExampleMethodEnd(s);
    ExampleFileEnd(s);
    ExampleTail(s);
    assert s[7..8] == "f" && s[10..14] == "a.ts" && s[15..17] == "10" && s[18..19] == "5";
  }

  /** A stack whose second line is `    at f (a.ts:10:5)` gives that
      location. */
  lemma GetErrorLocationExample(first: string, line: string)
    requires '\n' !in first && IsExampleLine(line)
    ensures GetErrorLocation(Some(first + "\n" + line))
         == ErrorLocation(Some("f"), Some("a.ts"), Some("10"), Some("5"))
  {
    assert '\n' !in line;
    SecondLineOf(first, line, "");
    assert first + ['\n'] + (line + "") == first + "\n" + line;
    ExecExample(line);
  }
}

=== FILE: filter_dialog_box.dfy ===
/** helpers/ui/filterDialogBox.ts: finding a grid column by its header, and
    filling in the column's filter dialog. The page is replaced by what
    reading it gives (the header and option texts, whether a wait succeeds),
    and the calls made to it are returned as a list. */
module FilterDialogBox {
  import opened Results
  import opened Text
  import opened Numbers
  import opened Snapshot
  import Scrolling
  import AllureReport
  import Reporter

  // ---------------------------------------------------------------------
  // findColumnIndex
  // ---------------------------------------------------------------------

  function ColumnNotFound(columnName: string): string {
    "Column '" + columnName + "' not found"
  }

  /** What `findColumnIndex` gives once the headers are loaded, from how the
      walk over their texts ended: the 1-based index of the match, `-1` when a
      read failed, or the error thrown when every header was read and none
      matched. */
  function ColumnIndexOf(scan: ScanResult, columnName: string): Result<int> {
    match scan
    case Hit(i) => Ok(i + 1)
    case Fault(_) => Ok(-1)
    case Miss => Err(ColumnNotFound(columnName))
  }

  /** `findColumnIndex(columnName)`, as a function of whether the wait for
      the headers succeeded and of the header texts. */
  function ColumnIndex(columnName: string, headersLoaded: bool, headers: seq<CellRead>): Result<int> {
    if !headersLoaded then Ok(-1)
    else ColumnIndexOf(Scan(Verdicts(headers, TrimmedEquals(columnName))), columnName)
  }

  /** `findColumnIndex(columnName)`: waits for the headers, then walks them
      in order. A failed wait or read is caught and gives `-1`. */
  method FindColumnIndex(columnName: string, headersLoaded: bool, headers: seq<CellRead>) returns (r: Result<int>)
    ensures r == ColumnIndex(columnName, headersLoaded, headers)
  {
    if !headersLoaded {
      return Ok(-1);
    }
    var scan := ScanCells(headers, TrimmedEquals(columnName));
    ColumnIndexLoaded(columnName, headers);
    r := ColumnIndexOf(scan, columnName);
  }

  /** A successful index is at least 1: it is one more than the position of
      the first header whose trimmed text is the column name, exactly and
      case-sensitively, every header before it having been read. */
  lemma ColumnIndexFound(columnName: string, headers: seq<CellRead>, k: int)
    ensures ColumnIndex(columnName, true, headers) == Ok(k) && k != -1 <==>
              1 <= k <= |headers| && headers[k - 1].Read? && Trim(headers[k - 1].text) == columnName
              && forall j :: 0 <= j < k - 1 ==> headers[j].Read? && Trim(headers[j].text) != columnName
  {
    if ColumnIndex(columnName, true, headers) == Ok(k) && k != -1 {
      ColumnIndexFirstMatch(columnName, headers, k);
    }
    if 1 <= k <= |headers| && headers[k - 1].Read? && Trim(headers[k - 1].text) == columnName
       && forall j :: 0 <= j < k - 1 ==> headers[j].Read? && Trim(headers[j].text) != columnName
    {
      ColumnIndexAtMatch(columnName, headers, k);
    }
  }

  /** An index other than `-1` is that of the first matching header. */
  lemma ColumnIndexFirstMatch(columnName: string, headers: seq<CellRead>, k: int)
    requires ColumnIndex(columnName, true, headers) == Ok(k) && k != -1
    ensures 1 <= k <= |headers| && headers[k - 1].Read? && Trim(headers[k - 1].text) == columnName
    ensures forall j :: 0 <= j < k - 1 ==> headers[j].Read? && Trim(headers[j].text) != columnName
  {
    var c := TrimmedEquals(columnName);
    ColumnIndexHit(columnName, headers, k);
    ScanHitMeaning(headers, c, k - 1);
    assert Matches(c, headers[k - 1].text);
    forall j | 0 <= j < k - 1 ensures headers[j].Read? && Trim(headers[j].text) != columnName {
      assert !Matches(c, headers[j].text);
    }
  }

  /** The first matching header, every one before it read, gives its index. */
  lemma ColumnIndexAtMatch(columnName: string, headers: seq<CellRead>, k: int)
    requires 1 <= k <= |headers| && headers[k - 1].Read? && Trim(headers[k - 1].text) == columnName
    requires forall j :: 0 <= j < k - 1 ==> headers[j].Read? && Trim(headers[j].text) != columnName
    ensures ColumnIndex(columnName, true, headers) == Ok(k)
  {
    var c := TrimmedEquals(columnName);
    var v := Verdicts(headers, c);
    assert PassedOver(v, 0, k - 1) by {
      forall j | 0 <= j < k - 1 ensures v[j] == NoMatch {
        VerdictAt(headers, c, j);
        assert !Matches(c, headers[j].text);
      }
    }
    VerdictAt(headers, c, k - 1);
    assert v[k - 1] == Match;
    ScanAt(v, k - 1);
    ColumnIndexLoaded(columnName, headers);
  }

  /** Once the headers are loaded, the index is read off the walk. */
  lemma ColumnIndexLoaded(columnName: string, headers: seq<CellRead>)
    ensures ColumnIndex(columnName, true, headers) == ColumnIndexOf(Scan(Verdicts(headers, TrimmedEquals(columnName))), columnName)
  {
  }

  /** An index other than `-1` comes from a walk that stopped at a match. */
  lemma ColumnIndexHit(columnName: string, headers: seq<CellRead>, k: int)
    requires ColumnIndex(columnName, true, headers) == Ok(k) && k != -1
    ensures k >= 1 && Scan(Verdicts(headers, TrimmedEquals(columnName))) == Hit(k - 1)
  {
  }

  /** The error is thrown exactly when the headers loaded, every one was
      read, and none matched; otherwise the result is an index or `-1`. */
  lemma ColumnIndexNotFound(columnName: string, headersLoaded: bool, headers: seq<CellRead>)
    ensures ColumnIndex(columnName, headersLoaded, headers).Err? <==>
              headersLoaded && forall j :: 0 <= j < |headers| ==> headers[j].Read? && Trim(headers[j].text) != columnName
    ensures ColumnIndex(columnName, headersLoaded, headers).Err? ==>
              ColumnIndex(columnName, headersLoaded, headers).message == ColumnNotFound(columnName)
    ensures ColumnIndex(columnName, headersLoaded, headers).Ok? ==>
              ColumnIndex(columnName, headersLoaded, headers).value == -1
              || ColumnIndex(columnName, headersLoaded, headers).value >= 1
  {
    ScanMissMeaning(headers, TrimmedEquals(columnName));
  }

  // ---------------------------------------------------------------------
  // formatDateToMMDDYYYY
  // ---------------------------------------------------------------------

  /** A date of the proleptic Gregorian calendar, with a 0-based month. */
  datatype CalendarDate = CalendarDate(year: int, month: nat, day: int)

  predicate LeapYear(y: int) {
    (y % 4 == 0 && y % 100 != 0) || y % 400 == 0
  }

  function DaysInMonth(y: int, m: nat): (n: nat)
    requires m < 12
    ensures 28 <= n <= 31
  {
    if m == 1 then (if LeapYear(y) then 29 else 28)
    else if m == 3 || m == 5 || m == 8 || m == 10 then 30
    else 31
  }

  predicate ValidDate(d: CalendarDate) {
    d.month < 12 && 1 <= d.day <= DaysInMonth(d.year, d.month)
  }

  /** The month after `(y, m)`, and the month before it. */
  function NextMonth(y: int, m: nat): (r: (int, nat))
    requires m < 12
    ensures r.1 < 12
  {
    if m == 11 then (y + 1, 0) else (y, m + 1)
  }

  function PreviousMonth(y: int, m: nat): (r: (int, nat))
    requires m < 12
    ensures r.1 < 12
  {
    if m == 0 then (y - 1, 11) else (y, m - 1)
  }

  /** Day `d` of month `m` of year `y`, counted on into the following months
      when `d` is past the month's end and back into the preceding ones when
      `d` is below 1, as `Date` does with a day out of range. */
  function Roll(y: int, m: nat, d: int): (r: CalendarDate)
    requires m < 12
    ensures ValidDate(r)
    ensures 1 <= d <= DaysInMonth(y, m) ==> r == CalendarDate(y, m, d)
    decreases if d < 1 then 1 else 0, if d < 1 then -d else d
  {
    if d < 1 then
      var prev := PreviousMonth(y, m);
      Roll(prev.0, prev.1, d + DaysInMonth(prev.0, prev.1))
    else if d > DaysInMonth(y, m) then
      var next := NextMonth(y, m);
      Roll(next.0, next.1, d - DaysInMonth(y, m))
    else CalendarDate(y, m, d)
  }

  /** One day past the end of a month is the first of the next, and day 0
      is the last day of the month before. */
  lemma RollOverByOne(y: int, m: nat)
    requires m < 12
    ensures Roll(y, m, DaysInMonth(y, m) + 1) == CalendarDate(NextMonth(y, m).0, NextMonth(y, m).1, 1)
    ensures Roll(y, m, 0)
         == CalendarDate(PreviousMonth(y, m).0, PreviousMonth(y, m).1,
                         DaysInMonth(PreviousMonth(y, m).0, PreviousMonth(y, m).1))
  {
  }

  /** `new Date(year, monthIndex, day)` in local time; `None` is an invalid
      date, which any `NaN` argument gives. A year from 0 to 99 means
      1900 to 1999, and a month index out of range carries into the year
      (Dafny's `/` and `%` round down for a positive divisor, as the
      standard's `floor` and modulo do). */
  function JsDate(year: Option<int>, monthIndex: Option<int>, day: Option<int>): (r: Option<CalendarDate>)
    ensures r.Some? <==> year.Some? && monthIndex.Some? && day.Some?
    ensures r.Some? ==> ValidDate(r.value)
  {
    if year.None? || monthIndex.None? || day.None? then None
    else
      var y := if 0 <= year.value <= 99 then 1900 + year.value else year.value;
      Some(Roll(y + monthIndex.value / 12, monthIndex.value % 12, day.value))
  }

  /** How `formatDateToMMDDYYYY` ends: with the formatted text, or with one
      of its two errors. */
  datatype DateResult = Formatted(text: string) | Undefined | Malformed

  function DateErrorMessage(r: DateResult): string {
    match r
    case Undefined => "Invalid or undefined dateString provided"
    case Malformed => "Invalid dateString format. Expected format: yyyy-mm-dd"
    case Formatted(_) => ""
  }

  /** The text an invalid date is formatted as. */
  const NaNDate: string := "NaN/NaN/NaN"

  /** `MM/DD/YYYY` for a date. */
  function DateText(d: CalendarDate): string {
    Pad2(d.month + 1) + "/" + Pad2(if d.day < 0 then 0 else d.day) + "/" + IntToString(d.year)
  }

  /** The `-`-separated part `i`, with a missing part read as empty (an
      `undefined` part is falsy, like an empty one). */
  function Part(parts: seq<string>, i: nat): string {
    if i < |parts| then parts[i] else ""
  }

  /** The text `formatDateToMMDDYYYY` gives for three non-empty parts:
      `new Date(yyyy, mm - 1, dd)` written `MM/DD/YYYY`, each part read by
      `parseInt` without a radix. */
  function FormatParts(yyyy: string, mm: string, dd: string): string {
    FormatDate(JsDate(ParseIntNoRadix(yyyy), MonthIndex(ParseIntNoRadix(mm)), ParseIntNoRadix(dd)))
  }

  /** `parseInt(mm) - 1`, where `NaN` stays `NaN`. */
  function MonthIndex(month: Option<int>): Option<int> {
    if month.Some? then Some(month.value - 1) else None
  }

  /** What an invalid and a valid `Date` are formatted as. */
  function FormatDate(date: Option<CalendarDate>): string {
    match date
    case None => NaNDate
    case Some(d) => DateText(d)
  }

  /** `formatDateToMMDDYYYY(dateString)`. */
  function FormatDateToMMDDYYYY(dateString: string): (r: DateResult)
    ensures r == Undefined <==> dateString == "" || '-' !in dateString
    ensures r == Malformed <==>
              dateString != "" && '-' in dateString
              && (Part(Split(dateString, '-'), 0) == "" || Part(Split(dateString, '-'), 1) == ""
                  || Part(Split(dateString, '-'), 2) == "")
  {
    if dateString == "" || '-' !in dateString then Undefined
    else
      var parts := Split(dateString, '-');
      var yyyy, mm, dd := Part(parts, 0), Part(parts, 1), Part(parts, 2);
      if yyyy == "" || mm == "" || dd == "" then Malformed
      else Formatted(FormatParts(yyyy, mm, dd))
  }

  /** The formatted text of a date: two digits of month from 1 to 12, `/`,
      two digits of day from 1 to 31, `/`, then the year. */
  lemma DateTextShape(d: CalendarDate)
    requires ValidDate(d)
    ensures var t := DateText(d);
            |t| > 6 && t[2] == '/' && t[5] == '/'
            && AllDigits(t[..2]) && DigitsValue(t[..2]) == d.month + 1
            && AllDigits(t[3..5]) && DigitsValue(t[3..5]) == d.day
            && t[6..] == IntToString(d.year)
  {
    var mm, dd := Pad2(d.month + 1), Pad2(d.day);
    var t := DateText(d);
    assert t == mm + "/" + dd + "/" + IntToString(d.year);
    assert t[..2] == mm && t[3..5] == dd;
  }

  /** Where the parts of `yyyy-mm-dd` land. */
  lemma SplitDate(y: string, m: string, d: string)
    requires '-' !in y && '-' !in m && '-' !in d
    ensures Split(y + "-" + m + "-" + d, '-') == [y, m, d]
  {
    assert y + "-" + m + "-" + d == y + ['-'] + (m + ['-'] + d);
    SplitCons(y, '-', m + ['-'] + d);
    SplitCons(m, '-', d);
  }

  /** Three non-empty parts without `-`, joined by `-`, are formatted by
      `FormatParts`. */
  lemma FormatJoinedParts(y: string, m: string, d: string)
    requires '-' !in y && '-' !in m && '-' !in d
    requires y != "" && m != "" && d != ""
    ensures FormatDateToMMDDYYYY(y + "-" + m + "-" + d) == Formatted(FormatParts(y, m, d))
  {
    SplitDate(y, m, d);
    var s := y + "-" + m + "-" + d;
    assert s[|y|] == '-';
    var parts := Split(s, '-');
    assert Part(parts, 0) == y && Part(parts, 1) == m && Part(parts, 2) == d;
    FormatSplitParts(s);
  }

  /** A text with a `-` and three non-empty parts is formatted from them. */
  lemma FormatSplitParts(s: string)
    requires s != "" && '-' in s
    requires var parts := Split(s, '-'); Part(parts, 0) != "" && Part(parts, 1) != "" && Part(parts, 2) != ""
    ensures var parts := Split(s, '-');
            FormatDateToMMDDYYYY(s) == Formatted(FormatParts(Part(parts, 0), Part(parts, 1), Part(parts, 2)))
  {
  }

  lemma NoDashInDigits(s: string)
    requires AllDigits(s)
    ensures '-' !in s
  {
  }

  /** `new Date` of a valid date is that date. */
  lemma JsDateValid(y: int, mi: nat, d: int)
    requires 100 <= y && mi < 12 && 1 <= d <= DaysInMonth(y, mi)
    ensures JsDate(Some(y), Some(mi), Some(d)) == Some(CalendarDate(y, mi, d))
  {
    assert mi / 12 == 0 && mi % 12 == mi;
  }

  /** The parts of a valid date name that date. */
  lemma FormatPartsOfDate(y: nat, m: nat, d: nat)
    requires 100 <= y && 1 <= m <= 12 && 1 <= d <= DaysInMonth(y, m - 1)
    ensures FormatParts(NatToString(y), Pad2(m), Pad2(d)) == DateText(CalendarDate(y, m - 1, d))
  {
    var yyyy, mm, dd := NatToString(y), Pad2(m), Pad2(d);
    ParseNatToString(y);
    ParseDigits(mm);
    ParseDigits(dd);
    ParseNoRadixDecimal(yyyy);
    ParseNoRadixDecimal(mm);
    ParseNoRadixDecimal(dd);
    assert ParseIntNoRadix(yyyy) == Some(y) && ParseIntNoRadix(mm) == Some(m) && ParseIntNoRadix(dd) == Some(d);
    JsDateValid(y, m - 1, d);
    FormatPartsParsed(yyyy, mm, dd, y, m, d);
  }

  /** `FormatParts` once its three parts are read. */
  lemma FormatPartsParsed(yyyy: string, mm: string, dd: string, y: int, m: int, d: int)
    requires ParseIntNoRadix(yyyy) == Some(y) && ParseIntNoRadix(mm) == Some(m) && ParseIntNoRadix(dd) == Some(d)
    ensures FormatParts(yyyy, mm, dd) == FormatDate(JsDate(Some(y), Some(m - 1), Some(d)))
  {
    assert MonthIndex(ParseIntNoRadix(mm)) == Some(m - 1);
  }

  /** A valid calendar date written `yyyy-mm-dd`, with a year of at least
      100 and month and day on two digits, is formatted `MM/DD/YYYY` with the
      same year, month and day. */
  lemma FormatValidDate(y: nat, m: nat, d: nat)
    requires 100 <= y && 1 <= m <= 12 && 1 <= d <= DaysInMonth(y, m - 1)
    ensures FormatDateToMMDDYYYY(NatToString(y) + "-" + Pad2(m) + "-" + Pad2(d))
         == Formatted(Pad2(m) + "/" + Pad2(d) + "/" + NatToString(y))
  {
    var yyyy, mm, dd := NatToString(y), Pad2(m), Pad2(d);
    NoDashInDigits(yyyy);
    NoDashInDigits(mm);
    NoDashInDigits(dd);
    FormatJoinedParts(yyyy, mm, dd);
    FormatPartsOfDate(y, m, d);
    DateTextOfNat(y, m - 1, d);
  }

  /** The text of a date with a year and a day that are not negative. */
  lemma DateTextOfNat(y: nat, mi: nat, d: nat)
    ensures DateText(CalendarDate(y, mi, d)) == Pad2(mi + 1) + "/" + Pad2(d) + "/" + NatToString(y)
  {
  }

  /** A part that does not start with a digit (after white space and a
      sign), or that is `0x` with no hexadecimal digit after it, is `NaN`,
      and the date is then formatted as `NaN/NaN/NaN`. */
  lemma FormatNotANumber(y: string, m: string, d: string)
    requires '-' !in y && '-' !in m && '-' !in d
    requires y != "" && m != "" && d != ""
    requires ParseIntNoRadix(y).None? || ParseIntNoRadix(m).None? || ParseIntNoRadix(d).None?
    ensures FormatDateToMMDDYYYY(y + "-" + m + "-" + d) == Formatted(NaNDate)
  {
    FormatJoinedParts(y, m, d);
  }

  /** A month written in hexadecimal after `0x` is read as such: a valid date
      whose month part is `0x` and hexadecimal digits is formatted with that
      month. */
  lemma FormatHexMonth(y: nat, h: string, m: nat, d: nat)
    requires 100 <= y && 1 <= m <= 12 && 1 <= d <= DaysInMonth(y, m - 1)
    requires h != [] && AllHexDigits(h) && HexValue(h) == m
    ensures FormatDateToMMDDYYYY(NatToString(y) + "-" + ("0x" + h) + "-" + Pad2(d))
         == Formatted(DateText(CalendarDate(y, m - 1, d)))
  {
    var yyyy, mm, dd := NatToString(y), "0x" + h, Pad2(d);
    NoDashInDigits(yyyy);
    NoDashInDigits(dd);
    NoDashInHex(h);
    FormatJoinedParts(yyyy, mm, dd);
    FormatPartsOfHexMonth(y, h, m, d);
  }

  lemma NoDashInHex(h: string)
    requires AllHexDigits(h)
    ensures '-' !in "0x" + h
  {
    var mm := "0x" + h;
    forall i | 0 <= i < |mm| ensures mm[i] != '-' {
      if i >= 2 { assert mm[i] == h[i - 2]; }
    }
  }

  /** The parts of a valid date with its month in hexadecimal name that date. */
  lemma FormatPartsOfHexMonth(y: nat, h: string, m: nat, d: nat)
    requires 100 <= y && 1 <= m <= 12 && 1 <= d <= DaysInMonth(y, m - 1)
    requires h != [] && AllHexDigits(h) && HexValue(h) == m
    ensures FormatParts(NatToString(y), "0x" + h, Pad2(d)) == DateText(CalendarDate(y, m - 1, d))
  {
    var yyyy, mm, dd := NatToString(y), "0x" + h, Pad2(d);
    ParseNatToString(y);
    ParseNoRadixDecimal(yyyy);
    ParseDigits(dd);
    ParseNoRadixDecimal(dd);
    ParseHexNumeral(h, []);
    assert mm + [] == mm;
    JsDateValid(y, m - 1, d);
    FormatPartsParsed(yyyy, mm, dd, y, m, d);
  }

  /** `0x` alone as the month is `NaN`, so the date is `NaN/NaN/NaN`. */
  lemma FormatHexPrefixOnlyMonth(y: string, d: string)
    requires '-' !in y && '-' !in d && y != "" && d != ""
    ensures FormatDateToMMDDYYYY(y + "-" + "0x" + "-" + d) == Formatted(NaNDate)
  {
    ParseHexPrefixOnly([]);
    assert "0x" + [] == "0x";
    FormatNotANumber(y, "0x", d);
  }

  // ---------------------------------------------------------------------
  // setFilterCriterion, setDateFilterCriterion, clickCheckboxByName
  // ---------------------------------------------------------------------

  /** The input fields the filter helpers fill in. */
  datatype Field =
    | TextInput      // input.ag-input-field-input[type="text"][placeholder="Filter..."]
    | DateInput      // input.ag-input-field-input[type="date"][placeholder="yyyy-mm-dd"]
    | FromDate       // .ag-filter-from .ag-date-filter input[type="date"]
    | ToDate         // .ag-filter-to .ag-date-filter input[type="date"]
    | BodyDate       // .ag-filter-body .ag-date-filter input[type="date"]

  /** One call the filter helpers make to the page or the reporter. */
  datatype FilterAction =
    | OpenDropdown                  // click on `.ag-picker-field-icon`
    | ClickOption(option: nat)      // click on option `option` of the list
    | SetField(field: Field, value: string)
    | OpenFilter(columnIndex: int)  // click on the filter button of a column
    | ClickCheckbox(item: nat)      // click on the checkbox of item `item`
    | Log(event: Reporter.ReportEvent)

  /** Why a filter helper throws. */
  datatype FilterError =
    | OptionUnreadable(option: nat)   // `getText()` of an option failed
    | BadDate(message: string)        // `formatDateToMMDDYYYY` threw
    | ColumnMissing(message: string)  // `findColumnIndex` threw

  datatype FilterOutcome = FilterOutcome(actions: seq<FilterAction>, raised: Option<FilterError>)

  /** The criteria that take no value. */
  predicate TakesNoValue(criterion: string) {
    criterion == "Blank" || criterion == "Not blank"
  }

  /** The dropdown is opened, then the first option whose trimmed text is
      the criterion is clicked, if any; a failed read throws. */
  function ChooseOption(criterion: string, options: seq<CellRead>): (r: FilterOutcome)
    ensures 1 <= |r.actions| <= 2 && r.actions[0] == OpenDropdown
  {
    match Scan(Verdicts(options, TrimmedEquals(criterion)))
    case Fault(i) => FilterOutcome([OpenDropdown], Some(OptionUnreadable(i)))
    case Hit(i) => FilterOutcome([OpenDropdown, ClickOption(i)], None)
    case Miss => FilterOutcome([OpenDropdown], None)
  }

  /** Which option is clicked: option `k` exactly when it is the first whose
      trimmed text is the criterion, every option before it having been read;
      nothing is clicked when none matches. */
  lemma ChooseOptionClicks(criterion: string, options: seq<CellRead>, k: nat)
    ensures ClickOption(k) in ChooseOption(criterion, options).actions <==>
              k < |options| && options[k].Read? && Trim(options[k].text) == criterion
              && forall j :: 0 <= j < k ==> options[j].Read? && Trim(options[j].text) != criterion
    ensures ChooseOption(criterion, options).raised.None? && |ChooseOption(criterion, options).actions| == 1 <==>
              forall j :: 0 <= j < |options| ==> options[j].Read? && Trim(options[j].text) != criterion
  {
    ScanHitMeaning(options, TrimmedEquals(criterion), k);
    ScanMissMeaning(options, TrimmedEquals(criterion));
  }

  /** `setFilterCriterion(filterCriterion, inputValue, isDateType)`. */
  function SetFilterCriterion(criterion: string, inputValue: string, isDateType: bool,
                              options: seq<CellRead>): (r: FilterOutcome)
    ensures var chosen := ChooseOption(criterion, options);
            |r.actions| >= |chosen.actions| && r.actions[..|chosen.actions|] == chosen.actions
    ensures ChooseOption(criterion, options).raised.Some? ==> r == ChooseOption(criterion, options)
  {
    var chosen := ChooseOption(criterion, options);
    if chosen.raised.Some? || TakesNoValue(criterion) then chosen
    else if !isDateType then FilterOutcome(chosen.actions + [SetField(TextInput, inputValue)], None)
    else
      match FormatDateToMMDDYYYY(inputValue)
      case Formatted(text) => FilterOutcome(chosen.actions + [SetField(DateInput, text)], None)
      case e => FilterOutcome(chosen.actions, Some(BadDate(DateErrorMessage(e))))
  }

  /** A value is set only when the criterion takes one: the input value
      itself in the text field, or its formatted date in the date field. */
  lemma SetFilterCriterionValue(criterion: string, inputValue: string, isDateType: bool,
                                options: seq<CellRead>)
    ensures var r := SetFilterCriterion(criterion, inputValue, isDateType, options);
            var chosen := ChooseOption(criterion, options);
            (|r.actions| > |chosen.actions| <==>
               chosen.raised.None? && !TakesNoValue(criterion)
               && (isDateType ==> FormatDateToMMDDYYYY(inputValue).Formatted?))
            && (|r.actions| > |chosen.actions| ==>
                  |r.actions| == |chosen.actions| + 1
                  && r.actions[|chosen.actions|]
                     == if isDateType then SetField(DateInput, FormatDateToMMDDYYYY(inputValue).text)
                        else SetField(TextInput, inputValue))
  {
  }

  /** The criteria for which both dates are filled in. */
  predicate IsRange(criterion: string) {
    criterion == "In range"
  }

  /** `toDate ? ... : ''`: a missing or empty second date is not given. */
  predicate Given(date: Option<string>) {
    date.Some? && date.value != ""
  }

  /** `setDateFilterCriterion(filterCriterion, fromDate, toDate)`. Both dates
      are formatted before the criterion is looked at. */
  function SetDateFilterCriterion(criterion: string, fromDate: string, toDate: Option<string>,
                                  options: seq<CellRead>): (r: FilterOutcome)
    ensures var chosen := ChooseOption(criterion, options);
            |r.actions| >= |chosen.actions| && r.actions[..|chosen.actions|] == chosen.actions
  {
    var chosen := ChooseOption(criterion, options);
    if chosen.raised.Some? then chosen
    else
      var from := FormatDateToMMDDYYYY(fromDate);
      if !from.Formatted? then FilterOutcome(chosen.actions, Some(BadDate(DateErrorMessage(from))))
      else
        var to := if Given(toDate) then FormatDateToMMDDYYYY(toDate.value) else Formatted("");
        if !to.Formatted? then FilterOutcome(chosen.actions, Some(BadDate(DateErrorMessage(to))))
        else if TakesNoValue(criterion) then chosen
        else if IsRange(criterion) && Given(toDate) then
          FilterOutcome(chosen.actions + [SetField(FromDate, from.text), SetField(ToDate, to.text)], None)
        else FilterOutcome(chosen.actions + [SetField(BodyDate, from.text)], None)
  }

  /** A bad first date throws whatever the criterion, `Blank` included. */
  lemma BadFromDateThrows(criterion: string, fromDate: string, toDate: Option<string>, options: seq<CellRead>)
    requires ChooseOption(criterion, options).raised.None?
    requires !FormatDateToMMDDYYYY(fromDate).Formatted?
    ensures SetDateFilterCriterion(criterion, fromDate, toDate, options).raised
         == Some(BadDate(DateErrorMessage(FormatDateToMMDDYYYY(fromDate))))
  {
  }

  /** With both dates formatted, `In range` with a second date sets both
      fields; any other criterion that takes a value sets the single one. */
  lemma SetDateFilterFields(criterion: string, fromDate: string, toDate: Option<string>, options: seq<CellRead>)
    requires ChooseOption(criterion, options).raised.None? && !TakesNoValue(criterion)
    requires FormatDateToMMDDYYYY(fromDate).Formatted?
    requires Given(toDate) ==> FormatDateToMMDDYYYY(toDate.value).Formatted?
    ensures var r := SetDateFilterCriterion(criterion, fromDate, toDate, options);
            var n := |ChooseOption(criterion, options).actions|;
            var from := FormatDateToMMDDYYYY(fromDate).text;
            r.raised.None?
            && (IsRange(criterion) && Given(toDate) ==>
                  r.actions[n..] == [SetField(FromDate, from), SetField(ToDate, FormatDateToMMDDYYYY(toDate.value).text)])
            && (!(IsRange(criterion) && Given(toDate)) ==> r.actions[n..] == [SetField(BodyDate, from)])
  {
  }

  /** `clickCheckboxByName(checkboxName)`: the first item whose trimmed label
      is the name has its checkbox clicked; every error is caught. */
  function ClickCheckboxByName(checkboxName: string, labels: seq<CellRead>): (r: seq<FilterAction>)
    ensures |r| <= 1 && forall i :: 0 <= i < |r| ==> r[i].ClickCheckbox?
  {
    match Scan(Verdicts(labels, TrimmedEquals(checkboxName)))
    case Hit(i) => [ClickCheckbox(i)]
    case _ => []
  }

  /** Item `k` is clicked exactly when it is the first whose trimmed label
      is the name, every label before it having been read. */
  lemma ClickCheckboxClicks(checkboxName: string, labels: seq<CellRead>, k: nat)
    ensures ClickCheckboxByName(checkboxName, labels) == [ClickCheckbox(k)] <==>
              k < |labels| && labels[k].Read? && Trim(labels[k].text) == checkboxName
              && forall j :: 0 <= j < k ==> labels[j].Read? && Trim(labels[j].text) != checkboxName
  {
    ScanHitMeaning(labels, TrimmedEquals(checkboxName), k);
  }

  // ---------------------------------------------------------------------
  // handleErrorWithScreenshot and the three filter setters
  // ---------------------------------------------------------------------

  /** `handleErrorWithScreenshot(customErrorMessage, className, methodName)`:
      a step with a screenshot, then an error that its own `catch` swallows,
      as it does a failure of the screenshot. It never throws. */
  function HandleErrorWithScreenshot(className: string, methodName: string, iso: string,
                                     screenshot: Result<string>): (r: seq<FilterAction>)
    ensures |r| >= 2 && r[0] == Log(Reporter.StartStep("Error in " + className + "." + methodName))
    ensures r[1] == Log(Reporter.SaveScreenshot(Reporter.ReportDirectory
                                                    + Scrolling.ScreenshotFileName(className + "_" + methodName, iso)))
  {
    var path := Reporter.ReportDirectory + Scrolling.ScreenshotFileName(className + "_" + methodName, iso);
    var opening := [Log(Reporter.StartStep("Error in " + className + "." + methodName)),
                    Log(Reporter.SaveScreenshot(path))];
    match screenshot
    case Err(_) => opening
    case Ok(image) =>
      opening + [Log(Reporter.Attachment("", image, "image/png")),
                 Log(Reporter.EndStep(Reporter.Passed))]
  }

  /** What the page answers to one of the filter setters. */
  datatype FilterPage = FilterPage(
    headersLoaded: bool,            // the wait of `findColumnIndex`
    headers: seq<CellRead>,         // the header texts
    options: seq<CellRead>,         // the option texts of the criterion list
    labels: seq<CellRead>,          // the checkbox labels
    screenshot: Result<string>)     // `saveScreenshot` of `handleErrorWithScreenshot`

  /** The common shape of the three setters: find the column; a missing
      column (`-1`) is reported and not thrown; an error of the search is
      rethrown; otherwise the filter dialog of the column is opened and
      `fill` is run. */
  function WithColumn(columnName: string, methodName: string, p: FilterPage, iso: string,
                      fill: FilterOutcome): (r: FilterOutcome)
    ensures ColumnIndex(columnName, p.headersLoaded, p.headers) == Ok(-1) ==>
              r.raised.None? && r.actions == HandleErrorWithScreenshot("FilterDialogBox", methodName, iso, p.screenshot)
    ensures ColumnIndex(columnName, p.headersLoaded, p.headers).Err? ==>
              r == FilterOutcome([], Some(ColumnMissing(ColumnNotFound(columnName))))
    ensures ColumnIndex(columnName, p.headersLoaded, p.headers).Ok? && ColumnIndex(columnName, p.headersLoaded, p.headers).value != -1 ==>
              r.raised == fill.raised
              && r.actions == [OpenFilter(ColumnIndex(columnName, p.headersLoaded, p.headers).value)] + fill.actions
  {
    match ColumnIndex(columnName, p.headersLoaded, p.headers)
    case Err(message) => FilterOutcome([], Some(ColumnMissing(message)))
    case Ok(columnIndex) =>
      if columnIndex == -1 then
        FilterOutcome(HandleErrorWithScreenshot("FilterDialogBox", methodName, iso, p.screenshot), None)
      else FilterOutcome([OpenFilter(columnIndex)] + fill.actions, fill.raised)
  }

  /** `setStringFilter(columnName, filterCriterion, inputValue)`. */
  function SetStringFilter(columnName: string, criterion: string, inputValue: string,
                           p: FilterPage, iso: string): FilterOutcome
  {
    WithColumn(columnName, "setStringOrDateFilter", p, iso,
               SetFilterCriterion(criterion, inputValue, false, p.options))
  }

  /** `setDateFilter(columnName, filterCriterion, fromDate, toDate)`. */
  function SetDateFilter(columnName: string, criterion: string, fromDate: string, toDate: Option<string>,
                         p: FilterPage, iso: string): FilterOutcome
  {
    WithColumn(columnName, "setDateFilter", p, iso,
               SetDateFilterCriterion(criterion, fromDate, toDate, p.options))
  }

  /** `setCheckBoxFilter(columnName, checkBoxFilterCriterion)`. */
  function SetCheckBoxFilter(columnName: string, checkboxName: string, p: FilterPage, iso: string): FilterOutcome
  {
    WithColumn(columnName, "setStringOrDateFilter", p, iso,
               FilterOutcome(ClickCheckboxByName(checkboxName, p.labels), None))
  }

  /** A column that is not found through a failed wait or read is reported,
      and none of the three setters throws for it; the "not found" error of
      a complete search is rethrown by all three. */
  lemma MissingColumnNeverThrows(columnName: string, criterion: string, value: string, toDate: Option<string>,
                                 p: FilterPage, iso: string)
    ensures ColumnIndex(columnName, p.headersLoaded, p.headers) == Ok(-1) ==>
              SetStringFilter(columnName, criterion, value, p, iso).raised.None?
              && SetDateFilter(columnName, criterion, value, toDate, p, iso).raised.None?
              && SetCheckBoxFilter(columnName, value, p, iso).raised.None?
    ensures ColumnIndex(columnName, p.headersLoaded, p.headers).Err? ==>
              SetStringFilter(columnName, criterion, value, p, iso).raised == Some(ColumnMissing(ColumnNotFound(columnName)))
              && SetDateFilter(columnName, criterion, value, toDate, p, iso).raised == Some(ColumnMissing(ColumnNotFound(columnName)))
              && SetCheckBoxFilter(columnName, value, p, iso).raised == Some(ColumnMissing(ColumnNotFound(columnName)))
    ensures ColumnIndex(columnName, p.headersLoaded, p.headers).Ok? ==> SetCheckBoxFilter(columnName, value, p, iso).raised.None?
  {
  }

  // ---------------------------------------------------------------------
  // verifyFilteredRowData and verifyCellNotBlank
  // ---------------------------------------------------------------------

  /** The key of cell `i` (0-based) of the row object. */
  function ColumnKey(i: nat): string {
    "column" + NatToString(i + 1)
  }

  lemma ColumnKeyInjective(i: nat, j: nat)
    requires i != j
    ensures ColumnKey(i) != ColumnKey(j)
  {
    NatToStringInjective(i + 1, j + 1);
    assert ColumnKey(i)[6..] == NatToString(i + 1);
    assert ColumnKey(j)[6..] == NatToString(j + 1);
  }

  /** The row object of `verifyFilteredRowData`: `column1..columnN` in cell
      order, each mapped to its cell's text. `None` is a failed read, which
      the helper catches, so that nothing is compared. */
  method RowData(cells: seq<CellRead>) returns (row: Option<map<string, string>>)
    ensures row.None? <==> exists j :: 0 <= j < |cells| && cells[j].Unreadable?
    ensures row.Some? ==> row.value.Keys == set i | 0 <= i < |cells| :: ColumnKey(i)
    ensures row.Some? ==> forall i :: 0 <= i < |cells| ==> row.value[ColumnKey(i)] == cells[i].text
    ensures row.Some? ==> |row.value| == |cells|
  {
    var result: map<string, string> := map[];
    var index := 0;
    while index < |cells|
      invariant 0 <= index <= |cells|
      invariant forall j :: 0 <= j < index ==> cells[j].Read?
      invariant result.Keys == set i | 0 <= i < index :: ColumnKey(i)
      invariant forall i :: 0 <= i < index ==> result[ColumnKey(i)] == cells[i].text
    {
      if cells[index].Unreadable? {
        return None;
      }
      forall i | 0 <= i < index ensures ColumnKey(i) != ColumnKey(index) {
        ColumnKeyInjective(i, index);
      }
      result := result[ColumnKey(index) := cells[index].text];
      index := index + 1;
    }
    ColumnKeysCount(|cells|);
    return Some(result);
  }

  /** The keys of the first `n` cells are `n` distinct keys, so the row
      object has one entry per cell. */
  lemma ColumnKeysCount(n: nat)
    ensures |set i | 0 <= i < n :: ColumnKey(i)| == n
  {
    forall i, j | 0 <= i < n && 0 <= j < n && i != j ensures ColumnKey(i) != ColumnKey(j) {
      ColumnKeyInjective(i, j);
    }
    var name: nat -> string := ColumnKey;
    DistinctNamesCount(name, n);
    assert (set i | 0 <= i < n :: name(i)) == set i | 0 <= i < n :: ColumnKey(i);
  }

  /** `n` names given to `0..n-1` without two alike make a set of `n`. */
  lemma {:induction false} DistinctNamesCount<T>(name: nat -> T, n: nat)
    requires forall i, j :: 0 <= i < n && 0 <= j < n && i != j ==> name(i) != name(j)
    ensures |set i | 0 <= i < n :: name(i)| == n
  {
    if n > 0 {
      var before := set i | 0 <= i < n - 1 :: name(i);
      var all := set i | 0 <= i < n :: name(i);
      var last := name(n - 1);
      DistinctNamesCount(name, n - 1);
      assert last !in before;
      assert all == before + {last} by {
        forall x | x in all ensures x in before + {last} {
          var i :| 0 <= i < n && name(i) == x;
          if i < n - 1 {
            assert x in before;
          }
        }
      }
    }
  }

  /** The column-to-cell mapping of `verifyCellNotBlank`. */
  const CellColumns: map<string, nat> := map["Object ID" := 1, "OUN" := 2]

  /** The value compared with 'Not blank' by `verifyCellNotBlank`, or `None`
      when it throws (a missing row, column or cell, or a `getText()` that
      throws), which it catches. */
  function CellNotBlank(columnName: string, rowExists: bool, cellExists: bool, cellText: CellRead): (r: Option<string>)
    ensures r.Some? <==> rowExists && columnName in CellColumns && cellExists && cellText.Read?
    ensures r.Some? ==> (r.value == "Not blank" <==> cellText.text != "")
    ensures r.Some? && cellText.text == "" ==> r.value == ""
  {
    if !rowExists || columnName !in CellColumns || !cellExists then None
    else
      match cellText
      case Unreadable => None
      case Read(text) => Some(if text != "" then "Not blank" else "")
  }
}

=== FILE: numbers.dfy ===
/** Numbers as the helpers write and read them: `n.toString()`,
    `padStart(2, '0')`, `parseInt(s, 10)` and `parseInt(s)`. */
module Numbers {
  import opened Results
  import opened Text

  predicate IsDigit(c: char) {
    '0' <= c <= '9'
  }

  predicate AllDigits(s: string) {
    forall i :: 0 <= i < |s| ==> IsDigit(s[i])
  }

  function DigitChar(d: nat): (c: char)
    requires d < 10
    ensures IsDigit(c) && c as int - '0' as int == d
  {
    ('0' as int + d) as char
  }

  function DigitValue(c: char): nat
    requires IsDigit(c)
  {
    c as int - '0' as int
  }

  /** The number a string of decimal digits denotes (the empty string denotes 0). */
  function DigitsValue(s: string): nat
    requires AllDigits(s)
    decreases |s|
  {
    if s == [] then 0 else 10 * DigitsValue(s[..|s| - 1]) + DigitValue(s[|s| - 1])
  }

  /** `n.toString()` for a natural number: the shortest decimal numeral of `n`. */
  function NatToString(n: nat): (s: string)
    ensures |s| >= 1 && AllDigits(s)
    ensures DigitsValue(s) == n
    ensures |s| > 1 ==> s[0] != '0'
    ensures |s| == 1 <==> n < 10
    decreases n
  {
    if n < 10 then [DigitChar(n)]
    else
      var p := NatToString(n / 10);
      var s := p + [DigitChar(n % 10)];
      assert s[..|s| - 1] == p;
      assert |p| == 1 ==> DigitValue(p[0]) == n / 10 by {
        if |p| == 1 { assert p[..0] == []; }
      }
      s
  }

  /** Distinct numbers have distinct numerals. */
  lemma NatToStringInjective(a: nat, b: nat)
    requires a != b
    ensures NatToString(a) != NatToString(b)
  {
  }

  /** Numerals of two, three and four digits. */
  lemma NatToStringLength2(n: nat)
    requires 10 <= n < 100
    ensures |NatToString(n)| == 2
  {
    assert n / 10 < 10;
  }

  lemma NatToStringLength3(n: nat)
    requires 100 <= n < 1000
    ensures |NatToString(n)| == 3
  {
    NatToStringLength2(n / 10);
  }

  lemma NatToStringLength4(n: nat)
    requires 1000 <= n < 10000
    ensures |NatToString(n)| == 4
  {
    NatToStringLength3(n / 10);
  }

  /** `s.padStart(2, '0')`. */
  function PadStart2(s: string): (r: string)
    ensures |s| >= 2 ==> r == s
    ensures |s| < 2 ==> |r| == 2 && r[2 - |s|..] == s
    ensures |s| < 2 ==> forall i :: 0 <= i < 2 - |s| ==> r[i] == '0'
  {
    if |s| >= 2 then s else seq(2 - |s|, _ => '0') + s
  }

  /** A leading zero does not change the value of a numeral. */
  lemma {:induction false} LeadingZero(s: string)
    requires AllDigits(s)
    ensures AllDigits("0" + s) && DigitsValue("0" + s) == DigitsValue(s)
    decreases |s|
  {
    if s != [] {
      var t := "0" + s;
      assert t[..|t| - 1] == "0" + s[..|s| - 1];
      LeadingZero(s[..|s| - 1]);
    }
  }

  /** `n.toString().padStart(2, '0')`: at least two digits, still denoting `n`. */
  function Pad2(n: nat): (s: string)
    ensures |s| >= 2 && AllDigits(s) && DigitsValue(s) == n
    ensures n < 100 ==> |s| == 2
    ensures n >= 10 ==> s == NatToString(n)
  {
    var t := NatToString(n);
    assert 10 <= n < 100 ==> |t| == 2 by {
      if 10 <= n < 100 { NatToStringLength2(n); }
    }
    if |t| == 1 then
      LeadingZero(t);
      assert PadStart2(t) == "0" + t;
      PadStart2(t)
    else PadStart2(t)
  }

  /** `String(i)` for an integer. */
  function IntToString(i: int): (s: string)
    ensures i >= 0 ==> s == NatToString(i)
    ensures i < 0 ==> s == "-" + NatToString(-i)
  {
    if i >= 0 then NatToString(i) else "-" + NatToString(-i)
  }

  /** The longest prefix of decimal digits. */
  function LeadingDigits(s: string): (d: string)
    ensures |d| <= |s| && d == s[..|d|] && AllDigits(d)
    ensures |d| == |s| || !IsDigit(s[|d|])
  {
    if s != [] && IsDigit(s[0]) then
      var d := LeadingDigits(s[1..]);
      assert [s[0]] + d == s[..|d| + 1];
      [s[0]] + d
    else []
  }

  /** `parseInt(s, 10)`: leading white space is skipped, an optional sign is
      read, then the longest run of digits; `None` is `NaN` (no digit at all). */
  function ParseInt(s: string): (r: Option<int>)
  {
    var t := TrimStart(s);
    var sign := if t != [] && t[0] == '-' then -1 else 1;
    var body := if t != [] && (t[0] == '-' || t[0] == '+') then t[1..] else t;
    var d := LeadingDigits(body);
    if d == [] then None else Some(sign * DigitsValue(d))
  }

  predicate IsHexDigit(c: char) {
    IsDigit(c) || 'a' <= c <= 'f' || 'A' <= c <= 'F'
  }

  predicate AllHexDigits(s: string) {
    forall i :: 0 <= i < |s| ==> IsHexDigit(s[i])
  }

  function HexDigitValue(c: char): (v: nat)
    requires IsHexDigit(c)
    ensures v < 16
  {
    if IsDigit(c) then DigitValue(c)
    else if 'a' <= c <= 'f' then c as int - 'a' as int + 10
    else c as int - 'A' as int + 10
  }

  /** The number a string of hexadecimal digits denotes. */
  function HexValue(s: string): nat
    requires AllHexDigits(s)
    decreases |s|
  {
    if s == [] then 0 else 16 * HexValue(s[..|s| - 1]) + HexDigitValue(s[|s| - 1])
  }

  /** The longest prefix of hexadecimal digits. */
  function LeadingHexDigits(s: string): (d: string)
    ensures |d| <= |s| && d == s[..|d|] && AllHexDigits(d)
    ensures |d| == |s| || !IsHexDigit(s[|d|])
  {
    if s != [] && IsHexDigit(s[0]) then
      var d := LeadingHexDigits(s[1..]);
      assert [s[0]] + d == s[..|d| + 1];
      [s[0]] + d
    else []
  }

  /** Whether a text starts with `0x` or `0X`. */
  predicate HexPrefixed(body: string) {
    |body| >= 2 && body[0] == '0' && (body[1] == 'x' || body[1] == 'X')
  }

  /** `parseInt(s)` with no radix: as `parseInt(s, 10)`, except that `0x` or
      `0X` right after the white space and the sign makes the rest
      hexadecimal; `None` (`NaN`) when no hexadecimal digit follows it. */
  function ParseIntNoRadix(s: string): (r: Option<int>)
  {
    var t := TrimStart(s);
    var sign := if t != [] && t[0] == '-' then -1 else 1;
    var body := if t != [] && (t[0] == '-' || t[0] == '+') then t[1..] else t;
    if HexPrefixed(body) then
      var h := LeadingHexDigits(body[2..]);
      if h == [] then None else Some(sign * HexValue(h))
    else ParseInt(s)
  }

  /** A string of decimal digits is read in base 10 with or without a radix. */
  lemma ParseNoRadixDecimal(s: string)
    requires s != [] && AllDigits(s)
    ensures ParseIntNoRadix(s) == ParseInt(s)
  {
    assert !IsSpace(s[0]);
    assert TrimStart(s) == s;
  }

  /** `0x` followed by hexadecimal digits, and then by anything that is not
      one, is read in base 16. */
  lemma ParseHexNumeral(h: string, rest: string)
    requires h != [] && AllHexDigits(h)
    requires rest == [] || !IsHexDigit(rest[0])
    ensures ParseIntNoRadix("0x" + h + rest) == Some(HexValue(h))
  {
    var s := "0x" + h + rest;
    assert s[2..] == h + rest;
    LeadingHexDigitsOf(h, rest);
    ParseHexBody(s);
  }

  /** `0x` followed by no hexadecimal digit is `NaN`. */
  lemma ParseHexPrefixOnly(rest: string)
    requires rest == [] || !IsHexDigit(rest[0])
    ensures ParseIntNoRadix("0x" + rest).None?
  {
    var s := "0x" + rest;
    assert s[2..] == rest;
    ParseHexBody(s);
  }

  /** Without white space or a sign in front, a `0x` text is read from its
      leading hexadecimal digits. */
  lemma ParseHexBody(s: string)
    requires HexPrefixed(s)
    ensures ParseIntNoRadix(s)
         == var h := LeadingHexDigits(s[2..]); if h == [] then None else Some(HexValue(h))
  {
    assert !IsSpace(s[0]);
    assert TrimStart(s) == s;
  }

  lemma {:induction false} LeadingHexDigitsOf(h: string, rest: string)
    requires AllHexDigits(h)
    requires rest == [] || !IsHexDigit(rest[0])
    ensures LeadingHexDigits(h + rest) == h
    decreases |h|
  {
    if h != [] {
      assert (h + rest)[1..] == h[1..] + rest;
      LeadingHexDigitsOf(h[1..], rest);
    } else {
      assert h + rest == rest;
    }
  }

  /** Digits followed by anything that is not a digit parse to their value. */
  lemma ParseLeadingNumeral(d: string, rest: string)
    requires d != [] && AllDigits(d)
    requires rest == [] || !IsDigit(rest[0])
    ensures ParseInt(d + rest) == Some(DigitsValue(d))
  {
    var s := d + rest;
    assert !IsSpace(s[0]);
    assert TrimStart(s) == s;
    LeadingDigitsOf(d, rest);
  }

  lemma {:induction false} LeadingDigitsOf(d: string, rest: string)
    requires AllDigits(d)
    requires rest == [] || !IsDigit(rest[0])
    ensures LeadingDigits(d + rest) == d
    decreases |d|
  {
    if d != [] {
      assert (d + rest)[1..] == d[1..] + rest;
      LeadingDigitsOf(d[1..], rest);
    } else {
      assert d + rest == rest;
    }
  }

  /** A string without any digit is `NaN`. */
  lemma ParseNoDigit(s: string)
    requires forall i :: 0 <= i < |s| ==> !IsDigit(s[i])
    ensures ParseInt(s) == None
  {
    var t := TrimStart(s);
    assert forall i :: 0 <= i < |t| ==> t[i] == s[|s| - |t| + i];
  }

  /** A string of digits alone parses to its value. */
  lemma ParseDigits(d: string)
    requires d != [] && AllDigits(d)
    ensures ParseInt(d) == Some(DigitsValue(d))
  {
    ParseLeadingNumeral(d, []);
    assert d + [] == d;
  }

  /** The numeral of `n` reads back as `n`. */
  lemma ParseNatToString(n: nat)
    ensures ParseInt(NatToString(n)) == Some(n)
  {
    ParseDigits(NatToString(n));
  }
}

=== FILE: reporter.dfy ===
/** The calls made to `@wdio/allure-reporter` and to `browser.saveScreenshot`
    by the helpers, shared by the modules that report steps. */
module Reporter {
  datatype Status = Passed | Failed

  /** One call to the reporter or the browser, in the order made. */
  datatype ReportEvent =
    | StartStep(name: string)
    | Attachment(name: string, content: string, mime: string)
    | SaveScreenshot(path: string)
    | EndStep(status: Status)

  /** The directory every screenshot of the helpers is saved in. */
  const ReportDirectory: string := "./reports/ui/allure-results/"
}

=== FILE: results.dfy ===
/** Outcomes shared by every module: an optional value (JavaScript's `null` /
    `undefined`) and a value-or-thrown-error result. */
module Results {

  datatype Option<+T> = None | Some(value: T)

  /** `Err(message)` stands for an exception carrying `message`. */
  datatype Result<+T> = Ok(value: T) | Err(message: string)
}

=== FILE: scrolling.dfy ===
/** helpers/ui/scrolling.ts: the screenshot file name, the viewport test,
    scrolling an element into view and the timed search for a grid column. */
module Scrolling {
  import opened Results
  import opened Text
  import opened Snapshot
  import opened Reporter

  /** The characters of `/[|, ]+/g`. */
  const Separators: set<char> := {'|', ',', ' '}

  /** The characters of `/[:.]/g`, removed from the ISO timestamp. */
  const TimestampPunctuation: set<char> := {':', '.'}

  /** `getSanitizedFileName(desc)`: each run of `|`, `,` and space becomes one
      `_`, then `_`, the timestamp without `:` and `.`, and `.png`. The same
      function is written out in allureReport.ts, filterDialogBox.ts and
      `setText2` of commands.ts; `iso` is `new Date().toISOString()`. */
  function ScreenshotFileName(desc: string, iso: string): string {
    CollapseRuns(desc, Separators, '_') + "_" + Strip(iso, TimestampPunctuation) + ".png"
  }

  /** The file name is the sanitised description, `_`, the stripped timestamp
      and `.png`, and neither of the first two holds a character that was
      replaced or removed. */
  lemma ScreenshotFileNameShape(desc: string, iso: string)
    ensures var s := CollapseRuns(desc, Separators, '_');
            var t := Strip(iso, TimestampPunctuation);
            ScreenshotFileName(desc, iso) == s + "_" + t + ".png"
            && NoneOf(s, Separators) && NoneOf(t, TimestampPunctuation)
  {
    CollapseAvoids(desc, Separators, '_', Separators);
  }

  /** A description without `|`, `,` or space is kept as it is. */
  lemma ScreenshotFileNameKeeps(desc: string, iso: string)
    requires NoneOf(desc, Separators)
    ensures ScreenshotFileName(desc, iso) == desc + "_" + Strip(iso, TimestampPunctuation) + ".png"
  {
    CollapseAbsent(desc, Separators, '_');
  }

  /** A maximal run of separators between two parts becomes exactly one `_`. */
  lemma ScreenshotFileNameRun(a: string, run: string, b: string, iso: string)
    requires run != [] && forall i :: 0 <= i < |run| ==> run[i] in Separators
    requires a == [] || a[|a| - 1] !in Separators
    requires b == [] || b[0] !in Separators
    ensures ScreenshotFileName(a + (run + b), iso)
         == CollapseRuns(a, Separators, '_') + ("_" + CollapseRuns(b, Separators, '_'))
            + "_" + Strip(iso, TimestampPunctuation) + ".png"
  {
    CollapseJoin(a, run, b, Separators, '_');
  }

  /** Where `getLocation()`, `getSize()` and `getWindowRect()` put the element
      and the window (coordinates are whole pixels here). */
  datatype Geometry = Geometry(x: int, y: int, width: nat, height: nat,
                               viewportWidth: nat, viewportHeight: nat)

  /** The comparison of `isElementInViewport`. */
  predicate InViewport(g: Geometry) {
    g.x >= 0 && g.y >= 0 && g.x + g.width <= g.viewportWidth && g.y + g.height <= g.viewportHeight
  }

  /** The point `(px, py)` lies in the closed box at `(left, top)` of the given size. */
  predicate InBox(px: int, py: int, left: int, top: int, width: int, height: int) {
    left <= px <= left + width && top <= py <= top + height
  }

  /** The comparison says exactly that every point of the element's box lies
      inside the window's box. */
  lemma InViewportContainment(g: Geometry)
    ensures InViewport(g) <==>
            forall px, py :: InBox(px, py, g.x, g.y, g.width, g.height)
                             ==> InBox(px, py, 0, 0, g.viewportWidth, g.viewportHeight)
  {
    if !InViewport(g) {
      assert InBox(g.x, g.y, g.x, g.y, g.width, g.height);
      assert InBox(g.x + g.width, g.y + g.height, g.x, g.y, g.width, g.height);
    }
  }

  /** What the page answers for one element; an `Err` is the error the
      read throws. */
  datatype ElementState = ElementState(
    existing: bool,                     // `isExisting()`
    geometry: Result<Geometry>,         // location, size and window, or the error reading them
    text: CellRead,                     // `getText()`
    tagName: Result<string>,            // `getTagName()`
    classAttr: Result<Option<string>>,  // `getAttribute('class')`; `None` is `null`
    screenshot: Result<string>)         // `saveScreenshot` of the "Scrolling not required" step

  /** The TypeError of calling `.replace` on a `null` class attribute. */
  const NullClassError: string := "Cannot read properties of null (reading 'replace')"

  /** The step label of an element: its text, or when that is empty
      `tag_class` with each white-space run of the class turned into `_`. */
  function ElementLabel(text: string, tagName: string, classAttr: Option<string>): (r: Result<string>)
    ensures text != "" ==> r == Ok(text)
    ensures text == "" && classAttr.None? ==> r == Err(NullClassError)
    ensures text == "" && classAttr.Some? ==>
              r.Ok? && r.value == tagName + "_" + CollapseRuns(classAttr.value, Whitespace, '_')
              && NoneOf(r.value[|tagName| + 1..], Whitespace)
  {
    if text != "" then Ok(text)
    else if classAttr.None? then Err(NullClassError)
    else
      var cls := CollapseRuns(classAttr.value, Whitespace, '_');
      CollapseAvoids(classAttr.value, Whitespace, '_', Whitespace);
      assert (tagName + "_" + cls)[|tagName| + 1..] == cls;
      Ok(tagName + "_" + cls)
  }

  /** The label of an element whose text has been read: the tag and the
      class are read only when the text is empty, and the first read that
      throws, or the `null` class, decides the error. */
  function ElementDescription(text: string, tagName: Result<string>, classAttr: Result<Option<string>>): (r: Result<string>)
    ensures text != "" ==> r == Ok(text)
    ensures text == "" && tagName.Err? ==> r == Err(tagName.message)
    ensures text == "" && tagName.Ok? && classAttr.Err? ==> r == Err(classAttr.message)
    ensures text == "" && tagName.Ok? && classAttr.Ok? ==> r == ElementLabel("", tagName.value, classAttr.value)
    ensures r.Ok? ==> r.value != ""
  {
    if text != "" then Ok(text)
    else if tagName.Err? then Err(tagName.message)
    else if classAttr.Err? then Err(classAttr.message)
    else ElementLabel("", tagName.value, classAttr.value)
  }

  /** The label of the element of `e`; `None` when a read throws. */
  function StateLabel(e: ElementState): (r: Option<string>)
    ensures r.Some? <==> e.text.Read? && ElementDescription(e.text.text, e.tagName, e.classAttr).Ok?
    ensures r.Some? ==> r.value == ElementDescription(e.text.text, e.tagName, e.classAttr).value
  {
    if e.text.Unreadable? then None
    else
      var desc := ElementDescription(e.text.text, e.tagName, e.classAttr);
      if desc.Err? then None else Some(desc.value)
  }

  /** The name of the step of `isElementInViewport`. The label is never
      empty, so the `JSON.stringify(element.selector)` branch of the name is
      never taken. */
  function ViewportStepName(desc: string, inView: bool): string {
    "Is element " + desc + " in viewport? " + (if inView then "Yes" else "No")
  }

  /** The steps of `isElementInViewport` once the label is known: the answer
      step, holding for an element in view a "Scrolling not required" step
      with its screenshot. A failed screenshot leaves both steps open. */
  function ViewportReport(desc: string, inView: bool, shot: Result<string>, iso: string): seq<ReportEvent> {
    if !inView then [StartStep(ViewportStepName(desc, false)), EndStep(Passed)]
    else
      var opening := [StartStep(ViewportStepName(desc, true)), StartStep("Scrolling not required"),
                      SaveScreenshot(ReportDirectory + ScreenshotFileName(desc, iso))];
      match shot
      case Err(_) => opening
      case Ok(image) => opening + [Attachment("", image, "image/png"), EndStep(Passed), EndStep(Passed)]
  }

  /** What `isElementInViewport` returns, and the reporter calls it makes. */
  datatype ViewportCheck = ViewportCheck(inView: bool, events: seq<ReportEvent>)

  /** `isElementInViewport(element)`: any failure on the way, including the
      screenshot taken when the element is in view, is caught and gives
      `false`; the step is reported once the label is known. */
  function IsElementInViewport(e: ElementState, iso: string): (r: ViewportCheck)
    ensures r.inView <==> e.existing && e.geometry.Ok? && InViewport(e.geometry.value)
                          && StateLabel(e).Some? && e.screenshot.Ok?
    ensures r.events != [] <==> e.existing && e.geometry.Ok? && StateLabel(e).Some?
    ensures r.events != [] ==>
              r.events == ViewportReport(StateLabel(e).value, InViewport(e.geometry.value), e.screenshot, iso)
  {
    if !e.existing || e.geometry.Err? then ViewportCheck(false, [])
    else
      match StateLabel(e)
      case None => ViewportCheck(false, [])
      case Some(desc) =>
        var inView := InViewport(e.geometry.value);
        var events := ViewportReport(desc, inView, e.screenshot, iso);
        if inView && e.screenshot.Err? then ViewportCheck(false, events)
        else ViewportCheck(inView, events)
  }

  /** The answer step says "Yes" exactly when the element lies in the
      window; `false` is returned for an element in view only when its
      screenshot failed, and then the step is left open. */
  lemma ViewportAnswer(e: ElementState, iso: string)
    requires e.existing && e.geometry.Ok? && StateLabel(e).Some?
    ensures var r := IsElementInViewport(e, iso);
            var desc := StateLabel(e).value;
            (r.events[0] == StartStep(ViewportStepName(desc, true)) <==> InViewport(e.geometry.value))
            && (r.events[|r.events| - 1] == EndStep(Passed) <==> !InViewport(e.geometry.value) || e.screenshot.Ok?)
            && (r.events[0] == StartStep(ViewportStepName(desc, true)) && !r.inView ==> e.screenshot.Err?)
  {
    var desc := StateLabel(e).value;
    var r := IsElementInViewport(e, iso);
    assert ViewportStepName(desc, true) != ViewportStepName(desc, false) by {
      var n := |"Is element " + desc + " in viewport? "|;
      assert ViewportStepName(desc, true)[n] == 'Y';
      assert ViewportStepName(desc, false)[n] == 'N';
    }
    if InViewport(e.geometry.value) && e.screenshot.Err? {
      assert r.events[|r.events| - 1] == SaveScreenshot(ReportDirectory + ScreenshotFileName(desc, iso));
    }
  }

  /** The options passed to `scrollIntoView`. */
  datatype ScrollOptions = ScrollOptions(behavior: Option<string>, block: string, inline: string)

  function ScrollOptionsFor(smoothScroll: bool): (o: ScrollOptions)
    ensures o.block == "center" && o.inline == "center"
    ensures o.behavior.Some? <==> smoothScroll
    ensures o.behavior.Some? ==> o.behavior.value == "smooth"
  {
    if smoothScroll then ScrollOptions(Some("smooth"), "center", "center")
    else ScrollOptions(None, "center", "center")
  }

  /** The "Scrolled to" step made after a scroll, holding the "After
      scroll" step with its screenshot; a failed screenshot leaves both
      steps open. */
  function ScrolledReport(desc: string, shot: Result<string>, iso: string): seq<ReportEvent> {
    var opening := [StartStep("Scrolled to " + desc), StartStep("After scroll"),
                    SaveScreenshot(ReportDirectory + ScreenshotFileName(desc, iso))];
    match shot
    case Err(_) => opening
    case Ok(image) => opening + [Attachment("", image, "image/png"), EndStep(Passed), EndStep(Passed)]
  }

  /** The scroll `scrollToElement` performs, if any, and its reporter calls. */
  datatype ScrollReport = ScrollReport(scroll: Option<ScrollOptions>, events: seq<ReportEvent>)

  /** `scrollToElement(element, smoothScroll)`: the viewport check, then for
      an element out of view the scroll and its "Scrolled to" step, whose
      screenshot is `afterScroll`. It never throws: a missing element is
      logged, and a failure after the scroll (the label, the screenshot) is
      caught. */
  function ScrollToElement(e: ElementState, smoothScroll: bool, afterScroll: Result<string>, iso: string): (r: ScrollReport)
    ensures r.scroll.None? <==> !e.existing || IsElementInViewport(e, iso).inView
    ensures r.scroll.Some? ==> r.scroll.value == ScrollOptionsFor(smoothScroll)
    ensures !e.existing ==> r.events == []
    ensures e.existing && r.scroll.None? ==> r.events == IsElementInViewport(e, iso).events
    ensures r.scroll.Some? ==>
              r.events == IsElementInViewport(e, iso).events
                          + (if StateLabel(e).Some? then ScrolledReport(StateLabel(e).value, afterScroll, iso) else [])
  {
    if !e.existing then ScrollReport(None, [])
    else
      var check := IsElementInViewport(e, iso);
      if check.inView then ScrollReport(None, check.events)
      else
        var scrolled := match StateLabel(e)
                        case None => []
                        case Some(desc) => ScrolledReport(desc, afterScroll, iso);
        ScrollReport(Some(ScrollOptionsFor(smoothScroll)), check.events + scrolled)
  }

  /** A "Scrolled to" step is reported only after a scroll, and always after
      a scroll of an element whose label can be read. */
  lemma ScrolledStepMeansScroll(e: ElementState, smoothScroll: bool, afterScroll: Result<string>, iso: string)
    requires StateLabel(e).Some?
    ensures var r := ScrollToElement(e, smoothScroll, afterScroll, iso);
            (StartStep("Scrolled to " + StateLabel(e).value) in r.events <==> r.scroll.Some?)
  {
    var desc := StateLabel(e).value;
    var r := ScrollToElement(e, smoothScroll, afterScroll, iso);
    var check := IsElementInViewport(e, iso);
    forall i | 0 <= i < |check.events| ensures check.events[i] != StartStep("Scrolled to " + desc) {
      if check.events[i].StartStep? {
        var n := check.events[i].name;
        assert n[0] == 'I' || n[6] == 'i';
        assert ("Scrolled to " + desc)[0] == 'S' && ("Scrolled to " + desc)[6] == 'e';
      }
    }
    if r.scroll.Some? {
      assert r.events[|check.events|] == StartStep("Scrolled to " + desc);
    }
  }

  /** One `scrollIntoView` of `scrollToColumn`: header `i`, then the cell of
      the first row in column `i + 1`. */
  datatype ColumnScroll = ScrollHeader(index: nat) | ScrollFirstRowCell(index: nat)

  /** The scrolls of one pass that read `n` headers without a match. */
  function PassScrolls(n: nat): (t: seq<ColumnScroll>)
    ensures |t| == 2 * n
  {
    if n == 0 then [] else PassScrolls(n - 1) + [ScrollHeader(n - 1), ScrollFirstRowCell(n - 1)]
  }

  /** A pass over `n` headers scrolls header `j`, then its first-row cell,
      for each `j` below `n`, in order. */
  lemma {:induction false} PassScrollsAt(n: nat, j: nat)
    requires j < n
    ensures PassScrolls(n)[2 * j] == ScrollHeader(j)
    ensures PassScrolls(n)[2 * j + 1] == ScrollFirstRowCell(j)
  {
    if j < n - 1 {
      PassScrollsAt(n - 1, j);
    }
  }

  /** Only the headers before `n` are scrolled in a pass over `n` of them. */
  lemma {:induction false} PassScrollsBelow(n: nat, k: nat)
    requires n <= k
    ensures ScrollHeader(k) !in PassScrolls(n) && ScrollFirstRowCell(k) !in PassScrolls(n)
  {
    if n > 0 {
      PassScrollsBelow(n - 1, k);
    }
  }

  /** How the two `scrollIntoView`s of a header that does not match go. */
  datatype ScrollStep =
    | Scrolled            // the header and then its first-row cell are scrolled
    | HeaderScrollFailed  // `headers[i].scrollIntoView` throws
    | CellScrollFailed    // finding or scrolling the first-row cell throws, as on a grid without rows

  /** What one pass of `scrollToColumn` meets at one header: the read of its
      text, and how its scrolls go. */
  datatype HeaderSlot = HeaderSlot(read: CellRead, scroll: ScrollStep)

  /** One step of a pass: the header's text is judged by the criterion; a
      header that does not match ends the pass too when one of its scrolls
      throws. `ReadFailed` stands here for any step that throws. */
  function SlotVerdict(h: HeaderSlot, c: Criterion): Verdict {
    var v := Judge(h.read, c);
    if v == NoMatch && h.scroll != Scrolled then ReadFailed else v
  }

  function PassVerdicts(slots: seq<HeaderSlot>, c: Criterion): (v: seq<Verdict>)
    ensures |v| == |slots|
  {
    seq(|slots|, i requires 0 <= i < |slots| => SlotVerdict(slots[i], c))
  }

  lemma PassVerdictAt(slots: seq<HeaderSlot>, c: Criterion, i: nat)
    requires i < |slots|
    ensures PassVerdicts(slots, c)[i] == SlotVerdict(slots[i], c)
  {
  }

  /** How one pass ends: at the matching header, past the last one, or at
      the header where a step threw. */
  function PassEnd(slots: seq<HeaderSlot>, c: Criterion): ScanResult {
    Scan(PassVerdicts(slots, c))
  }

  /** The scrolls begun at header `i` when it does not match: none after a
      failed read; the header's own, and then its first-row cell's unless
      the header's scroll throws. */
  function HeaderScrolls(h: HeaderSlot, i: nat): seq<ColumnScroll> {
    if h.read.Unreadable? then []
    else if h.scroll == HeaderScrollFailed then [ScrollHeader(i)]
    else [ScrollHeader(i), ScrollFirstRowCell(i)]
  }

  /** The scrolls of a pass that ended with `e`. */
  function EndScrolls(slots: seq<HeaderSlot>, e: ScanResult): seq<ColumnScroll>
    requires e.Fault? ==> e.index < |slots|
  {
    match e
    case Hit(i) => PassScrolls(i)
    case Miss => PassScrolls(|slots|)
    case Fault(i) => PassScrolls(i) + HeaderScrolls(slots[i], i)
  }

  /** How one pass ended, and what it scrolled. */
  datatype PassOutcome = PassOutcome(end: ScanResult, scrolls: seq<ColumnScroll>)

  function PassOf(slots: seq<HeaderSlot>, c: Criterion): PassOutcome {
    var e := PassEnd(slots, c);
    PassOutcome(e, EndScrolls(slots, e))
  }

  /** The outcomes of the passes of the `while` loop that start before the
      five-second deadline. */
  function PassesOf(passes: seq<seq<HeaderSlot>>, c: Criterion): (o: seq<PassOutcome>)
    ensures |o| == |passes|
  {
    seq(|passes|, p requires 0 <= p < |passes| => PassOf(passes[p], c))
  }

  lemma PassesOfAt(passes: seq<seq<HeaderSlot>>, c: Criterion, p: nat)
    requires p < |passes|
    ensures PassesOf(passes, c)[p] == PassOf(passes[p], c)
  {
  }

  /** What `scrollToColumn` leaves: the final `columnIndex` and the scrolls. */
  datatype ColumnSearchResult = ColumnSearchResult(columnIndex: int, scrolls: seq<ColumnScroll>)

  /** The specification of `scrollToColumn`'s loop, over the outcomes of its
      passes: the first pass that does not miss decides. */
  function ColumnSearch(outcomes: seq<PassOutcome>): (r: ColumnSearchResult)
    decreases |outcomes|
  {
    if outcomes == [] then ColumnSearchResult(-1, [])
    else
      match outcomes[0].end
      case Hit(i) => ColumnSearchResult(i + 1, outcomes[0].scrolls)
      case Fault(_) => ColumnSearchResult(-1, outcomes[0].scrolls)
      case Miss =>
        var rest := ColumnSearch(outcomes[1..]);
        ColumnSearchResult(rest.columnIndex, outcomes[0].scrolls + rest.scrolls)
  }

  /** What one header of a pass gives: its verdict and the scrolls begun. */
  datatype HeaderStep = HeaderStep(verdict: Verdict, scrolls: seq<ColumnScroll>)

  /** The body of the inner `for` loop of `scrollToColumn` for header `i`:
      its text is read and judged by `c` (for `scrollToColumn`, trimmed and
      lower-cased text equal to the lower-cased target); a header that does
      not match is scrolled into view, and then the cell under it in the
      first row. */
  method StepHeader(h: HeaderSlot, i: nat, c: Criterion) returns (r: HeaderStep)
    ensures r.verdict == SlotVerdict(h, c)
    ensures r.scrolls == if r.verdict == Match then [] else HeaderScrolls(h, i)
  {
    var v := Judge(h.read, c);
    if v != NoMatch {
      return HeaderStep(v, []);
    }
    if h.scroll == HeaderScrollFailed {
      return HeaderStep(ReadFailed, [ScrollHeader(i)]);
    }
    var scrolls := [ScrollHeader(i), ScrollFirstRowCell(i)];
    r := HeaderStep(if h.scroll == CellScrollFailed then ReadFailed else NoMatch, scrolls);
  }

  /** One pass of the inner `for` loop of `scrollToColumn`: headers are
      taken in order; the loop stops at a match, and a failed read or
      scroll throws out of it. */
  method ScanPass(slots: seq<HeaderSlot>, c: Criterion) returns (r: PassOutcome)
    ensures r == PassOf(slots, c)
  {
    var scrolls := [];
    var i := 0;
    while i < |slots|
      invariant 0 <= i <= |slots|
      invariant PassedOver(PassVerdicts(slots, c), 0, i)
      invariant scrolls == PassScrolls(i)
    {
      var step := StepHeader(slots[i], i, c);
      if step.verdict != NoMatch {
        PassStops(slots, c, i, step);
        return PassOutcome(if step.verdict == Match then Hit(i) else Fault(i), scrolls + step.scrolls);
      }
      PassGoesOn(slots, c, i, step);
      scrolls := scrolls + step.scrolls;
      i := i + 1;
    }
    PassMisses(slots, c);
    r := PassOutcome(Miss, scrolls);
  }

  /** A header step that decides ends the pass there. */
  lemma PassStops(slots: seq<HeaderSlot>, c: Criterion, i: nat, step: HeaderStep)
    requires i < |slots| && PassedOver(PassVerdicts(slots, c), 0, i)
    requires step.verdict == SlotVerdict(slots[i], c) && step.verdict != NoMatch
    requires step.scrolls == if step.verdict == Match then [] else HeaderScrolls(slots[i], i)
    ensures PassOf(slots, c)
         == PassOutcome(if step.verdict == Match then Hit(i) else Fault(i), PassScrolls(i) + step.scrolls)
  {
    PassVerdictAt(slots, c, i);
    ScanAt(PassVerdicts(slots, c), i);
    if step.verdict == Match {
      assert PassEnd(slots, c) == Hit(i);
      assert PassScrolls(i) + [] == PassScrolls(i);
    } else {
      assert PassEnd(slots, c) == Fault(i);
    }
  }

  /** A header step that does not decide scrolls the header and its cell. */
  lemma PassGoesOn(slots: seq<HeaderSlot>, c: Criterion, i: nat, step: HeaderStep)
    requires i < |slots| && PassedOver(PassVerdicts(slots, c), 0, i)
    requires step.verdict == SlotVerdict(slots[i], c) && step.verdict == NoMatch
    requires step.scrolls == HeaderScrolls(slots[i], i)
    ensures PassedOver(PassVerdicts(slots, c), 0, i + 1)
    ensures PassScrolls(i + 1) == PassScrolls(i) + step.scrolls
  {
    PassVerdictAt(slots, c, i);
    PassedOverStep(PassVerdicts(slots, c), 0, i);
  }

  /** A pass that decides at no header misses and scrolls them all. */
  lemma PassMisses(slots: seq<HeaderSlot>, c: Criterion)
    requires PassedOver(PassVerdicts(slots, c), 0, |slots|)
    ensures PassOf(slots, c) == PassOutcome(Miss, PassScrolls(|slots|))
  {
    ScanMissed(PassVerdicts(slots, c));
  }

  /** One pass of the search, in terms of the rest of the search. */
  lemma SearchStep(outcomes: seq<PassOutcome>, p: nat)
    requires p < |outcomes|
    ensures var here := ColumnSearch(outcomes[p..]);
            var rest := ColumnSearch(outcomes[p + 1..]);
            match outcomes[p].end
            case Hit(i) => here == ColumnSearchResult(i + 1, outcomes[p].scrolls)
            case Fault(i) => here == ColumnSearchResult(-1, outcomes[p].scrolls)
            case Miss => here == ColumnSearchResult(rest.columnIndex, outcomes[p].scrolls + rest.scrolls)
  {
    assert outcomes[p..][0] == outcomes[p];
    assert outcomes[p..][1..] == outcomes[p + 1..];
  }

  /** Running one pass. */
  method RunPass(passes: seq<seq<HeaderSlot>>, c: Criterion, p: nat) returns (r: PassOutcome)
    requires p < |passes|
    ensures r == PassesOf(passes, c)[p]
  {
    r := ScanPass(passes[p], c);
    PassesOfAt(passes, c, p);
  }

  /** `scrollToColumn(columnHeader)`. It returns `undefined` (`None`) when the
      header is found, and `''` when a read or a scroll throws or the deadline
      passes. */
  method ScrollToColumn(passes: seq<seq<HeaderSlot>>, columnHeader: string)
    returns (columnIndex: int, returned: Option<string>, scrolls: seq<ColumnScroll>)
    ensures ColumnSearchResult(columnIndex, scrolls) == ColumnSearch(PassesOf(passes, TrimmedLowerEquals(columnHeader)))
    ensures returned == if columnIndex == -1 then Some("") else None
  {
    ghost var outcomes := PassesOf(passes, TrimmedLowerEquals(columnHeader));
    columnIndex, scrolls := -1, [];
    // a step that throws is caught and gives ''; so does the deadline passing
    returned := Some("");
    var p := 0;
    while p < |passes|
      invariant 0 <= p <= |passes| && columnIndex == -1
      invariant ColumnSearch(outcomes)
             == ColumnSearchResult(ColumnSearch(outcomes[p..]).columnIndex,
                                   scrolls + ColumnSearch(outcomes[p..]).scrolls)
    {
      var r := RunPass(passes, TrimmedLowerEquals(columnHeader), p);
      SearchStep(outcomes, p);
      ghost var rest := ColumnSearch(outcomes[p + 1..]);
      Associative(scrolls, r.scrolls, rest.scrolls);
      scrolls := scrolls + r.scrolls;
      if !r.end.Miss? {
        if r.end.Hit? {
          columnIndex, returned := r.end.index + 1, None;
        }
        break;
      }
      p := p + 1;
    }
    if p == |passes| {
      assert outcomes[p..] == [] && scrolls + [] == scrolls;
    }
  }

  /** A found column comes from the first pass that does not miss: it hit,
      at the 0-based index below the 1-based column index, and the search
      scrolled what the earlier passes scrolled and then that pass's
      scrolls. */
  lemma {:induction false} ColumnFound(outcomes: seq<PassOutcome>) returns (k: nat, earlier: seq<ColumnScroll>)
    requires ColumnSearch(outcomes).columnIndex != -1
    ensures var r := ColumnSearch(outcomes);
            k < |outcomes| && r.columnIndex >= 1
            && (forall j :: 0 <= j < k ==> outcomes[j].end.Miss?)
            && outcomes[k].end == Hit(r.columnIndex - 1)
            && r.scrolls == earlier + outcomes[k].scrolls
    decreases |outcomes|
  {
    match outcomes[0].end
    case Hit(i) =>
      k, earlier := 0, [];
    case Miss =>
      var k', e' := ColumnFound(outcomes[1..]);
      k, earlier := k' + 1, outcomes[0].scrolls + e';
      assert outcomes[k] == outcomes[1..][k'];
      forall j | 0 <= j < k ensures outcomes[j].end.Miss? {
        if j > 0 { assert outcomes[j] == outcomes[1..][j - 1]; }
      }
  }

  /** When no pass before the deadline finds the header, the result is `''`. */
  lemma {:induction false} ColumnNotFound(outcomes: seq<PassOutcome>)
    requires forall j :: 0 <= j < |outcomes| ==> !outcomes[j].end.Hit?
    ensures ColumnSearch(outcomes).columnIndex == -1
    decreases |outcomes|
  {
    if outcomes != [] {
      assert forall j :: 0 <= j < |outcomes| - 1 ==> outcomes[1..][j] == outcomes[j + 1];
      ColumnNotFound(outcomes[1..]);
    }
  }

  /** A header read without a match and scrolled, in terms of the page. */
  predicate PassedHeader(h: HeaderSlot, c: Criterion) {
    h.read.Read? && !Matches(c, h.read.text) && h.scroll == Scrolled
  }

  /** A pass hits `k` exactly when header `k` reads and matches and every
      header before it reads, does not match, and is scrolled. */
  lemma PassHitMeaning(slots: seq<HeaderSlot>, c: Criterion, k: nat)
    ensures PassEnd(slots, c) == Hit(k) <==>
              k < |slots| && slots[k].read.Read? && Matches(c, slots[k].read.text)
              && forall j :: 0 <= j < k ==> PassedHeader(slots[j], c)
  {
    if PassEnd(slots, c) == Hit(k) {
      PassHitFacts(slots, c, k);
    }
    if k < |slots| && slots[k].read.Read? && Matches(c, slots[k].read.text)
       && forall j :: 0 <= j < k ==> PassedHeader(slots[j], c) {
      PassReachesHeader(slots, c, k);
      PassVerdictAt(slots, c, k);
      ScanAt(PassVerdicts(slots, c), k);
    }
  }

  lemma PassHitFacts(slots: seq<HeaderSlot>, c: Criterion, k: nat)
    requires PassEnd(slots, c) == Hit(k)
    ensures k < |slots| && slots[k].read.Read? && Matches(c, slots[k].read.text)
    ensures forall j :: 0 <= j < k ==> PassedHeader(slots[j], c)
  {
    var v := PassVerdicts(slots, c);
    PassVerdictAt(slots, c, k);
    forall j | 0 <= j < k ensures PassedHeader(slots[j], c) {
      PassVerdictAt(slots, c, j);
      assert v[j] == NoMatch;
    }
  }

  /** Headers passed over one by one leave the walk at the next one. */
  lemma PassReachesHeader(slots: seq<HeaderSlot>, c: Criterion, k: nat)
    requires k <= |slots| && forall j :: 0 <= j < k ==> PassedHeader(slots[j], c)
    ensures PassedOver(PassVerdicts(slots, c), 0, k)
  {
    forall j | 0 <= j < k ensures PassVerdicts(slots, c)[j] == NoMatch {
      PassVerdictAt(slots, c, j);
    }
  }

  /** A header that does not match and whose scroll throws, reached in the
      first pass, ends the search with `-1`, so `scrollToColumn` gives `''`:
      on a grid without rows the first non-matching header already does. */
  lemma ScrollFailureEndsSearch(passes: seq<seq<HeaderSlot>>, c: Criterion, i: nat)
    requires passes != [] && i < |passes[0]|
    requires forall j :: 0 <= j < i ==> PassedHeader(passes[0][j], c)
    requires passes[0][i].read.Read? && !Matches(c, passes[0][i].read.text)
    requires passes[0][i].scroll != Scrolled
    ensures ColumnSearch(PassesOf(passes, c))
         == ColumnSearchResult(-1, PassScrolls(i) + HeaderScrolls(passes[0][i], i))
  {
    PassReachesHeader(passes[0], c, i);
    PassVerdictAt(passes[0], c, i);
    ScanAt(PassVerdicts(passes[0], c), i);
    PassesOfAt(passes, c, 0);
  }

  /** In terms of the page: a search that finds column `i + 1` found, in
      some pass `k`, a header at `i` that meets the criterion (for
      `scrollToColumn`, trimmed and lower-cased text equal to the lower-cased
      target), after headers that all read, did not match and were
      scrolled; every earlier pass missed. */
  lemma ColumnFoundOnPage(passes: seq<seq<HeaderSlot>>, c: Criterion) returns (k: nat, i: nat)
    requires ColumnSearch(PassesOf(passes, c)).columnIndex != -1
    ensures ColumnSearch(PassesOf(passes, c)).columnIndex == i + 1
    ensures k < |passes| && i < |passes[k]| && passes[k][i].read.Read?
    ensures Matches(c, passes[k][i].read.text)
    ensures forall j :: 0 <= j < i ==> PassedHeader(passes[k][j], c)
    ensures forall j :: 0 <= j < k ==> PassEnd(passes[j], c).Miss?
  {
    var earlier;
    k, earlier := ColumnFound(PassesOf(passes, c));
    i := ColumnSearch(PassesOf(passes, c)).columnIndex - 1;
    PageHit(passes, c, k, i);
    EarlierPassesMissed(passes, c, k);
  }

  /** A pass that hit, in terms of its headers. */
  lemma PageHit(passes: seq<seq<HeaderSlot>>, c: Criterion, k: nat, i: nat)
    requires k < |passes| && PassesOf(passes, c)[k].end == Hit(i)
    ensures i < |passes[k]| && passes[k][i].read.Read?
    ensures Matches(c, passes[k][i].read.text)
    ensures forall j :: 0 <= j < i ==> PassedHeader(passes[k][j], c)
  {
    PassesOfAt(passes, c, k);
    PassHitFacts(passes[k], c, i);
  }

  /** The passes before the deciding one missed, in terms of their headers. */
  lemma EarlierPassesMissed(passes: seq<seq<HeaderSlot>>, c: Criterion, k: nat)
    requires k <= |passes|
    requires forall j :: 0 <= j < k ==> PassesOf(passes, c)[j].end.Miss?
    ensures forall j :: 0 <= j < k ==> PassEnd(passes[j], c).Miss?
  {
    forall j | 0 <= j < k ensures PassEnd(passes[j], c).Miss? {
      PassesOfAt(passes, c, j);
    }
  }
}

=== FILE: snapshot.dfy ===
/** The live page, replaced by what reading it gives. Every helper that walks
    a list of elements (`$$(...)`) reads their texts one by one, in order, and
    stops at the first one that matches; a read that fails (a stale element,
    a closed session) throws out of the walk.

    A walk is split in two: each read is first judged against what the walk
    looks for (`Judge`), and the walk itself only sees the verdicts. */
module Snapshot {
  import opened Text

  /** What `getText()` on one element gives: its text, or a failure. */
  datatype CellRead = Read(text: string) | Unreadable

  /** The ways a walk compares an element's text with what it looks for. */
  datatype Criterion =
    | TrimmedEquals(name: string)          // text.trim() === name
    | TrimmedLowerEquals(target: string)   // text.trim().toLowerCase() === target.toLowerCase()
    | TrimmedContains(needle: string)      // text.trim().includes(needle)

  predicate Matches(c: Criterion, text: string) {
    match c
    case TrimmedEquals(name) => Trim(text) == name
    case TrimmedLowerEquals(target) => ToLower(Trim(text)) == ToLower(target)
    case TrimmedContains(needle) => Contains(Trim(text), needle)
  }

  /** The target of `TrimmedLowerEquals` is not trimmed: one that starts with
      white space matches no text at all. */
  lemma UntrimmedTargetNeverMatches(target: string, text: string)
    requires target != [] && IsSpace(target[0])
    ensures !Matches(TrimmedLowerEquals(target), text)
  {
    var t := Trim(text);
    if t != [] {
      assert ToLower(t)[0] == LowerChar(t[0]);
    }
  }

  /** What one step of a walk learns about one element. */
  datatype Verdict = Match | NoMatch | ReadFailed

  function Judge(cell: CellRead, c: Criterion): (v: Verdict)
    ensures v == ReadFailed <==> cell.Unreadable?
    ensures v == Match <==> cell.Read? && Matches(c, cell.text)
  {
    if cell.Unreadable? then ReadFailed
    else if Matches(c, cell.text) then Match
    else NoMatch
  }

  function Verdicts(cells: seq<CellRead>, c: Criterion): (v: seq<Verdict>)
    ensures |v| == |cells|
  {
    seq(|cells|, i requires 0 <= i < |cells| => Judge(cells[i], c))
  }

  lemma VerdictAt(cells: seq<CellRead>, c: Criterion, i: nat)
    requires i < |cells|
    ensures Verdicts(cells, c)[i] == Judge(cells[i], c)
  {
  }

  /** How a walk ends: at the first match, past the end, or at a failed read. */
  datatype ScanResult = Hit(index: nat) | Miss | Fault(index: nat)

  /** The verdicts at `from..k` were all `NoMatch`. */
  predicate PassedOver(v: seq<Verdict>, from: nat, k: nat) {
    forall j :: from <= j < k && j < |v| ==> v[j] == NoMatch
  }

  /** The walk over the verdicts, starting at `from`. */
  function ScanFrom(v: seq<Verdict>, from: nat): (r: ScanResult)
    requires from <= |v|
    ensures r.Hit? ==> from <= r.index < |v| && v[r.index] == Match && PassedOver(v, from, r.index)
    ensures r.Fault? ==> from <= r.index < |v| && v[r.index] == ReadFailed && PassedOver(v, from, r.index)
    ensures r.Miss? ==> PassedOver(v, from, |v|)
    decreases |v| - from
  {
    if from == |v| then Miss
    else if v[from] == ReadFailed then Fault(from)
    else if v[from] == Match then Hit(from)
    else ScanFrom(v, from + 1)
  }

  function Scan(v: seq<Verdict>): ScanResult {
    ScanFrom(v, 0)
  }

  /** The outcome of a walk is fixed by the reads: a walk that passed over the
      first `k` elements and then met a match (or a failure) ends there. */
  lemma ScanAt(v: seq<Verdict>, k: nat)
    requires k < |v| && PassedOver(v, 0, k)
    ensures v[k] == ReadFailed ==> Scan(v) == Fault(k)
    ensures v[k] == Match ==> Scan(v) == Hit(k)
  {
  }

  /** One more element read without a match. */
  lemma PassedOverStep(v: seq<Verdict>, from: nat, k: nat)
    requires k < |v| && PassedOver(v, from, k) && v[k] == NoMatch
    ensures PassedOver(v, from, k + 1)
  {
  }

  /** A walk that reads every element without a match misses. */
  lemma ScanMissed(v: seq<Verdict>)
    requires PassedOver(v, 0, |v|)
    ensures Scan(v) == Miss
  {
  }

  /** A walk stops at the first element it can decide on, so in terms of
      the page: it hits `k` exactly when element `k` reads and matches and
      every element before it reads and does not match. */
  lemma ScanHitMeaning(cells: seq<CellRead>, c: Criterion, k: nat)
    ensures Scan(Verdicts(cells, c)) == Hit(k) <==>
              k < |cells| && cells[k].Read? && Matches(c, cells[k].text)
              && forall j :: 0 <= j < k ==> cells[j].Read? && !Matches(c, cells[j].text)
  {
    var v := Verdicts(cells, c);
    if k < |cells| && cells[k].Read? && Matches(c, cells[k].text)
       && forall j :: 0 <= j < k ==> cells[j].Read? && !Matches(c, cells[j].text) {
      assert PassedOver(v, 0, k) by {
        forall j | 0 <= j < k ensures v[j] == NoMatch {
          VerdictAt(cells, c, j);
        }
      }
      ScanAt(v, k);
    }
    if Scan(v) == Hit(k) {
      forall j | 0 <= j < k ensures cells[j].Read? && !Matches(c, cells[j].text) {
        VerdictAt(cells, c, j);
      }
    }
  }

  /** A walk misses exactly when every element reads and none matches. */
  lemma ScanMissMeaning(cells: seq<CellRead>, c: Criterion)
    ensures Scan(Verdicts(cells, c)) == Miss <==>
              forall j :: 0 <= j < |cells| ==> cells[j].Read? && !Matches(c, cells[j].text)
  {
    var v := Verdicts(cells, c);
    if forall j :: 0 <= j < |cells| ==> cells[j].Read? && !Matches(c, cells[j].text) {
      assert PassedOver(v, 0, |v|) by {
        forall j | 0 <= j < |v| ensures v[j] == NoMatch {
          VerdictAt(cells, c, j);
        }
      }
      ScanMissed(v);
    }
    if Scan(v) == Miss {
      forall j | 0 <= j < |cells| ensures cells[j].Read? && !Matches(c, cells[j].text) {
        VerdictAt(cells, c, j);
      }
    }
  }

  /** The walk as the helpers write it: an index loop over the elements with
      an early exit on a match or a failed read. */
  method ScanCells(cells: seq<CellRead>, c: Criterion) returns (r: ScanResult)
    ensures r == Scan(Verdicts(cells, c))
  {
    ghost var v := Verdicts(cells, c);
    var i := 0;
    while i < |cells|
      invariant 0 <= i <= |cells|
      invariant PassedOver(v, 0, i)
    {
      VerdictAt(cells, c, i);
      if cells[i].Unreadable? {
        ScanAt(v, i);
        return Fault(i);
      }
      if Matches(c, cells[i].text) {
        ScanAt(v, i);
        return Hit(i);
      }
      PassedOverStep(v, 0, i);
      i := i + 1;
    }
    ScanMissed(v);
    r := Miss;
  }
}

=== FILE: text.dfy ===
/** String operations of JavaScript's `String.prototype` that the helpers use,
    over ASCII: `trim`, `toLowerCase`, `includes`, `indexOf`, `split`,
    `replace` with a string pattern, and `replace` with a global regular
    expression of the form `/[chars]+/g` or `/[chars]/g`. */
module Text {
  import opened Results

  /** ASCII white space, as matched by `\s` and removed by `trim()`. */
  predicate IsSpace(c: char) {
    c == ' ' || c == '\t' || c == '\n' || c == '\r' || c == '\U{B}' || c == '\U{C}'
  }

  /** The same white space, as a character class for `/\s+/g`. */
  const Whitespace: set<char> := {' ', '\t', '\n', '\r', '\U{B}', '\U{C}'}

  lemma WhitespaceIsSpace(c: char)
    ensures c in Whitespace <==> IsSpace(c)
  {
  }

  ghost predicate AllSpace(s: string) {
    forall i :: 0 <= i < |s| ==> IsSpace(s[i])
  }

  /** How many white-space characters `s` starts with. */
  function LeadingSpaces(s: string): (n: nat)
    ensures n <= |s|
    ensures forall i :: 0 <= i < n ==> IsSpace(s[i])
    ensures n == |s| || !IsSpace(s[n])
  {
    if s != [] && IsSpace(s[0]) then
      var n := LeadingSpaces(s[1..]);
      assert forall i :: 1 <= i <= n ==> s[i] == s[1..][i - 1];
      n + 1
    else 0
  }

  /** How many white-space characters `s` ends with. */
  function TrailingSpaces(s: string): (n: nat)
    ensures n <= |s|
    ensures forall i :: |s| - n <= i < |s| ==> IsSpace(s[i])
    ensures n == |s| || !IsSpace(s[|s| - n - 1])
  {
    if s != [] && IsSpace(s[|s| - 1]) then
      var n := TrailingSpaces(s[..|s| - 1]);
      assert forall i :: 0 <= i < |s| - 1 ==> s[i] == s[..|s| - 1][i];
      n + 1
    else 0
  }

  /** `trimStart()`: the suffix left after the leading white space. */
  function TrimStart(s: string): (r: string)
    ensures |r| <= |s| && r == s[|s| - |r|..]
    ensures AllSpace(s[..|s| - |r|])
    ensures r == [] || !IsSpace(r[0])
  {
    s[LeadingSpaces(s)..]
  }

  /** `trimEnd()`: the prefix left before the trailing white space. */
  function TrimEnd(s: string): (r: string)
    ensures |r| <= |s| && r == s[..|r|]
    ensures AllSpace(s[|r|..])
    ensures r == [] || !IsSpace(r[|r| - 1])
  {
    s[..|s| - TrailingSpaces(s)]
  }

  /** `trim()`: what is left between the leading and the trailing white space. */
  function Trim(s: string): (r: string)
    ensures |r| <= |s|
    ensures r == [] || (!IsSpace(r[0]) && !IsSpace(r[|r| - 1]))
    ensures r == [] <==> AllSpace(s)
    ensures (s == [] || (!IsSpace(s[0]) && !IsSpace(s[|s| - 1]))) ==> r == s
  {
    var t := TrimStart(s);
    var r := TrimEnd(t);
    assert t == [] ==> AllSpace(s) by {
      if t == [] { assert s[..|s|] == s; }
    }
    assert AllSpace(s) ==> t == [] by {
      if t != [] { assert t[0] == s[|s| - |t|]; }
    }
    assert t != [] ==> r != [];
    assert r != [] ==> r[0] == t[0];
    r
  }

  /** `toLowerCase()` on one ASCII character. */
  function LowerChar(c: char): char {
    if 'A' <= c <= 'Z' then (c as int + 32) as char else c
  }

  predicate IsUpper(c: char) {
    'A' <= c <= 'Z'
  }

  /** `toLowerCase()` over ASCII. */
  function ToLower(s: string): (r: string)
    ensures |r| == |s|
    ensures forall i :: 0 <= i < |r| ==> r[i] == LowerChar(s[i]) && !IsUpper(r[i])
  {
    seq(|s|, i requires 0 <= i < |s| => LowerChar(s[i]))
  }

  /** `needle` occurs in `hay` starting at position `i`. */
  predicate OccursAt(hay: string, needle: string, i: int) {
    0 <= i && i + |needle| <= |hay| && hay[i..i + |needle|] == needle
  }

  lemma OccursShift(hay: string, needle: string, j: int)
    requires hay != [] && j >= 0
    ensures OccursAt(hay[1..], needle, j) <==> OccursAt(hay, needle, j + 1)
  {
    if 0 <= j && j + |needle| <= |hay| - 1 {
      assert hay[1..][j..j + |needle|] == hay[j + 1..j + 1 + |needle|];
    }
  }

  /** Position of the first occurrence of `needle` in `hay`, if any. */
  function FirstOccurrence(hay: string, needle: string): (r: Option<nat>)
    ensures r.Some? ==> OccursAt(hay, needle, r.value)
    ensures r.Some? ==> forall j :: 0 <= j < r.value ==> !OccursAt(hay, needle, j)
    ensures r.None? ==> forall j :: !OccursAt(hay, needle, j)
    decreases |hay|
  {
    if needle <= hay then
      assert hay[0..|needle|] == needle;
      Some(0)
    else if hay == [] then
      None
    else
      var rest := FirstOccurrence(hay[1..], needle);
      assert forall j :: j >= 0 ==> (OccursAt(hay[1..], needle, j) <==> OccursAt(hay, needle, j + 1)) by {
        forall j | j >= 0 { OccursShift(hay, needle, j); }
      }
      assert !OccursAt(hay, needle, 0);
      match rest
      case None =>
        assert forall j :: !OccursAt(hay, needle, j) by {
          forall j ensures !OccursAt(hay, needle, j) {
            if j > 0 { assert !OccursAt(hay[1..], needle, j - 1); }
          }
        }
        None
      case Some(k) =>
        assert forall j :: 0 <= j < k + 1 ==> !OccursAt(hay, needle, j) by {
          forall j | 0 < j < k + 1 ensures !OccursAt(hay, needle, j) {
            assert !OccursAt(hay[1..], needle, j - 1);
          }
        }
        Some(k + 1)
  }

  /** `hay.includes(needle)`. */
  predicate Contains(hay: string, needle: string) {
    FirstOccurrence(hay, needle).Some?
  }

  lemma ContainsAt(hay: string, needle: string, i: int)
    requires OccursAt(hay, needle, i)
    ensures Contains(hay, needle)
  {
  }

  /** `s.replace(pattern, replacement)` with a string pattern: only the first
      occurrence is replaced. */
  function ReplaceFirst(s: string, pattern: string, replacement: string): (r: string)
  {
    match FirstOccurrence(s, pattern)
    case None => s
    case Some(k) => s[..k] + replacement + s[k + |pattern|..]
  }

  /** `s.indexOf(c)`: the first position of `c`, or -1. */
  function IndexOf(s: string, c: char): (r: int)
    ensures -1 <= r < |s|
    ensures r == -1 <==> c !in s
    ensures r >= 0 ==> s[r] == c && c !in s[..r]
  {
    if s == [] then -1
    else if s[0] == c then 0
    else
      var k := IndexOf(s[1..], c);
      if k == -1 then -1
      else
        assert s[..k + 1] == [s[0]] + s[1..][..k];
        k + 1
  }

  /** The inverse of `Split`: the parts separated by `sep`. */
  function Join(parts: seq<string>, sep: char): string
    requires |parts| >= 1
    decreases |parts|
  {
    if |parts| == 1 then parts[0] else parts[0] + [sep] + Join(parts[1..], sep)
  }

  /** `s.split(sep)` with a one-character separator. */
  function Split(s: string, sep: char): (parts: seq<string>)
    ensures |parts| >= 1
    ensures forall i :: 0 <= i < |parts| ==> sep !in parts[i]
    ensures |parts| == 1 <==> sep !in s
    decreases |s|
  {
    var k := IndexOf(s, sep);
    if k == -1 then [s]
    else
      var rest := Split(s[k + 1..], sep);
      assert forall i :: 1 <= i < |rest| + 1 ==> ([s[..k]] + rest)[i] == rest[i - 1];
      assert s[k] == sep;
      [s[..k]] + rest
  }

  lemma Around(s: string, k: nat)
    requires k < |s|
    ensures s[..k] + [s[k]] + s[k + 1..] == s
  {
  }

  /** Joining the parts of a split gives back the string. */
  lemma {:induction false} JoinSplit(s: string, sep: char)
    ensures Join(Split(s, sep), sep) == s
    decreases |s|
  {
    var k := IndexOf(s, sep);
    if k != -1 {
      var rest := Split(s[k + 1..], sep);
      JoinSplit(s[k + 1..], sep);
      var parts := Split(s, sep);
      assert parts == [s[..k]] + rest;
      assert parts[0] == s[..k] && parts[1..] == rest && |parts| != 1;
      assert s[k] == sep;
      calc {
        Join(parts, sep);
        s[..k] + [sep] + Join(rest, sep);
        s[..k] + [sep] + s[k + 1..];
        { Around(s, k); }
        s;
      }
    }
  }

  /** The first `c` of `s` is at `n`. */
  lemma {:induction false} IndexOfIs(s: string, c: char, n: nat)
    requires n < |s| && s[n] == c && c !in s[..n]
    ensures IndexOf(s, c) == n
  {
    if n > 0 {
      assert s[0] == s[..n][0];
      assert s[1..][..n - 1] == s[1..n];
      assert s[1..n] == s[..n][1..];
      IndexOfIs(s[1..], c, n - 1);
    }
  }

  /** Splitting a string whose first separator follows `a`. */
  lemma SplitCons(a: string, sep: char, b: string)
    requires sep !in a
    ensures Split(a + [sep] + b, sep) == [a] + Split(b, sep)
  {
    var s := a + [sep] + b;
    assert s[..|a|] == a;
    IndexOfIs(s, sep, |a|);
    assert s[|a| + 1..] == b;
  }

  /** The first part is everything before the first separator. */
  lemma SplitFirst(a: string, sep: char, b: string)
    requires sep !in a && (b == [] || b[0] == sep)
    ensures Split(a + b, sep)[0] == a
  {
    if b == [] {
      assert a + b == a;
    } else {
      assert a + b == a + [sep] + b[1..];
      SplitCons(a, sep, b[1..]);
    }
  }

  /** `s.replace(/[S]/g, '')`: every character of `S` removed. */
  function Strip(s: string, S: set<char>): (r: string)
    ensures |r| <= |s|
    ensures forall i :: 0 <= i < |r| ==> r[i] !in S
    decreases |s|
  {
    if s == [] then []
    else if s[0] in S then Strip(s[1..], S)
    else [s[0]] + Strip(s[1..], S)
  }

  /** What is left of `s` after its leading run of characters of `S`. */
  function DropRun(s: string, S: set<char>): (r: string)
    ensures |r| <= |s|
    ensures r == [] || r[0] !in S
  {
    if s != [] && s[0] in S then DropRun(s[1..], S) else s
  }

  /** `DropRun` leaves a suffix, and everything it drops belongs to `S`. */
  lemma {:induction false} DropRunDropped(s: string, S: set<char>)
    ensures DropRun(s, S) == s[|s| - |DropRun(s, S)|..]
    ensures forall i :: 0 <= i < |s| - |DropRun(s, S)| ==> s[i] in S
    decreases |s|
  {
    if s != [] && s[0] in S {
      DropRunDropped(s[1..], S);
      assert forall i :: 0 < i < |s| ==> s[i] == s[1..][i - 1];
      assert s[1..][|s| - 1 - |DropRun(s, S)|..] == s[|s| - |DropRun(s, S)|..];
    }
  }

  /** `s.replace(/[S]+/g, c)`: every maximal run of characters of `S` becomes
      the single character `c`. */
  function CollapseRuns(s: string, S: set<char>, c: char): (r: string)
    ensures |r| <= |s|
    decreases |s|
  {
    if s == [] then []
    else if s[0] in S then [c] + CollapseRuns(DropRun(s[1..], S), S, c)
    else [s[0]] + CollapseRuns(s[1..], S, c)
  }

  /** No two adjacent characters of `s` are both `x`. */
  predicate NoPair(s: string, x: char) {
    forall i :: 0 <= i < |s| - 1 ==> !(s[i] == x && s[i + 1] == x)
  }

  /** No character of `s` is in `T`. */
  predicate NoneOf(s: string, T: set<char>) {
    forall i :: 0 <= i < |s| ==> s[i] !in T
  }

  lemma CollapseHead(s: string, S: set<char>, c: char)
    requires s != []
    ensures CollapseRuns(s, S, c) != []
    ensures CollapseRuns(s, S, c)[0] == if s[0] in S then c else s[0]
  {
  }

  /** A character class `T` that only occurs inside runs of `S` is gone after
      the collapse, unless the replacement belongs to it. */
  lemma {:induction false} CollapseAvoids(s: string, S: set<char>, c: char, T: set<char>)
    requires c !in T
    requires forall i :: 0 <= i < |s| && s[i] in T ==> s[i] in S
    ensures NoneOf(CollapseRuns(s, S, c), T)
    decreases |s|
  {
    if s == [] {
    } else if s[0] in S {
      var d := DropRun(s[1..], S);
      DropRunDropped(s[1..], S);
      assert forall i :: 0 <= i < |d| ==> d[i] == s[|s| - |d| + i];
      CollapseAvoids(d, S, c, T);
    } else {
      assert forall i :: 0 <= i < |s| - 1 ==> s[1..][i] == s[i + 1];
      CollapseAvoids(s[1..], S, c, T);
    }
  }

  /** When the replacement belongs to the class, it never appears twice in a row. */
  lemma {:induction false} CollapseNoDoubled(s: string, S: set<char>, c: char)
    requires c in S
    ensures NoPair(CollapseRuns(s, S, c), c)
    decreases |s|
  {
    if s == [] {
    } else if s[0] in S {
      var d := DropRun(s[1..], S);
      CollapseNoDoubled(d, S, c);
      if d != [] { CollapseHead(d, S, c); }
      var r := CollapseRuns(d, S, c);
      assert CollapseRuns(s, S, c) == [c] + r;
    } else {
      CollapseNoDoubled(s[1..], S, c);
      if s[1..] != [] { CollapseHead(s[1..], S, c); }
      assert CollapseRuns(s, S, c) == [s[0]] + CollapseRuns(s[1..], S, c);
    }
  }

  /** A doubled character outside the class is never created by the collapse. */
  lemma {:induction false} CollapseKeepsNoPair(s: string, S: set<char>, c: char, x: char)
    requires x !in S && x != c
    requires NoPair(s, x)
    ensures NoPair(CollapseRuns(s, S, c), x)
    decreases |s|
  {
    if s == [] {
    } else if s[0] in S {
      var d := DropRun(s[1..], S);
      DropRunDropped(s[1..], S);
      assert forall i :: 0 <= i < |d| ==> d[i] == s[|s| - |d| + i];
      CollapseKeepsNoPair(d, S, c, x);
      assert CollapseRuns(s, S, c) == [c] + CollapseRuns(d, S, c);
    } else {
      assert forall i :: 0 <= i < |s| - 1 ==> s[1..][i] == s[i + 1];
      CollapseKeepsNoPair(s[1..], S, c, x);
      if s[1..] != [] { CollapseHead(s[1..], S, c); }
      assert CollapseRuns(s, S, c) == [s[0]] + CollapseRuns(s[1..], S, c);
    }
  }

  /** Nothing to collapse: the string is unchanged. */
  lemma {:induction false} CollapseAbsent(s: string, S: set<char>, c: char)
    requires NoneOf(s, S)
    ensures CollapseRuns(s, S, c) == s
    decreases |s|
  {
    if s != [] {
      assert NoneOf(s[1..], S) by {
        assert forall i :: 0 <= i < |s| - 1 ==> s[1..][i] == s[i + 1];
      }
      CollapseAbsent(s[1..], S, c);
    }
  }

  /** Collapsing runs of `c` into `c` leaves a string without a doubled `c` unchanged. */
  lemma {:induction false} CollapseSingleton(s: string, c: char)
    requires NoPair(s, c)
    ensures CollapseRuns(s, {c}, c) == s
    decreases |s|
  {
    if s != [] {
      assert NoPair(s[1..], c) by {
        assert forall i :: 0 <= i < |s| - 1 ==> s[1..][i] == s[i + 1];
      }
      CollapseSingleton(s[1..], c);
      if s[0] == c {
        assert s[1..] == [] || s[1] != c;
        assert DropRun(s[1..], {c}) == s[1..];
      }
    }
  }

  /** Dropping the leading run of a string that leaves something over is
      not affected by what follows. */
  lemma {:induction false} DropRunAppend(s: string, t: string, S: set<char>)
    requires DropRun(s, S) != []
    ensures DropRun(s + t, S) == DropRun(s, S) + t
    decreases |s|
  {
    if s[0] in S {
      assert (s + t)[1..] == s[1..] + t;
      DropRunAppend(s[1..], t, S);
    }
  }

  /** A run of `S` followed by a character outside `S` is dropped entirely. */
  lemma {:induction false} DropRunAll(run: string, b: string, S: set<char>)
    requires forall i :: 0 <= i < |run| ==> run[i] in S
    requires b == [] || b[0] !in S
    ensures DropRun(run + b, S) == b
    decreases |run|
  {
    if run == [] {
      assert run + b == b;
    } else {
      assert (run + b)[1..] == run[1..] + b;
      DropRunAll(run[1..], b, S);
    }
  }

  lemma Associative<T>(p: seq<T>, q: seq<T>, r: seq<T>)
    ensures p + (q + r) == (p + q) + r
  {
  }

  /** Adjacent slices join. */
  lemma SliceJoin<T>(s: seq<T>, i: nat, j: nat, k: nat)
    requires i <= j <= k <= |s|
    ensures s[i..j] + s[j..k] == s[i..k]
  {
  }

  /** The boundary between `a` and `t` does not fall inside a run of `S`. */
  predicate Apart(a: string, t: string, S: set<char>) {
    a == [] || t == [] || a[|a| - 1] !in S || t[0] !in S
  }

  /** Collapsing distributes over a concatenation that does not split a run. */
  lemma {:induction false} CollapseAppend(a: string, t: string, S: set<char>, c: char)
    requires Apart(a, t, S)
    ensures CollapseRuns(a + t, S, c) == CollapseRuns(a, S, c) + CollapseRuns(t, S, c)
    decreases |a|, 1
  {
    if a == [] {
      assert a + t == t;
    } else if a[0] in S {
      if DropRun(a[1..], S) == [] {
        CollapseAllRun(a, t, S, c);
      } else {
        CollapseAppendRun(a, t, S, c);
      }
    } else {
      CollapseAppendPlain(a, t, S, c);
    }
  }

  lemma {:induction false} CollapseAppendRun(a: string, t: string, S: set<char>, c: char)
    requires Apart(a, t, S)
    requires a != [] && a[0] in S && DropRun(a[1..], S) != []
    ensures CollapseRuns(a + t, S, c) == CollapseRuns(a, S, c) + CollapseRuns(t, S, c)
    decreases |a|, 0
  {
    var d := CollapseStep(a, t, S, c);
    CollapseAppend(d, t, S, c);
    calc {
      CollapseRuns(a + t, S, c);
      [c] + CollapseRuns(d + t, S, c);
      [c] + (CollapseRuns(d, S, c) + CollapseRuns(t, S, c));
      { Associative([c], CollapseRuns(d, S, c), CollapseRuns(t, S, c)); }
      ([c] + CollapseRuns(d, S, c)) + CollapseRuns(t, S, c);
    }
  }

  lemma {:induction false} CollapseAppendPlain(a: string, t: string, S: set<char>, c: char)
    requires Apart(a, t, S)
    requires a != [] && a[0] !in S
    ensures CollapseRuns(a + t, S, c) == CollapseRuns(a, S, c) + CollapseRuns(t, S, c)
    decreases |a|, 0
  {
    var x := a[1..];
    CollapsePlain(a, t, S, c);
    CollapseAppend(x, t, S, c);
    calc {
      CollapseRuns(a + t, S, c);
      [a[0]] + CollapseRuns(x + t, S, c);
      [a[0]] + (CollapseRuns(x, S, c) + CollapseRuns(t, S, c));
      { Associative([a[0]], CollapseRuns(x, S, c), CollapseRuns(t, S, c)); }
      ([a[0]] + CollapseRuns(x, S, c)) + CollapseRuns(t, S, c);
    }
  }

  /** `a` is one run of `S`, followed by something outside it. */
  lemma CollapseAllRun(a: string, t: string, S: set<char>, c: char)
    requires a != [] && a[0] in S && DropRun(a[1..], S) == []
    requires Apart(a, t, S)
    ensures CollapseRuns(a + t, S, c) == CollapseRuns(a, S, c) + CollapseRuns(t, S, c)
  {
    DropRunDropped(a[1..], S);
    assert forall i :: 0 <= i < |a| - 1 ==> a[1..][i] in S;
    assert |a| > 1 ==> a[|a| - 1] == a[1..][|a| - 2];
    assert (a + t)[1..] == a[1..] + t;
    DropRunAll(a[1..], t, S);
  }

  /** `a` starts with a run of `S` that ends inside `a`: the run is replaced
      and `d`, the rest of `a`, is collapsed on its own. */
  lemma CollapseStep(a: string, t: string, S: set<char>, c: char) returns (d: string)
    requires a != [] && a[0] in S && DropRun(a[1..], S) != []
    ensures |d| < |a| && d != [] && d[|d| - 1] == a[|a| - 1]
    ensures CollapseRuns(a + t, S, c) == [c] + CollapseRuns(d + t, S, c)
    ensures CollapseRuns(a, S, c) == [c] + CollapseRuns(d, S, c)
  {
    d := DropRun(a[1..], S);
    DropRunDropped(a[1..], S);
    assert d[|d| - 1] == a[1..][|a| - 2];
    assert (a + t)[1..] == a[1..] + t;
    DropRunAppend(a[1..], t, S);
  }

  /** `a` starts outside `S`: its first character is kept. */
  lemma CollapsePlain(a: string, t: string, S: set<char>, c: char)
    requires a != [] && a[0] !in S
    ensures a[1..] == [] || a[1..][|a[1..]| - 1] == a[|a| - 1]
    ensures CollapseRuns(a + t, S, c) == [a[0]] + CollapseRuns(a[1..] + t, S, c)
    ensures CollapseRuns(a, S, c) == [a[0]] + CollapseRuns(a[1..], S, c)
  {
    assert (a + t)[1..] == a[1..] + t;
  }

  /** A nonempty run of `S` at the front becomes one `c`. */
  lemma CollapseLeadingRun(run: string, b: string, S: set<char>, c: char)
    requires run != [] && forall i :: 0 <= i < |run| ==> run[i] in S
    requires b == [] || b[0] !in S
    ensures CollapseRuns(run + b, S, c) == [c] + CollapseRuns(b, S, c)
  {
    assert (run + b)[1..] == run[1..] + b;
    DropRunAll(run[1..], b, S);
  }

  lemma CollapseJoin(a: string, run: string, b: string, S: set<char>, c: char)
    requires run != [] && forall i :: 0 <= i < |run| ==> run[i] in S
    requires a == [] || a[|a| - 1] !in S
    requires b == [] || b[0] !in S
    ensures CollapseRuns(a + (run + b), S, c) == CollapseRuns(a, S, c) + ([c] + CollapseRuns(b, S, c))
  {
    CollapseAppend(a, run + b, S, c);
    CollapseLeadingRun(run, b, S, c);
  }
}

=== FILE: timestamp_commands.dfy ===
/** helpers/allure/timestampCommands.ts: a local date and time written as
    `YYYY-MM-DD_HH-MM-SS`, appended to test and step names. The clock is
    replaced by the fields `new Date()` reports. */
module TimestampCommands {
  import opened Numbers

  /** `getFullYear()`, `getMonth()` (0-based), `getDate()`, `getHours()`,
      `getMinutes()` and `getSeconds()` of the current local time. */
  datatype LocalTime = LocalTime(year: int, month: nat, day: nat,
                                 hours: nat, minutes: nat, seconds: nat)

  /** The ranges `Date` keeps its fields in. */
  predicate ValidTime(t: LocalTime) {
    t.month < 12 && 1 <= t.day <= 31 && t.hours < 24 && t.minutes < 60 && t.seconds < 60
  }

  /** `generateTimestamp()`. */
  function GenerateTimestamp(t: LocalTime): string {
    IntToString(t.year) + "-" + Pad2(t.month + 1) + "-" + Pad2(t.day) + "_"
      + Pad2(t.hours) + "-" + Pad2(t.minutes) + "-" + Pad2(t.seconds)
  }

  /** Where the pieces of a timestamp land. */
  lemma TimestampPieces(y: string, mo: string, d: string, h: string, mi: string, se: string)
    requires |y| == 4 && |mo| == 2 && |d| == 2 && |h| == 2 && |mi| == 2 && |se| == 2
    ensures var s := y + "-" + mo + "-" + d + "_" + h + "-" + mi + "-" + se;
            |s| == 19
            && s[4] == '-' && s[7] == '-' && s[10] == '_' && s[13] == '-' && s[16] == '-'
            && s[..4] == y && s[5..7] == mo && s[8..10] == d
            && s[11..13] == h && s[14..16] == mi && s[17..19] == se
  {
    var date := y + "-" + mo + "-" + d;
    var time := h + "-" + mi + "-" + se;
    DatePieces(y, mo, d);
    DatePieces(h, mi, se);
    var s := y + "-" + mo + "-" + d + "_" + h + "-" + mi + "-" + se;
    assert s == date + "_" + time;
    assert s[..10] == date && s[11..] == time;
  }

  /** Where the three pieces of `a-b-c` land, for widths 4 or 2, 2 and 2. */
  lemma DatePieces(a: string, b: string, c: string)
    requires |b| == 2 && |c| == 2
    ensures var s := a + "-" + b + "-" + c;
            |s| == |a| + 6 && s[|a|] == '-' && s[|a| + 3] == '-'
            && s[..|a|] == a && s[|a| + 1..|a| + 3] == b && s[|a| + 4..] == c
  {
  }

  /** For a four-digit year the timestamp is nineteen characters long, with
      the separators at fixed places and, between them, the decimal numerals
      of the year, the 1-based month, the day, the hours, the minutes and the
      seconds, each of the last five exactly two digits wide. */
  lemma GenerateTimestampShape(t: LocalTime)
    requires ValidTime(t) && 1000 <= t.year <= 9999
    ensures var s := GenerateTimestamp(t);
            |s| == 19
            && s[4] == '-' && s[7] == '-' && s[10] == '_' && s[13] == '-' && s[16] == '-'
            && AllDigits(s[..4]) && DigitsValue(s[..4]) == t.year
            && AllDigits(s[5..7]) && DigitsValue(s[5..7]) == t.month + 1
            && AllDigits(s[8..10]) && DigitsValue(s[8..10]) == t.day
            && AllDigits(s[11..13]) && DigitsValue(s[11..13]) == t.hours
            && AllDigits(s[14..16]) && DigitsValue(s[14..16]) == t.minutes
            && AllDigits(s[17..19]) && DigitsValue(s[17..19]) == t.seconds
  {
    NatToStringLength4(t.year);
    TimestampPieces(IntToString(t.year), Pad2(t.month + 1), Pad2(t.day),
                    Pad2(t.hours), Pad2(t.minutes), Pad2(t.seconds));
  }

  /** Distinct times give distinct timestamps. */
  lemma GenerateTimestampInjective(t: LocalTime, u: LocalTime)
    requires ValidTime(t) && 1000 <= t.year <= 9999
    requires ValidTime(u) && 1000 <= u.year <= 9999
    requires GenerateTimestamp(t) == GenerateTimestamp(u)
    ensures t == u
  {
    GenerateTimestampShape(t);
    GenerateTimestampShape(u);
  }

  /** `addTimestampToTestName(name)` and `addTimestampToStepName(name)`, which
      are the same function. */
  function AddTimestampToName(name: string, t: LocalTime): (r: string)
    ensures |r| == |name| + 2 + |GenerateTimestamp(t)|
    ensures r[..|name|] == name && r[|name|..|name| + 2] == ": "
    ensures r[|name| + 2..] == GenerateTimestamp(t)
  {
    var stamp := GenerateTimestamp(t);
    var r := name + ": " + stamp;
    assert r[..|name|] == name && r[|name|..|name| + 2] == ": " && r[|name| + 2..] == stamp;
    r
  }
}

=== FILE: wdio_conf.dfy ===
/** config/wdio.conf.ts: the macOS name reported for a Darwin kernel
    version, and the browser capabilities chosen from the command-line
    flags. `process.argv` is a parameter. */
module WdioConf {
  import opened Results
  import opened Text
  import opened Numbers

  /** `parseInt(darwinVersion.split('.')[0], 10)`; `None` is `NaN`. */
  function DarwinMajor(darwinVersion: string): Option<int> {
    ParseInt(Split(darwinVersion, '.')[0])
  }

  /** Only the text before the first `.` is read. */
  lemma DarwinMajorBeforeDot(major: string, rest: string)
    requires '.' !in major
    ensures DarwinMajor(major + ['.'] + rest) == ParseInt(major)
  {
    SplitCons(major, '.', rest);
  }

  /** A version without a `.` is read whole. */
  lemma DarwinMajorWhole(v: string)
    requires '.' !in v
    ensures DarwinMajor(v) == ParseInt(v)
  {
  }

  function UnknownVersion(darwinVersion: string): string {
    "Unknown macOS version (Darwin " + darwinVersion + ")"
  }

  /** The macOS releases `getMacOSVersion` can name. */
  datatype Release = Sequoia | Sonoma | Ventura | Monterey | BigSur | Catalina

  /** The text each release is reported as. */
  function ReleaseText(r: Release): string {
    match r
    case Sequoia => "macOS Sequoia (15.0)"
    case Sonoma => "macOS Sonoma (14.x)"
    case Ventura => "macOS Ventura (13.x)"
    case Monterey => "macOS Monterey (12.x)"
    case BigSur => "macOS Big Sur (11.x)"
    case Catalina => "macOS Catalina (10.15)"
  }

  /** The release `getMacOSVersion` names, as written; `None` when it
      reports the version as unknown. `NaN` compares false with every
      number, so a version that does not parse is unknown. */
  function MacOSRelease(darwinVersion: string): (r: Option<Release>)
    ensures var m := DarwinMajor(darwinVersion);
            (r == Some(Sequoia) <==> m.Some? && m.value >= 24)
            && (r == Some(Ventura) <==> m == Some(23))
            && (r == Some(Monterey) <==> m == Some(22))
            && (r == Some(BigSur) <==> m == Some(21))
            && (r == Some(Catalina) <==> m == Some(20))
            && (r.None? <==> m.None? || m.value < 20)
            && r != Some(Sonoma)
  {
    var major := DarwinMajor(darwinVersion);
    if major.Some? && major.value >= 25 then Some(Sequoia)
    else if major == Some(24) then Some(Sequoia)
    else if major == Some(23) then Some(Ventura)
    else if major == Some(22) then Some(Monterey)
    else if major == Some(21) then Some(BigSur)
    else if major == Some(20) then Some(Catalina)
    else None
  }

  /** `getMacOSVersion(darwinVersion)`. */
  function GetMacOSVersion(darwinVersion: string): (r: string)
    ensures MacOSRelease(darwinVersion).None? ==> r == UnknownVersion(darwinVersion)
    ensures MacOSRelease(darwinVersion).Some? ==> r == ReleaseText(MacOSRelease(darwinVersion).value)
  {
    match MacOSRelease(darwinVersion)
    case Some(release) => ReleaseText(release)
    case None => UnknownVersion(darwinVersion)
  }

  /** The major version each release's text states. */
  function MajorVersion(r: Release): nat {
    match r
    case Sequoia => 15
    case Sonoma => 14
    case Ventura => 13
    case Monterey => 12
    case BigSur => 11
    case Catalina => 10
  }

  /** From Darwin 20 on, the macOS major version is the Darwin major version
      less nine (Darwin 20 is macOS 11, Darwin 24 is macOS 15). */
  function ReleaseVersion(darwinMajor: int): int
    requires darwinMajor >= 20
  {
    darwinMajor - 9
  }

  /** As written, Darwin 20 to 23 are named one macOS release too early: the
      version in the name is the Darwin major version less ten. */
  lemma GetMacOSVersionOffByOne(darwinVersion: string)
    requires DarwinMajor(darwinVersion).Some?
    requires 20 <= DarwinMajor(darwinVersion).value <= 23
    ensures MacOSRelease(darwinVersion).Some?
    ensures MajorVersion(MacOSRelease(darwinVersion).value) == DarwinMajor(darwinVersion).value - 10
    ensures MajorVersion(MacOSRelease(darwinVersion).value) != ReleaseVersion(DarwinMajor(darwinVersion).value)
  {
  }

  /** The kernels of macOS 14 report Darwin 23, such as "23.6.0", which is
      named Ventura. */
  lemma SonomaNamedVentura(darwinMajor: nat, rest: string)
    requires darwinMajor == 23
    ensures MacOSRelease(NatToString(darwinMajor) + "." + rest) == Some(Ventura)
    ensures GetMacOSVersion(NatToString(darwinMajor) + "." + rest) == "macOS Ventura (13.x)"
  {
    var major := NatToString(darwinMajor);
    assert '.' !in major by {
      assert forall i :: 0 <= i < |major| ==> IsDigit(major[i]);
    }
    DarwinMajorBeforeDot(major, rest);
    ParseNatToString(darwinMajor);
  }

  /** The mapping with each release under its own Darwin version. */
  function MacOSReleaseCorrected(darwinVersion: string): (r: Option<Release>)
    ensures var m := DarwinMajor(darwinVersion);
            r.None? <==> m.None? || m.value < 19
  {
    var major := DarwinMajor(darwinVersion);
    if major.Some? && major.value >= 24 then Some(Sequoia)
    else if major == Some(23) then Some(Sonoma)
    else if major == Some(22) then Some(Ventura)
    else if major == Some(21) then Some(Monterey)
    else if major == Some(20) then Some(BigSur)
    else if major == Some(19) then Some(Catalina)
    else None
  }

  function GetMacOSVersionCorrected(darwinVersion: string): (r: string)
    ensures MacOSReleaseCorrected(darwinVersion).None? ==> r == UnknownVersion(darwinVersion)
    ensures MacOSReleaseCorrected(darwinVersion).Some? ==>
              r == ReleaseText(MacOSReleaseCorrected(darwinVersion).value)
  {
    match MacOSReleaseCorrected(darwinVersion)
    case Some(release) => ReleaseText(release)
    case None => UnknownVersion(darwinVersion)
  }

  /** Corrected, the name states the release of the kernel for Darwin 20 to
      24, and Darwin 19 is Catalina. */
  lemma GetMacOSVersionCorrectedNamesRelease(darwinVersion: string)
    requires DarwinMajor(darwinVersion).Some?
    requires 19 <= DarwinMajor(darwinVersion).value <= 24
    ensures MacOSReleaseCorrected(darwinVersion).Some?
    ensures DarwinMajor(darwinVersion).value >= 20 ==>
              MajorVersion(MacOSReleaseCorrected(darwinVersion).value)
                == ReleaseVersion(DarwinMajor(darwinVersion).value)
    ensures DarwinMajor(darwinVersion).value == 19 ==>
              MacOSReleaseCorrected(darwinVersion) == Some(Catalina)
  {
  }

  /** The flags read from `process.argv`. */
  datatype Flags = Flags(headless: bool, firefox: bool, all: bool)

  function FlagsOf(argv: seq<string>): (f: Flags)
    ensures f.headless <==> "--headless" in argv
    ensures f.firefox <==> "--firefox" in argv
    ensures f.all <==> "--all" in argv
  {
    Flags("--headless" in argv, "--firefox" in argv, "--all" in argv)
  }

  datatype Browser = Chrome | Firefox

  /** One entry of `capabilities`: the browser name and its option `args`. */
  datatype Capability = Capability(browser: Browser, args: seq<string>)

  const BlinkFlag: string := "--disable-blink-features=BlockCredentialedSubresources"

  function ChromeCapability(headless: bool): Capability {
    Capability(Chrome, (if headless then ["--headless", "--disable-gpu"] else []) + [BlinkFlag])
  }

  function FirefoxCapability(headless: bool): Capability {
    Capability(Firefox, if headless then ["-headless"] else [])
  }

  /** The `capabilities` expression. */
  function Capabilities(argv: seq<string>): (r: seq<Capability>)
    ensures "--all" in argv ==> |r| == 2 && r[0].browser == Chrome && r[1].browser == Firefox
    ensures "--all" !in argv ==> |r| == 1 && (r[0].browser == Firefox <==> "--firefox" in argv)
  {
    var f := FlagsOf(argv);
    if f.all then [ChromeCapability(f.headless), FirefoxCapability(f.headless)]
    else if f.firefox then [FirefoxCapability(f.headless)]
    else [ChromeCapability(f.headless)]
  }

  /** Every chrome entry ends in the blink flag, preceded by `--headless`
      and `--disable-gpu` exactly when `--headless` is given; every firefox
      entry holds `-headless` exactly when it is given, and nothing else. */
  lemma CapabilityArgs(argv: seq<string>, i: nat)
    requires i < |Capabilities(argv)|
    ensures var c := Capabilities(argv)[i];
            (c.browser == Chrome ==>
               c.args == (if "--headless" in argv then ["--headless", "--disable-gpu"] else []) + [BlinkFlag])
            && (c.browser == Firefox ==>
               c.args == if "--headless" in argv then ["-headless"] else [])
  {
  }

  /** `--headless` changes the arguments only: the browsers chosen are the
      same with and without it. */
  lemma HeadlessKeepsBrowsers(argv: seq<string>)
    ensures var plain := Capabilities(argv);
            var headless := Capabilities(argv + ["--headless"]);
            |plain| == |headless|
            && forall i :: 0 <= i < |plain| ==> plain[i].browser == headless[i].browser
  {
    var h := argv + ["--headless"];
    assert "--all" in h <==> "--all" in argv;
    assert "--firefox" in h <==> "--firefox" in argv;
  }
}
